=== FILE: README.md ===
# SimpleCarAI in Dafny

A Dafny model of the simulation core of SimpleCarAI. This is a browser toy in
which cars drive around a randomly generated race track. A small neural
network steers each AI car, and the population evolves one generation at a
time. The model covers:

- the 2-D vector type;
- the segment intersection test;
- the closed cardinal spline that shapes the track, the borders offset from it, and the border-edge radius query;
- the track generator: seeding, relaxation, the corner scan with repeat removal, and retry;
- the per-tick vehicle rules: control integration, heading wrap, AI and bot control, progress and lap counting, sensors, and collision;
- the generation decision of a tick;
- the neural network: construction, copy, crossover, mutation, feed-forward and (de)serialisation;
- the evolution bookkeeping: fitness, generation records, elitist variation, and sensor blending and mutation;
- car creation, reset, human-control selection, and the ticks-per-callback rule.

Numbers are `real`s. `Math.sqrt`, `sin`, `cos`, `exp` and `acos` are
uninterpreted functions held in a `MathLib` value (`Base`). The properties
the proofs rely on are stated as predicates:

- `ExpPositive`: the exponential is positive;
- `LengthPositive`: a non-zero vector has a positive length;
- `SqrtOfZero`: the square root of 0 is 0.

`Math.random` and the Gaussian generator are oracles of type
`seq<nat> -> real`. Each random call site reads its own path, and `Unit` says
every draw lies in [0, 1). Module-global state (cars, generation, records,
settings, tick counter, track) is an explicit `World` value. A thrown
`TypeError` is an `Err` result.

Modules, one per file:

- `Base`: options, results, oracles, JavaScript rounding and remainder, subsequences;
- `Vectors`: vector.ts;
- `Config`: constants;
- `Intersection`, `Spline`, `Boundary`: cardinalSpine.ts;
- `NeuralNet`: neuralnet.ts;
- `Entities`: the records of types.d.ts;
- `Physics`: the per-car rules of physics.ts;
- `Simulation`: the whole tick;
- `Evolution`: neuroEvolution.ts;
- `Cars`: the car operations and the tick scheduling of main.ts;
- `TrackGen`: generateRaceTrack.

## Model

| member | source | states |
|---|---|---|
| Vectors.Make | src/vector.ts:5-12 | one argument sets both coordinates to it, two set them separately |
| Vectors.Vector2.Vector2 | src/vector.ts:5-12 | the constructor: a missing y copies x into both coordinates, otherwise each is set from its own argument |
| Vectors.Vector2.AddInPlace | src/vector.ts:14-18 | adds the argument's coordinates into the receiver and returns the receiver itself |
| Vectors.Vector2.SubtractInPlace | src/vector.ts:20-24 | subtracts the argument's coordinates from the receiver and returns the receiver itself |
| Vectors.Vector2.MultiplyInPlace | src/vector.ts:26-30 | multiplies the receiver component-wise by the argument and returns the receiver itself |
| Vectors.Vector2.RotateInPlace | src/vector.ts:32-40 | the receiver becomes the rotation of its old value: both new coordinates are computed from the old x and old y, then the receiver is returned |
| Vectors.Vector2.Clone | src/vector.ts:78-80 | a new vector with the receiver's coordinates |
| Vectors.Add | src/vector.ts:14-18 | taking the argument off the sum again gives the first vector back |
| Vectors.Subtract | src/vector.ts:20-24 | the difference is what the second point must move by to reach the first |
| Vectors.Multiply | src/vector.ts:26-30 | the unit vector (1, 1) leaves a vector alone, and a factor with no zero coordinate can be divided out again |
| Vectors.Rotate | src/vector.ts:32-40 | when sin² + cos² = 1, the squared length is kept, as both new coordinates are computed from the old ones |
| Vectors.RotationIdentity | src/vector.ts:32-40 | rotating (x, y) by a unit (cos, sin) pair keeps x² + y² |
| Vectors.Length | src/vector.ts:50-52 | the square root of the vector's dot product with itself, and the root of zero for the zero vector |
| Vectors.Distance | src/vector.ts:42-44 | a point is at the root of zero from itself |
| Vectors.DistanceSymmetric | src/vector.ts:42-44 | the distance is the same measured from either end |
| Vectors.AddThenSubtract | src/vector.ts:14-24 | on the mutable vector: add then subtract restores the receiver and leaves a distinct argument untouched |
| Vectors.RotateKeepsLength | src/vector.ts:32-40 | when sin² + cos² = 1, a rotated vector has the same length as before |
| Vectors.RotateSubtract | src/vector.ts:32-44 | rotating a difference is the difference of the rotated points |
| Vectors.RotateKeepsDistance | src/vector.ts:32-44 | when sin² + cos² = 1, rotating two points by the same angle keeps the distance between them |
| Vectors.Normalize | src/vector.ts:58-63 | defined only for a non-zero length; scaling the result back by the length gives the input |
| Vectors.ToArray | src/vector.ts:74-76 | two entries that read back as the vector |
| Vectors.CloneIsIndependent | src/vector.ts:78-80 | mutating a clone leaves the original unchanged |
| Intersection.LineIntersects | src/cardinalSpine.ts:80-94 | no point for a zero determinant; otherwise a point exactly when both parameters lie in (-0.01, 1.01), and that point is p1 + lambda (p2 - p1) |
| Intersection.IntersectionOnSecondLine | src/cardinalSpine.ts:85-90 | a returned point also lies on the line through p3 and p4, at parameter gamma from p4 |
| Intersection.SwapParameters | src/cardinalSpine.ts:82-86 | swapping the two segments negates the determinant and mirrors lambda and gamma |
| Intersection.IntersectsSymmetric | src/cardinalSpine.ts:80-94 | the first pair of segments intersects exactly when the swapped pair does |
| Spline.Points | src/cardinalSpine.ts:96-165 | reading a flat x,y array as points halves its length and keeps each pair |
| Spline.Flatten | src/cardinalSpine.ts:96-165 | the flat array holds each point's x then y |
| Spline.PointsOfFlatten | src/cardinalSpine.ts:96-165 | flattening and reading back is the identity |
| Spline.FlattenAppend | src/cardinalSpine.ts:159-160 | flattening commutes with concatenation, as the sample loop pushes x and y in turn |
| Spline.Extend | src/cardinalSpine.ts:116-129 | closed curves put the last point in front twice and append the first; open ones repeat the end points |
| Spline.ExtendFlat | src/cardinalSpine.ts:116-129 | the flat copy reads back as the extended points |
| Spline.DefaultTension | src/cardinalSpine.ts:99 | an undefined tension becomes 0.5 and a defined one (even 0) is kept |
| Spline.DefaultSegments | src/cardinalSpine.ts:101 | a zero segment count becomes 16, and any other is kept |
| Spline.Segment | src/cardinalSpine.ts:136-162 | each segment emits numOfSegments + 1 samples |
| Spline.SegmentsBefore | src/cardinalSpine.ts:135-163 | the segments before q emit (q - 1) times the per-segment count |
| Spline.BasisEnds | src/cardinalSpine.ts:149-152 | the cardinal weights are (1, 0, 0, 0) at step 0 and (0, 1, 0, 0) at step 1 |
| Spline.Hermite | src/cardinalSpine.ts:149-156 | the weights (1, 0, 0, 0) give the segment's start value and (0, 1, 0, 0) its end value, and with tension 0 the tangents drop out |
| Spline.SampleAtBasis | src/cardinalSpine.ts:139-156 | a sample is the Hermite combination of the four neighbouring control points |
| Spline.SampleEnds | src/cardinalSpine.ts:146-156 | step 0 gives the segment's start point and step 1 its end point |
| Spline.SegmentAt | src/cardinalSpine.ts:136-146 | sample t of a segment is taken at step t / numOfSegments |
| Spline.SegmentFirst | src/cardinalSpine.ts:136-146 | a segment's first sample is taken at step 0 |
| Spline.SegmentLast | src/cardinalSpine.ts:136-146 | a segment's last sample is taken at step 1 |
| Spline.SegmentEndpoints | src/cardinalSpine.ts:136-160 | a segment's first sample is its start point and its last sample is its end point |
| Spline.SegmentsBeforeIndex | src/cardinalSpine.ts:135-163 | sample j of segment k sits at index (k - 1)(m + 1) + j of the output |
| Spline.ConsecutiveSegmentsShareAPoint | src/cardinalSpine.ts:135-163 | the last sample of a segment equals the first sample of the next one, so the output repeats a point |
| Spline.CurveEndpoints | src/cardinalSpine.ts:135-163 | in the whole curve, segment k starts at extended point k and ends at point k + 1 |
| Spline.ClosedCurveInterpolates | src/cardinalSpine.ts:116-163 | a closed curve through n points passes through every input point at the segment boundaries, starting from the last point |
| Spline.AppendSegments | src/cardinalSpine.ts:135-163 | the nested sample loop emits exactly the flattened samples of every segment in order |
| Spline.AppendSegment | src/cardinalSpine.ts:136-161 | the inner sample loop appends exactly the flattened samples of one segment |
| Spline.CurvePointsLength | src/cardinalSpine.ts:96-165 | a curve through n points has n segments when closed and n - 1 when open, each of numOfSegments + 1 samples of two numbers |
| Spline.GetCurvePoints | src/cardinalSpine.ts:96-165 | the result is the flattened curve; a closed curve of 2n numbers gives 2n (numOfSegments + 1) numbers, and an open one 2(n - 1)(numOfSegments + 1) |
| Boundary.OffsetPoint | src/cardinalSpine.ts:22-27 | an offset point lies on the perpendicular through the midpoint of its edge |
| Boundary.DistinctHaveLength | src/cardinalSpine.ts:24-25 | the repeat test makes the normalised edge well defined |
| Boundary.RawOffsetsFrom | src/cardinalSpine.ts:21-29 | at most one entry per edge from i on, and exactly one per edge when none has zero length |
| Boundary.RawOffsets | src/cardinalSpine.ts:21-29 | at most points.length - 3 entries, and exactly that many when no edge has zero length |
| Boundary.RawOffsetsSound | src/cardinalSpine.ts:21-29 | every entry is the offset point of an edge with distinct ends, from index i on |
| Boundary.RepairCrossings | src/cardinalSpine.ts:31-49 | the repair only deletes, so the result is a subsequence of its input; it is no longer, and it is unchanged when nothing crosses |
| Boundary.CutCrossings | src/cardinalSpine.ts:33-48 | the inner repair loop for one line keeps a non-empty subsequence of the raw offsets, no longer than before, and unchanged when nothing crosses |
| Base.Splice | src/cardinalSpine.ts:45 | the deleting form of splice removes the entries from start up to start + count, cut short at the end, and keeps the rest in order |
| Boundary.SpliceKeepsOne | src/cardinalSpine.ts:37-46 | a splice from min(i, j) over the wrap-around distance always leaves at least one entry |
| Boundary.GetOffsetPoints | src/cardinalSpine.ts:18-52 | the border is a subsequence of the raw offsets, with at most points.length - 3 entries |
| Boundary.NeighboursWrap | src/cardinalSpine.ts:62-63 | next and previous are the wrap-around neighbours |
| Boundary.NearIndices | src/cardinalSpine.ts:59-65 | the qualifying indices are increasing and in range |
| Boundary.NearIndicesExact | src/cardinalSpine.ts:59-65 | an index is listed exactly when its point qualifies |
| Boundary.EdgesFrom | src/cardinalSpine.ts:59-65 | two edges are emitted per qualifying point |
| Boundary.EdgesAt | src/cardinalSpine.ts:59-65 | the two edges of the p-th qualifying point are point to next, then point to previous |
| Boundary.EdgesComplete | src/cardinalSpine.ts:59-65 | every qualifying point contributes both of its edges |
| Boundary.EdgeStartsNear | src/cardinalSpine.ts:59-65 | every emitted edge starts at a qualifying point |
| Boundary.FindNearestBorderLines | src/cardinalSpine.ts:54-77 | the result holds two edges for each inner and each outer point within maxDist |
| Boundary.NearestBorderLinesOrder | src/cardinalSpine.ts:54-77 | the edges come in push order: for each near inner point in index order, the edge to the next point and then the edge to the previous one; then the same for the near outer points |
| Boundary.NearestBorderLinesExact | src/cardinalSpine.ts:54-77 | each inner or outer point within maxDist contributes both of its edges, and every edge starts at such a point |
| NeuralNet.Layers | src/neuralnet.ts:26 | the layer list is the input layer, the hidden layers, then the output layer |
| NeuralNet.Create | src/neuralnet.ts:6-41 | a fresh network has car-shaped weights and biases and zeroed layers of the car's sizes |
| NeuralNet.Zeros | src/neuralnet.ts:16-24 | a layer of n activations, all zero |
| NeuralNet.RandomRow | src/neuralnet.ts:33 | each bias is 2 times its own draw minus 1 |
| NeuralNet.RandomMatrix | src/neuralnet.ts:35 | each weight row is a random row drawn on its own path |
| NeuralNet.Block | src/neuralnet.ts:45-51 | copy reads the top-left block of the requested size |
| NeuralNet.CreateInRange | src/neuralnet.ts:28-38 | every initial weight and bias lies in [-1, 1) |
| NeuralNet.RandomRowInRange | src/neuralnet.ts:33 | each drawn row entry lies in [-1, 1) |
| NeuralNet.RandomMatrixInRange | src/neuralnet.ts:35 | each drawn matrix entry lies in [-1, 1) |
| NeuralNet.CarShape | src/neuralnet.ts:16-38 | car-shaped weights make a well-formed network of the car's sizes, and it is non-increasing exactly when 3 <= hidden <= inputs |
| NeuralNet.CarBrainFeedable | src/neuralnet.ts:61-68 | a car brain can be fed forward exactly when its hidden layer has between 3 and InputCount nodes |
| NeuralNet.CarShapedCovers | src/neuralnet.ts:45-51 | an exact car shape covers the positions copy reads |
| NeuralNet.Overlay | src/neuralnet.ts:43-54 | the copy has the fresh network's layers and every weight and bias of the source |
| NeuralNet.Copy | src/neuralnet.ts:43-54 | a copy is a well-formed network of the car's sizes |
| NeuralNet.BlockOfExact | src/neuralnet.ts:45-51 | copying a block of exactly the block's size gives it back |
| NeuralNet.CopyExact | src/neuralnet.ts:43-54 | copying a car brain reproduces its weights and biases, whatever the fresh network drew |
| NeuralNet.PickRow | src/neuralnet.ts:82-84 | each entry comes from the first row when the coin exceeds 0.5, and from the second otherwise |
| NeuralNet.PickMatrix | src/neuralnet.ts:80-83 | each weight row is picked entry by entry on its own coin path |
| NeuralNet.CreateOffspring | src/neuralnet.ts:76-89 | the offspring has the fresh network's layers and a car shape |
| NeuralNet.OffspringFromParents | src/neuralnet.ts:79-86 | every weight and bias equals the one at the same position in one of the parents |
| NeuralNet.OffspringOfSelf | src/neuralnet.ts:76-89 | crossing a brain with itself is copying it |
| NeuralNet.MutateRow | src/neuralnet.ts:119 | each entry is nudged by its own draw times the rate |
| NeuralNet.MutateMatrix | src/neuralnet.ts:115-118 | each row is mutated on its own path |
| NeuralNet.Mutate | src/neuralnet.ts:113-122 | the dimensions and layers stay, and every matrix and bias row is nudged |
| NeuralNet.MutateWeights | src/neuralnet.ts:117 | every weight moves by its own draw times the rate |
| NeuralNet.MatrixEntry | src/neuralnet.ts:117 | one weight of a mutated matrix is the nudged original |
| NeuralNet.MutateBiases | src/neuralnet.ts:119 | every bias moves by its own draw times the rate |
| NeuralNet.MutateProperties | src/neuralnet.ts:113-122 | mutation keeps a network well formed, and rate 0 changes nothing |
| NeuralNet.MutateKeepsCarShape | src/neuralnet.ts:113-122 | a mutated car brain is still car-shaped |
| NeuralNet.BrainToJson | src/neuralnet.ts:91-96 | the serialised data carries exactly the weights and the biases |
| NeuralNet.BrainFromJson | src/neuralnet.ts:98-111 | loading fails whenever the source throws, that is when a row it dereferences (biases[0], or weights[0], weights[0][j], weights[1], weights[1][j] and biases[1] for a non-empty hidden layer) is missing; it succeeds exactly when every position read holds a number, and a loaded network has the fresh network's layers |
| NeuralNet.CoversCarDereferences | src/neuralnet.ts:98-111 | data with a number at every position of a car's network passes all of the source's dereferences |
| NeuralNet.BrainJsonRoundTrip | src/neuralnet.ts:91-111 | loading the serialised data of a car brain succeeds and gives its copy, with the same weights and biases |
| NeuralNet.Sigmoid | src/neuralnet.ts:124-126 | the sigmoid lies strictly between 0 and 1 |
| NeuralNet.LayerOutput | src/neuralnet.ts:62-69 | a recomputed layer keeps its size |
| NeuralNet.LayerOutputInUnit | src/neuralnet.ts:62-69 | every recomputed neuron lies strictly between 0 and 1 |
| NeuralNet.ForwardFrom | src/neuralnet.ts:61-70 | recomputing from layer i keeps the layers before i and every layer's size |
| NeuralNet.WriteInput | src/neuralnet.ts:58 | the inputs overwrite the front of the input layer and the rest stays |
| NeuralNet.Forward | src/neuralnet.ts:57-73 | feeding forward never changes weights or biases |
| NeuralNet.ForwardProperties | src/neuralnet.ts:57-73 | the result is well formed with the same sizes, holds the inputs in front, and every output lies in (0, 1) |
| NeuralNet.ForwardFromInUnit | src/neuralnet.ts:61-70 | every recomputed layer lies in (0, 1) |
| NeuralNet.NeuronSum | src/neuralnet.ts:63-66 | the accumulation loop computes the weighted sum of the previous layer |
| NeuralNet.ComputeLayer | src/neuralnet.ts:62-69 | the neuron loop computes the layer's output |
| NeuralNet.FeedForward | src/neuralnet.ts:57-73 | the loops compute the functional forward pass and return the network's own output layer, of the output size |
| NeuralNet.CopyInput | src/neuralnet.ts:58 | the input loop writes the inputs over the input layer |
| NeuralNet.ComputeLayers | src/neuralnet.ts:60-70 | the layer loop recomputes every layer after the input in order |
| Physics.TickDelta | src/physics.ts:16-21 | delta is 50 when any car is AI-driven, and the elapsed time otherwise |
| Physics.CarControls | src/physics.ts:199-209 | only velocity and steering change; accelerating adds 0.01 delta; braking then takes 0.02 delta off a speed above 0.04 and 0.001 delta off a lower one, after any acceleration; the steering rate is (steer - 0.5) 0.05 delta |
| Physics.ControlsBounds | src/physics.ts:199-209 | the velocity changes by -0.02 delta to +0.01 delta; no pedal keeps it; accelerating alone adds 0.01 delta; braking alone takes 0.02 delta off a speed above 0.04 and 0.001 delta otherwise; both pedals move it by -0.01 delta to +0.009 delta; a steer in [0, 1] turns by at most 0.025 delta and 0.5 not at all |
| Physics.SteerBound | src/physics.ts:207 | a steer in [0, 1] gives a rate within 0.025 delta either way |
| Physics.WrapHeading | src/physics.ts:48-50 | a negative heading gains 2 PI, one above 2 PI loses 2 PI, and a heading in [0, 2 PI] is kept |
| Physics.HeadingStaysInRange | src/physics.ts:48-50 | a heading in [0, 2 PI] stays there after a turn of at most 2 PI |
| Physics.Move | src/physics.ts:46-50 | the position advances by the velocity rotated to the heading, the velocity is scaled by the friction factor 1 - 0.00015 delta, the heading turns by the steering and is wrapped, and nothing else changes |
| Physics.FrictionSlows | src/physics.ts:47 | friction never reverses or speeds up the car |
| Physics.AiInputs | src/physics.ts:69-73 | the inputs are the sensors, then velocity / 5, then sin(direction) |
| Physics.ClampUnit | src/physics.ts:80 | clamping lands in [0, 1] and leaves values already in it alone |
| Physics.ControlByAI | src/physics.ts:66-82 | the brain is fed the inputs; accelerate and brake mean outputs 0 and 1 exceed 0.9, and steer lies in [0, 1] |
| Physics.AiSteersWithOutput | src/physics.ts:75-81 | the steer is output 2 itself, strictly inside (0, 1), and the weights are untouched |
| Physics.ControlByBot | src/physics.ts:84-100 | accelerate below speed 1, never brake, steer 0 for a close sensor 1, otherwise 1 for a close sensor 3, otherwise 0.5 |
| Physics.ArgMin | src/physics.ts:110-120 | the lowest index among the nearest centre-line points |
| Physics.ProgressCandidate | src/physics.ts:110-126 | the nearest point's index, shifted back by raceTrackSegments under JavaScript's remainder, plus the fraction toNext / pointToNext rounded to a tenth (within 0.05 of the ratio); no candidate exactly when the next point coincides with the nearest; on a line of at least raceTrackSegments points, the index part lies on the line and, for a non-negative ratio, the candidate is non-negative |
| Base.Round | src/physics.ts:125 | Math.round gives an integer within one half of its argument, with halves rounded up |
| Base.JsRem | src/physics.ts:126 | the remainder keeps the sign of the dividend and is below the divisor in size |
| Physics.Distances | src/physics.ts:113-116 | every centre-line point's distance to the car |
| Physics.AdvanceProgress | src/physics.ts:128-142 | a wrap increments the lap, and lap 3 without a record is an error; progress moves only by a wrap or a forward step of at most 10, and only lap 3 sets the completion time and the crash |
| Physics.CalculateProgress | src/physics.ts:107-143 | no centre line is an error, an undefined candidate changes nothing, and otherwise the lap state machine runs on the candidate |
| Physics.Rays | src/physics.ts:152 | one ray per configured sensor, from the car to the rotated offset |
| Physics.CrossedRayHasLength | src/physics.ts:158-160 | a ray that meets a border line has a positive length, so the ratio is defined |
| Physics.HitRatio | src/physics.ts:158-160 | a ratio exactly when the border line meets the ray; the ray then has a positive length, and the ratio times that length is the car's distance to the crossing |
| Physics.Keep | src/physics.ts:161-163 | one step of a reading: absent only when both are, one of the two, and no larger than either |
| Physics.ReadingAfter | src/physics.ts:155-165 | no edge gives no reading, and the latest crossing edge bounds the reading from above |
| Physics.Reading | src/physics.ts:155-168 | 1 when no edge crosses the ray, and otherwise the smallest hit ratio, reached by some edge |
| Physics.ReadingIsMinimum | src/physics.ts:155-166 | a reading is missing exactly when no line crosses the ray, and is otherwise the smallest hit ratio |
| Physics.SensorReadings | src/physics.ts:145-169 | every configured sensor gets its reading or 1, and later readings stay |
| Physics.Pad | src/physics.ts:162 | writing past the end lengthens the readings and keeps the front |
| Physics.ApplyHits | src/physics.ts:156-164 | each hit keeps the smaller of the held reading and the new ratio, and the others stay |
| Physics.SensorDetection | src/physics.ts:145-169 | the nested loops compute the functional readings |
| Physics.SweepEdges | src/physics.ts:153-166 | after every edge, a ray holds a reading exactly when some edge crosses it, and that reading is the smallest hit ratio so far |
| Physics.FillMissing | src/physics.ts:168 | every ray no edge crossed reads 1, and the others keep their reading |
| Physics.CarLines | src/physics.ts:179-184 | four car lines |
| Physics.CarLinesShape | src/physics.ts:179-184 | the first and third lines are parallel, and the two diagonals cross at the car's position |
| Physics.Crash | src/physics.ts:189-191 | speed and steering become 0 and the car is crashed, and nothing else changes |
| Physics.CollisionOutcome | src/physics.ts:171-197 | the car crashes exactly when a nearby border crosses one of its lines, and otherwise stays as it was |
| Physics.CollisionDetection | src/physics.ts:171-197 | the loops compute the functional outcome |
| Physics.GenerationDecision | src/physics.ts:53-63 | a check is due exactly when the duration is exceeded or the cars stalled after 100 ticks; a due check extends when progress gained over 0.5 or movement over 4, and advances otherwise |
| Physics.DecisionCases | src/physics.ts:53-63 | within both limits nothing happens, and a stall with no progress advances the generation |
| Simulation.LastRecordTick | src/physics.ts:54-55 | the tick of the latest record, absent when there is none |
| Simulation.Drive | src/physics.ts:37-38 | a bot is driven by the bot rule and an AI car with a brain by the network, which keeps its weights and biases; an AI car without a brain is an error (the source dereferences `car.brain!`); human and driverless cars are unchanged; only the controls and the brain can change |
| Simulation.CarStep | src/physics.ts:36-50 | for a running car: a brainless AI car fails the step, and a successful step keeps the car's control and colour |
| Simulation.CarStepKeeps | src/physics.ts:34-51 | a car step keeps the control, colour, sensor layout and brain weights, keeps a brain's sizes, and leaves the car ready for the next tick |
| Simulation.Abs | src/physics.ts:45 | the absolute value |
| Simulation.GatherProperties | src/physics.ts:34-51 | the tick fails exactly when some car's step failed; otherwise it sums every car's progress and a non-negative movement |
| Simulation.StepsKeepReady | src/physics.ts:34-51 | crashed cars are skipped unchanged, every car stays ready, and AI cars keep brains fit for the next generation |
| Simulation.StepResults | src/physics.ts:31-51 | a crashed car stays as it is with no movement, and every other car takes its own step, independently of the others |
| Simulation.StepCars | src/physics.ts:31-51 | the cars keep their number and controls, and the progress total is taken before any car moves |
| Simulation.PausedTick | src/physics.ts:23 | a paused tick changes nothing |
| Simulation.EndOfTick | src/physics.ts:53-63 | no generation leaves the world as it is; a generation with no record is an error, as reading the last record's tick throws; a successful check keeps every car's driver kind and pedal and steering state, the number of cars, the track and the tick state |
| Simulation.EndOfTickAdvances | src/physics.ts:53-61 | a due check that advances runs a new generation and keeps the tick state |
| Simulation.EndOfTickProperties | src/physics.ts:53-61 | without a generation nothing changes; with one, an undue check changes nothing, and a due one either extends the duration by 10 or advances the generation |
| Simulation.Tick | src/physics.ts:14-64 | a successful running tick steps every car, and then runs the generation check on the counted world whose AI cars are still fit to breed |
| Simulation.TickCounts | src/physics.ts:14-64 | a tick counts once, records the progress total as the previous progress, and keeps the cars' number, the track and the settings that are not durations |
| Simulation.TickKeepsReady | src/physics.ts:14-64 | a successful running tick leaves the world ready for the next tick, whatever the number of AI cars |
| Simulation.EndOfTickKeepsReady | src/physics.ts:53-63 | a successful generation check on a ready world stays ready, whatever progress total is recorded next |
| Simulation.EvolveKeepsReady | src/neuroEvolution.ts:49-90 | a new generation of a ready world is ready again: every AI car gets a car brain or none, and a crashed AI car has a brain |
| Simulation.BrainlessCarFailsTick | src/physics.ts:34-38 | a running tick fails when an uncrashed AI car has no brain, as the 51st car does after a spawn following startEvolution |
| Simulation.BrainlessCarFailsLoop | src/physics.ts:34-38 | the car loop fails when an uncrashed AI car has no brain |
| Simulation.StepFailsLoop | src/physics.ts:34-51 | one failed car step fails the whole loop |
| Simulation.TickGeneration | src/physics.ts:53-63 | without a generation none starts; with one, an undue check keeps it, and any tick keeps it, extends it by 10 or advances it by one record |
| Evolution.CarFitness | src/neuroEvolution.ts:139-145 | the fitness is progress plus the flat array's length per lap, plus 10000 minus the completion time for a finisher |
| Evolution.FitnessRanking | src/neuroEvolution.ts:139-145 | a finisher outranks any car that has not finished, and each lap adds the flat array's length |
| Evolution.AiIndices | src/neuroEvolution.ts:56 | exactly the AI positions, in order |
| Evolution.Insert | src/neuroEvolution.ts:62 | insertion adds exactly one element |
| Evolution.InsertDescending | src/neuroEvolution.ts:62 | insertion keeps a list in descending order |
| Evolution.TailKeepsOrder | src/neuroEvolution.ts:62 | dropping the first entry keeps a list descending with its ties in order |
| Evolution.HeadBeforeInserted | src/neuroEvolution.ts:62 | after an insertion into the tail, an entry tying with the head comes after it in the original order |
| Evolution.InsertStable | src/neuroEvolution.ts:62 | inserting an entry larger than all others keeps equal-key entries in increasing order |
| Evolution.SortStep | src/neuroEvolution.ts:62 | one insertion step of the sort keeps ties in their original order |
| Evolution.SortDescending | src/neuroEvolution.ts:62 | the ranking is a permutation in descending fitness, and stable: entries with equal keys keep their increasing original order |
| Evolution.FastestTime | src/neuroEvolution.ts:58-60 | the smallest truthy completion time, absent exactly when none is truthy |
| Evolution.SumAtMost | src/neuroEvolution.ts:63 | a sum of values bounded by a top is at most the count times the top |
| Evolution.AverageAtMost | src/neuroEvolution.ts:63 | an average of values bounded by a top is at most the top |
| Evolution.BestIsMaximum | src/neuroEvolution.ts:62-67 | the head of a descending ranking is the maximum and at least the average |
| Evolution.LeaderOfPermutation | src/neuroEvolution.ts:62-67 | the head of a descending reordering has the greatest key of the original list and at least the average |
| Evolution.OffspringSensors | src/neuroEvolution.ts:156-164 | the result has the first parent's length and blends each pair of rays with its own draw |
| Evolution.Blend | src/neuroEvolution.ts:160-161 | the blended ray is the point a of the way from the second parent's ray to the first's: the first at weight 1, the second at 0 |
| Evolution.BlendBetween | src/neuroEvolution.ts:160-161 | a blend with weight in [0, 1) lies between the two values |
| Evolution.OffspringSensorsBetween | src/neuroEvolution.ts:156-164 | every blended coordinate lies between the parents' coordinates |
| Evolution.MutateSensors | src/neuroEvolution.ts:147-154 | the same number of rays, each coordinate shifted by (draw - 0.5) times the rate times a Gaussian draw |
| Evolution.MutateSensorsProperties | src/neuroEvolution.ts:147-154 | rate 0, or every uniform draw at 0.5, leaves the rays unchanged; for a non-negative rate, each coordinate moves by at most half the rate times the size of its gaussian draw |
| Evolution.ShiftBound | src/neuroEvolution.ts:150-151 | a shift of (draw - 0.5) times the rate times a Gaussian value, with a draw in [0, 1), moves by at most half the rate times the value's size |
| Evolution.PickIndex | src/neuroEvolution.ts:118-119 | the first parent comes from the first half, and the second from anywhere |
| Evolution.Parent | src/neuroEvolution.ts:118-119 | the first parent's index is below half the elite count, and every parent index is in range |
| Evolution.Rate | src/neuroEvolution.ts:124 | the mutation rate lies in [0, 5) |
| Evolution.VariationSensors | src/neuroEvolution.ts:122-127 | a variation's rays have the elites' length |
| Evolution.VariationBrain | src/neuroEvolution.ts:118-126 | a variation's mutated offspring brain has the car's shape |
| Evolution.Variation | src/neuroEvolution.ts:116-131 | a variation has a car brain and the elites' number of rays |
| Evolution.VariationFromParents | src/neuroEvolution.ts:116-131 | a variation's brain is a mutated crossover of a first-half parent and any parent, at a rate in [0, 5) |
| Evolution.Variations | src/neuroEvolution.ts:116-131 | the requested number of variations, each drawn on its own paths |
| Evolution.CreateVariations | src/neuroEvolution.ts:111-137 | the elites come first and unchanged, followed by amount minus their number of variations |
| Evolution.VariationsReady | src/neuroEvolution.ts:111-137 | all genomes have car brains and equal ray counts |
| Evolution.AiGenomesReadyConcat | src/neuroEvolution.ts:30-31 | appending AI cars with car brains keeps every AI car ready |
| Evolution.StartBrain | src/neuroEvolution.ts:27-28 | a copy of the loaded network or a fresh one, car-shaped in either case |
| Evolution.StartCars | src/neuroEvolution.ts:24-32 | carAmount new AI cars, each a created car with a car brain |
| Evolution.StartEvolution | src/neuroEvolution.ts:18-41 | generation 0, the new AI cars appended, and one zero record at the current tick; it fails exactly when a loaded network does not cover a car network (a number at every weight and bias position of the car's sizes), which a network loaded by brainFromJson always does |
| Evolution.StartEvolutionProperties | src/neuroEvolution.ts:18-41 | exactly carAmount cars are added behind the existing ones, all AI cars stay ready, and one record is added |
| Evolution.CancelEvolution | src/neuroEvolution.ts:43-47 | no generation, no records, and nothing else changes |
| Evolution.CancelStopsGenerations | src/neuroEvolution.ts:49-51 | after a cancel, a new generation is a no-op |
| Evolution.GenomesAt | src/neuroEvolution.ts:113-114 | the elites' brains and ray layouts, in ranking order |
| Evolution.IndexIn | src/neuroEvolution.ts:77 | a car's first position in the ranking |
| Evolution.GenomeAt | src/neuroEvolution.ts:78-79 | reading past the variations gives nothing |
| Evolution.Renewed | src/neuroEvolution.ts:77-83 | a renewed car is reset, keeps its driver, controls and readings, takes its genome (or none), and is yellow exactly when it ranks first |
| Evolution.RenewCars | src/neuroEvolution.ts:77-83 | non-AI cars stay, and each AI car is renewed with the genome at its ranking position |
| Evolution.OrderHoldsAi | src/neuroEvolution.ts:56-62 | a permutation of the AI positions holds exactly the AI cars |
| Evolution.Ranking | src/neuroEvolution.ts:56-62 | the AI positions sorted by descending fitness, with fitness ties in the cars' original order |
| Evolution.Record | src/neuroEvolution.ts:58-71 | the record takes the leader's fitness, the mean fitness over every AI car, the best truthy completion time (0 when none), the new generation number and the current tick |
| Evolution.BestTime | src/neuroEvolution.ts:58-60 | 0 when no AI car has a truthy completion time; otherwise a non-zero time that some AI car has and that no truthy time undercuts |
| Evolution.SumAtRemove | src/neuroEvolution.ts:63 | removing one index from a sum takes exactly its value off |
| Evolution.SumAtPermutation | src/neuroEvolution.ts:62-63 | sorting the cars does not change the fitness sum, so the average is the same in any order |
| Evolution.RecordProperties | src/neuroEvolution.ts:62-71 | the recorded best fitness is the greatest AI fitness, some AI car has it, and the average does not exceed it |
| Evolution.Fitnesses | src/neuroEvolution.ts:62 | every car's fitness |
| Evolution.NewGeneration | src/neuroEvolution.ts:49-90 | a no-op without a generation, an error when there is no AI car, and otherwise the next generation |
| Evolution.Evolve | src/neuroEvolution.ts:53-83 | the generation increments, exactly one record is appended, the number of cars is kept, and every car keeps its driver kind and its pedal and steering state |
| Evolution.NextGenomes | src/neuroEvolution.ts:75-76 | the top ten (or fewer) genomes unchanged, then variations up to carAmount |
| Evolution.AiIndicesByControl | src/neuroEvolution.ts:56 | the AI positions depend only on the controls |
| Evolution.RenewCarsProperties | src/neuroEvolution.ts:77-83 | every AI car is reset with its genome, or none past the variations; exactly the leader is yellow, and the AI positions stay |
| Evolution.EvolveCars | src/neuroEvolution.ts:49-90 | every AI car is reset, the world stays ready when the variations cover the AI cars, and every AI car has a car brain or none, with a brain whenever it is crashed |
| Evolution.RenewCarsSound | src/neuroEvolution.ts:77-83 | renewed AI cars carry car brains with the elites' ray count, or no brain |
| Evolution.RenewCarsElites | src/neuroEvolution.ts:77-83 | the leader keeps its genome and is the only yellow car, and with no more AI cars than elites, every AI car keeps its genome |
| Evolution.EvolveElites | src/neuroEvolution.ts:49-90 | the fittest car keeps its brain and rays and is the only yellow car, and with at most ten AI cars no genome changes |
| Cars.ColorOf | src/main.ts:136-140 | only a driverless car is black, and only an AI car has a red channel |
| Cars.ColorsDistinct | src/main.ts:136-140 | each control mode has its own colour |
| Cars.CreateCar | src/main.ts:134-158 | the colour of its mode, the first seed point, speed 0.001, heading -PI/2, three zero readings against five default rays, neutral controls and no brain |
| Cars.ResetCar | src/main.ts:124-132 | position, speed, heading, progress, lap, crash and completion time are reset, and the brain, rays, controls and steering stay |
| Cars.ResetProperties | src/main.ts:124-158 | resetting is idempotent, and resetting a new car only zeroes its speed |
| Cars.FirstHuman | src/main.ts:160-163 | the first human-driven index from i on, absent exactly when there is none |
| Cars.GetCarControl | src/main.ts:160-163 | the lowest human-driven index, absent exactly when no car is human-driven |
| Cars.SetCarControl | src/main.ts:165-168 | only the chosen car is human-driven afterwards, other drivers stay, and nothing else changes |
| Cars.SetThenGet | src/main.ts:160-168 | after choosing a car, reading the choice gives it back |
| Cars.TicksPerCallback | src/main.ts:112-118 | one tick per callback up to 1000 ticks per second, and above that the ceiling of tps / 1000 |
| Cars.CallbackDelay | src/main.ts:112-118 | for a positive rate the interval is at least one millisecond and is the period of min(tps, 1000) callbacks per second; a rate of 0, which the speed slider produces, has no finite interval |
| Cars.EffectiveTickRate | src/main.ts:112-118 | up to 1000 the rate is met exactly, and above it is met or exceeded by less than 1000; at 0 there is no finite period, and each callback still runs one tick |
| TrackGen.DistanceZero | src/main.ts:97-98 | the distance is zero exactly between equal points |
| TrackGen.Seeds | src/main.ts:47-55 | exactly pointAmount - 1 = 19 seeds |
| TrackGen.Seed | src/main.ts:48-55 | each seed is a radius in [-250, -150) turned by its twentieth of a turn, stretched twice along x, and moved by up to 40 in each coordinate |
| TrackGen.Push | src/main.ts:70-72 | no push when the two points coincide (the normalisation is undefined); otherwise the push is the unit direction from p1 to p2 scaled by (100 - dist) / 2, plus a jitter in [-5, 5) in each coordinate |
| TrackGen.SumUpdate | src/main.ts:70-74 | moving one point moves the points' sum by the same amount |
| TrackGen.PushKeepsSum | src/main.ts:70-74 | a push moves the pair's points in opposite directions, so the sum of all points stays |
| TrackGen.RelaxPass | src/main.ts:62-78 | a pass keeps the number and sum of the points, and a pass that moves nothing leaves every pair at least 100 apart |
| TrackGen.Relax | src/main.ts:57-80 | at most 20 passes; reaching 20 rejects the attempt even if the last pass moved nothing, and a settled layout keeps the seeds' count and sum with every pair at least 100 apart |
| TrackGen.Find3PointAngle | src/vector.ts:65-72 | undefined exactly when a neighbour coincides with the corner; otherwise, when the square root inverts squaring, the arc cosine of the normalised dot product of the two edges |
| TrackGen.LawOfCosines | src/vector.ts:65-72 | the squared sides' combination BC² + AB² - AC² is twice the dot product of the two edges at the corner |
| TrackGen.AngleUndefined | src/vector.ts:65-72 | the corner angle is undefined exactly when the corner point coincides with one of its neighbours |
| TrackGen.Compress | src/main.ts:96-100 | dropping repeats keeps the first and last sample and never lengthens |
| TrackGen.CompressNoRepeats | src/main.ts:96-100 | no sample of the result equals the one before it |
| TrackGen.CompressSubsequence | src/main.ts:96-100 | the result is a subsequence of the samples |
| TrackGen.CompressKeepsDistinct | src/main.ts:96-100 | samples without repeats are kept as they are |
| TrackGen.CompressIdempotent | src/main.ts:96-100 | dropping repeats twice is dropping them once |
| TrackGen.CompressStep | src/main.ts:96-100 | the result grows by a sample exactly when it differs from the one before |
| TrackGen.ScanNeighbours | src/main.ts:85-88 | the scan's three points are the original sample, its predecessor and its wrap-around successor |
| TrackGen.ScanAdvance | src/main.ts:96-100 | dropping a repeat or stepping past a new sample both move the scan to the next original sample |
| TrackGen.ScanSamples | src/main.ts:84-101 | the scan restarts exactly when some sample from index 1 on forms a corner sharper than PI / 1.1, and otherwise returns the samples with repeats dropped |
| TrackGen.TrackThrough | src/main.ts:82-109 | a track through relaxed points is rejected exactly when its spline has a sharp corner, and otherwise is a generated track on those points |
| TrackGen.BuildTrack | src/main.ts:42-110 | a built track is a generated track whose points keep the seeds' sum |
| TrackGen.GenerateRaceTrack | src/main.ts:42-110 | every track returned within the attempt budget is a generated track |
| TrackGen.GeneratedProperties | src/main.ts:82-109 | the centre line has no repeats and at most 19 segments of 21 samples, the flat array reads back as it, and each border has at most three entries fewer |
| TrackGen.SamplesCount | src/main.ts:82 | 19 points on a closed curve with tension 1 and 20 segments give 19 times 21 samples |

## Left out

- Rendering, DOM input and camera handling are not modelled: `drawLines`, `correctCameraLock`, `toScreen`/`toWorld`, the `inputProcessing` key mapping, and renderer.ts and userInput.ts. The key and button handlers of userInput.ts change the state only by calling modelled operations: Cars.CreateCar for a spawned car, Evolution.StartEvolution, Cars.SetCarControl, Cars.TicksPerCallback and Cars.CallbackDelay for the tick rate, and NeuralNet.BrainFromJson for a loaded brain. Appending a spawned car to the world's cars, and storing the loaded brain, are plain assignments and are not modelled as operations.
- `performance.now` is replaced by the elapsed time, which is a parameter of the tick. `setInterval`, `async` recursion, `regerenateTrack`, `setPaused` and `setLoadedAi` are left out as well, because they only re-wire the state the model passes explicitly.
- JSON text is not modelled: serialisation goes to and from a structured value carrying the weights and biases.
- IEEE-754 rounding, NaN and Infinity propagation, and floating-point overflow are not modelled, because numbers are exact reals. The points where NaN arises are modelled as explicit cases:
  - a zero-length normalisation (`None`, or a failed attempt);
  - an undefined corner angle, which is neither sharp nor a repeat;
  - sample 0 of the corner scan, which reads index -2 and is skipped;
  - a zero edge in the progress ratio.
- Out-of-domain `acos` values are part of the uninterpreted function.
- The distributions of `Math.random` and `gaussianRandom`, and the order in which the source draws its random numbers, are not modelled: each call site reads its own oracle path.
- Vectors.Vector2: the in-place methods (`AddInPlace`, `SubtractInPlace`, `MultiplyInPlace`, `RotateInPlace`, `Clone`) state their effect with `old`. Aliasing of the shared default sensor vectors between cars is not modelled, because the core never mutates them.
- Vector2 `angle` (atan2) is unused by the core and is not modelled.
- TrackGen.GenerateRaceTrack: the source retries without bound. The model takes an attempt budget and returns no track when it runs out.
- TrackGen.RelaxPass: a push between two coinciding points normalises a zero vector into NaN points. The model rejects the attempt instead of propagating NaN.
- TrackGen.ScanSamples: it works on points rather than on the flat number array, since a splice of two numbers at an even index removes one point. It assumes `SqrtOfZero` and `LengthPositive` of the square root.
- Simulation.Tick: requires the hidden layer to have between 3 and InputCount nodes. Outside that range the source reads biases past their end and computes NaN outputs.
- Simulation.Tick: requires a generated track to be present (`raceTrack` is set before the first tick in the source).
- Simulation.Tick: when `newGeneration` throws, the source has already incremented the generation counter. The model returns an error and does not model that partially updated state.
- Cars.CallbackDelay: what the browser's timer does with an Infinity period is not modelled; the model only reports that there is no finite one.
- NeuralNet.BrainFromJson: data whose rows all exist but whose innermost weight or bias rows are too short is an error in the model. The source loads `undefined` into those positions without throwing, and feed-forward then computes NaN; a number that can be undefined is not modelled.
- Evolution.RenewCars: when there are more AI cars than variations, the surplus cars get an undefined brain and sensor layout in the source. The model gives them no brain and an empty layout.
- Physics.CalculateProgress: when the nearest centre-line point and the next one coincide, the source divides by zero. The model leaves the car unchanged there. That is what the source does with the resulting Infinity, because the forward jump exceeds 10. When the car also sits exactly on those points, the source gets 0/0 = NaN; every comparison is then false, and it stores NaN as the progress. The model does not have NaN and does not model that case.

=== FILE: base.dfy ===
/** Shared building blocks: optional values and results, the host's transcendental
    functions (left uninterpreted), oracles standing in for Math.random, the
    JavaScript rounding and remainder operators, and subsequences. */
module Base {

  datatype Option<T> = None | Some(value: T)

  /** The error path of an operation whose source throws a TypeError. */
  datatype Result<T> = Ok(value: T) | Err(reason: string)

  /** Math.sqrt, Math.sin, Math.cos, Math.exp and Math.acos, uninterpreted.
      Properties the model relies on are stated as separate predicates. */
  datatype MathLib = MathLib(
    sqrt: real -> real,
    sin: real -> real,
    cos: real -> real,
    exp: real -> real,
    acos: real -> real)

  function Sqrt(m: MathLib, v: real): real { m.sqrt(v) }
  function Sin(m: MathLib, a: real): real { m.sin(a) }
  function Cos(m: MathLib, a: real): real { m.cos(a) }
  function Exp(m: MathLib, z: real): real { m.exp(z) }
  function Acos(m: MathLib, c: real): real { m.acos(c) }

  /** The exponential function is positive everywhere. */
  ghost predicate ExpPositive(m: MathLib) {
    forall z: real :: Exp(m, z) > 0.0
  }

  /** A random source: every random call site reads its own path. */
  type Rng = seq<nat> -> real

  /** Math.random(): every draw lies in [0, 1). */
  ghost predicate Unit(r: Rng) {
    forall p: seq<nat> :: 0.0 <= r(p) < 1.0
  }

  /** The sub-stream of `r` reserved for call site `tag`. */
  function Split(r: Rng, tag: nat): Rng {
    (p: seq<nat>) => r([tag] + p)
  }

  lemma SplitUnit(r: Rng, tag: nat)
    requires Unit(r)
    ensures Unit(Split(r, tag))
  {
    forall p: seq<nat> ensures 0.0 <= Split(r, tag)(p) < 1.0 {
      assert Split(r, tag)(p) == r([tag] + p);
    }
  }

  function Min(a: real, b: real): real { if a <= b then a else b }
  function Max(a: real, b: real): real { if a >= b then a else b }
  function MinInt(a: int, b: int): int { if a <= b then a else b }
  function MaxInt(a: int, b: int): int { if a >= b then a else b }

  /** Math.round: the nearest integer, halves rounded towards +infinity. */
  function Round(x: real): (n: int)
    ensures x - 0.5 < n as real <= x + 0.5
  {
    (x + 0.5).Floor
  }

  /** The JavaScript `%` operator on integers: the result takes the sign of the
      dividend (Dafny's `%` is Euclidean instead). */
  function JsRem(a: int, b: int): (r: int)
    requires b > 0
    ensures a >= 0 ==> 0 <= r < b
    ensures a < 0 ==> -b < r <= 0
    ensures a >= 0 ==> r == a % b
    ensures a < 0 ==> r == -((-a) % b)
  {
    if a >= 0 then a % b else -((-a) % b)
  }

  /** (i + 1) % len for an index i < len. */
  function NextIndex(i: nat, len: nat): (j: nat)
    requires i < len
    ensures j < len && j == (i + 1) % len
  {
    if i + 1 == len then
      assert (i + 1) % len == 0 by { ModSelf(len); }
      0
    else
      assert (i + 1) % len == i + 1 by { ModBelow(i + 1, len); }
      i + 1
  }

  lemma ModSelf(n: nat)
    requires n > 0
    ensures n % n == 0
  {
  }

  lemma ModBelow(a: nat, n: nat)
    requires a < n
    ensures a % n == a
  {
  }

  lemma ModMinus(a: nat, n: nat)
    requires n <= a < 2 * n
    ensures a % n == a - n
  {
  }

  /** `idx` maps every element of `sub` to a strictly later position of `full`
      holding the same value. */
  ghost predicate Embedding<T>(idx: seq<nat>, sub: seq<T>, full: seq<T>) {
    && |idx| == |sub|
    && (forall p :: 0 <= p < |idx| ==> idx[p] < |full| && sub[p] == full[idx[p]])
    && (forall p, q :: 0 <= p < q < |idx| ==> idx[p] < idx[q])
  }

  /** `sub` is obtained from `full` by deleting elements. */
  ghost predicate IsSubsequence<T>(sub: seq<T>, full: seq<T>) {
    exists idx: seq<nat> :: Embedding(idx, sub, full)
  }

  function Identity(n: nat): (idx: seq<nat>)
    ensures |idx| == n && forall p :: 0 <= p < n ==> idx[p] == p
  {
    seq(n, p requires 0 <= p < n => p)
  }

  /** Deleting a window keeps an embedding an embedding. */
  lemma EmbeddingDelete<T>(idx: seq<nat>, sub: seq<T>, full: seq<T>, lo: nat, hi: nat)
    requires Embedding(idx, sub, full)
    requires lo <= hi <= |sub|
    ensures Embedding(idx[..lo] + idx[hi..], sub[..lo] + sub[hi..], full)
  {
    var idx' := idx[..lo] + idx[hi..];
    var sub' := sub[..lo] + sub[hi..];
    forall p | 0 <= p < |idx'|
      ensures idx'[p] < |full| && sub'[p] == full[idx'[p]]
    {
      if p < lo {
        assert idx'[p] == idx[p] && sub'[p] == sub[p];
      } else {
        assert idx'[p] == idx[p - lo + hi] && sub'[p] == sub[p - lo + hi];
      }
    }
    forall p, q | 0 <= p < q < |idx'|
      ensures idx'[p] < idx'[q]
    {
      var p0 := if p < lo then p else p - lo + hi;
      var q0 := if q < lo then q else q - lo + hi;
      assert idx'[p] == idx[p0] && idx'[q] == idx[q0];
    }
  }

  lemma SubsequenceReflexive<T>(s: seq<T>)
    ensures IsSubsequence(s, s)
  {
    assert Embedding(Identity(|s|), s, s);
  }

  /** Deleting a window of a subsequence leaves a subsequence. */
  lemma SubsequenceDelete<T>(sub: seq<T>, full: seq<T>, lo: nat, hi: nat)
    requires IsSubsequence(sub, full)
    requires lo <= hi <= |sub|
    ensures IsSubsequence(sub[..lo] + sub[hi..], full)
  {
    var idx :| Embedding(idx, sub, full);
    EmbeddingDelete(idx, sub, full, lo, hi);
  }

  /** Strictly increasing positions: the p-th is at least p. */
  lemma {:induction false} EmbeddingIndexAtLeast<T>(idx: seq<nat>, sub: seq<T>, full: seq<T>, p: nat)
    requires Embedding(idx, sub, full) && p < |idx|
    ensures idx[p] >= p
  {
    if p > 0 {
      EmbeddingIndexAtLeast(idx, sub, full, p - 1);
    }
  }

  /** A subsequence is no longer than the sequence it comes from. */
  lemma SubsequenceNoLonger<T>(sub: seq<T>, full: seq<T>)
    requires IsSubsequence(sub, full)
    ensures |sub| <= |full|
  {
    var idx :| Embedding(idx, sub, full);
    if |idx| > 0 {
      EmbeddingIndexAtLeast(idx, sub, full, |idx| - 1);
    }
  }

  /** Array.prototype.splice(start, deleteCount) for the deleting form: a
      non-positive count deletes nothing and a count past the end is cut short. */
  function Splice<T>(s: seq<T>, start: nat, count: int): (r: seq<T>)
    requires start <= |s|
    ensures |r| == |s| - (SpliceEnd(s, start, count) - start)
    ensures r == s[..start] + s[SpliceEnd(s, start, count)..]
  {
    s[..start] + s[SpliceEnd(s, start, count)..]
  }

  function SpliceEnd<T>(s: seq<T>, start: nat, count: int): (e: nat)
    requires start <= |s|
    ensures start <= e <= |s|
  {
    if count <= 0 then start else MinInt(start + count, |s|)
  }

  /** Products of reals, kept in small lemmas so that the solver's non-linear
      reasoning stays local. */
  lemma MulNonNegative(a: real, b: real)
    requires a >= 0.0 && b >= 0.0
    ensures a * b >= 0.0
  {
  }

  lemma MulMonotone(a: real, b: real, c: real)
    requires a >= 0.0 && b <= c
    ensures a * b <= a * c
  {
    MulNonNegative(a, c - b);
    assert a * c - a * b == a * (c - b);
  }

  lemma MulPositive(a: real, b: real)
    requires a > 0.0 && b > 0.0
    ensures a * b > 0.0
  {
  }

  lemma DivideAtMost(sum: real, n: real, top: real)
    requires n > 0.0 && sum <= n * top
    ensures sum / n <= top
  {
    var q := sum / n;
    assert q * n == sum;
    if q > top {
      MulPositive(n, q - top);
    }
  }
}

=== FILE: boundary.dfy ===
/** The track's inner and outer borders: offset points beside the centre line,
    the repair that cuts out self-intersecting stretches, and the query for
    border edges near a position. */
module Boundary {
  import opened Base
  import opened Vectors
  import opened Intersection

  /** A border edge, from a border point to one of its neighbours. */
  datatype Edge = Edge(a: Vec2, b: Vec2)

  function Midpoint(p1: Vec2, p2: Vec2): Vec2 {
    Scale(Add(p1, p2), 0.5)
  }

  /** Distinct points are a positive distance apart. */
  lemma DistinctHaveLength(m: MathLib, p1: Vec2, p2: Vec2)
    requires LengthPositive(m) && p1 != p2
    ensures Length(m, Subtract(p2, p1)) > 0.0
  {
    assert Subtract(p2, p1) != Vec2(0.0, 0.0);
  }

  /** The edge's midpoint moved by `offset` along the edge's left normal. */
  function OffsetPoint(m: MathLib, p1: Vec2, p2: Vec2, offset: real): (o: Vec2)
    requires LengthPositive(m) && p1 != p2
    ensures Dot(Subtract(o, Midpoint(p1, p2)), Subtract(p2, p1)) == 0.0
  {
    var d := Subtract(p2, p1);
    DistinctHaveLength(m, p1, p2);
    var l := Length(m, d);
    var dir := Normalize(m, d);
    assert dir == Vec2(d.x / l, d.y / l);
    var n := Scale(Vec2(-dir.y, dir.x), offset);
    assert Subtract(Add(Midpoint(p1, p2), n), Midpoint(p1, p2)) == n;
    PerpendicularIdentity(d.x, d.y, l, offset);
    Add(Midpoint(p1, p2), n)
  }

  lemma PerpendicularIdentity(dx: real, dy: real, l: real, offset: real)
    requires l != 0.0
    ensures (-(dy / l) * offset) * dx + ((dx / l) * offset) * dy == 0.0
  {
    var a, b := dx / l, dy / l;
    assert dx == a * l && dy == b * l;
    assert (-b * offset) * (a * l) + (a * offset) * (b * l) == 0.0;
  }

  /** The raw offset points for edges i -> i + 1 with 1 <= i < |points| - 2,
      skipping edges whose ends coincide. */
  function RawOffsetsFrom(m: MathLib, points: seq<Vec2>, offset: real, i: nat): (r: seq<Vec2>)
    requires LengthPositive(m)
    ensures |r| <= MaxInt(0, |points| - 2 - i)
    ensures (forall j :: i <= j < |points| - 2 ==> points[j] != points[j + 1]) ==>
              |r| == MaxInt(0, |points| - 2 - i)
    decreases |points| - i
  {
    if i + 2 >= |points| then []
    else if points[i] == points[i + 1] then RawOffsetsFrom(m, points, offset, i + 1)
    else [OffsetPoint(m, points[i], points[i + 1], offset)] + RawOffsetsFrom(m, points, offset, i + 1)
  }

  /** The first loop: at most |points| - 3 entries, exactly that many when no
      edge is degenerate. */
  function RawOffsets(m: MathLib, points: seq<Vec2>, offset: real): (r: seq<Vec2>)
    requires LengthPositive(m)
    ensures |r| <= MaxInt(0, |points| - 3)
    ensures (forall j :: 1 <= j < |points| - 2 ==> points[j] != points[j + 1]) ==>
              |r| == MaxInt(0, |points| - 3)
  {
    RawOffsetsFrom(m, points, offset, 1)
  }

  /** Every raw offset point is the offset point of some non-degenerate edge
      i -> i + 1 of the scanned range. */
  lemma {:induction false} RawOffsetsSound(m: MathLib, points: seq<Vec2>, offset: real, i: nat, p: nat)
    requires LengthPositive(m)
    requires p < |RawOffsetsFrom(m, points, offset, i)|
    ensures exists j :: i <= j && j + 2 < |points| && points[j] != points[j + 1] &&
              RawOffsetsFrom(m, points, offset, i)[p] == OffsetPoint(m, points[j], points[j + 1], offset)
    decreases |points| - i
  {
    var r := RawOffsetsFrom(m, points, offset, i);
    var rest := RawOffsetsFrom(m, points, offset, i + 1);
    if points[i] == points[i + 1] {
      assert r == rest;
      RawOffsetsSound(m, points, offset, i + 1, p);
    } else if p == 0 {
      assert r[0] == OffsetPoint(m, points[i], points[i + 1], offset);
    } else {
      assert r == [OffsetPoint(m, points[i], points[i + 1], offset)] + rest;
      assert r[p] == rest[p - 1];
      RawOffsetsSound(m, points, offset, i + 1, p - 1);
    }
  }

  /** The second loop of the source: for each entry i from 1, the stretch
      to one of the 48 entries j = (i + k) mod n after it is cut out when the
      edges i -> i + 1 and j -> j + 1 cross. `crosses` stands for the segment
      test. */
  method RepairCrossings<T>(raw: seq<T>, crosses: (T, T, T, T) -> bool) returns (lines: seq<T>)
    ensures IsSubsequence(lines, raw)
    ensures |lines| <= |raw|
    ensures (forall a, b, c, d :: !crosses(a, b, c, d)) ==> lines == raw
  {
    lines := raw;
    SubsequenceReflexive(raw);
    var i := 1;
    while i < |lines| - 1
      invariant IsSubsequence(lines, raw)
      invariant (forall a, b, c, d :: !crosses(a, b, c, d)) ==> lines == raw
      decreases |lines| - i
    {
      lines := CutCrossings(lines, raw, i, crosses);
      i := i + 1;
    }
    SubsequenceNoLonger(lines, raw);
  }

  /** The inner loop for entry i, k = 2 .. 49. The cut starts at min(i, j),
      so entry i itself goes when i < j; the edge i -> i + 1 is read once
      before the loop and not refreshed after a cut, while the length is. */
  method CutCrossings<T>(lines0: seq<T>, ghost raw: seq<T>, i: nat, crosses: (T, T, T, T) -> bool)
    returns (lines: seq<T>)
    requires 1 <= i < |lines0| - 1
    requires IsSubsequence(lines0, raw)
    ensures IsSubsequence(lines, raw)
    ensures 1 <= |lines| <= |lines0|
    ensures (forall a, b, c, d :: !crosses(a, b, c, d)) ==> lines == lines0
  {
    lines := lines0;
    var p1 := lines[i];
    var p2 := lines[(i + 1) % |lines|];
    var k := 2;
    while k < 50
      invariant 1 <= |lines| <= |lines0|
      invariant IsSubsequence(lines, raw)
      invariant (forall a, b, c, d :: !crosses(a, b, c, d)) ==> lines == lines0
    {
      var olen := |lines|;
      var j := (i + k) % olen;
      var offset := j - i;
      if i > j {
        offset := (olen - i) + j;
      }
      var start := MinInt(i, j);
      var p3 := lines[j];
      var p4 := lines[(j + 1) % olen];
      if crosses(p1, p2, p3, p4) {
        var e := SpliceEnd(lines, start, offset);
        SubsequenceDelete(lines, raw, start, e);
        SpliceKeepsOne(olen, i, j, start, offset, e);
        lines := Splice(lines, start, offset);
      }
      k := k + 1;
    }
  }

  /** A cut never empties the list: it keeps either the entries before i or
      those from j + 1 on. */
  lemma SpliceKeepsOne(olen: nat, i: nat, j: nat, start: nat, offset: int, e: nat)
    requires 1 <= i && j < olen
    requires offset == (if i > j then (olen - i) + j else j - i)
    requires start == MinInt(i, j)
    requires e == (if offset <= 0 then start else MinInt(start + offset, olen))
    ensures olen - (e - start) >= 1
  {
  }

  /** lineIntersects read as a yes/no test. */
  predicate Crosses(p1: Vec2, p2: Vec2, p3: Vec2, p4: Vec2) {
    LineIntersects(p1, p2, p3, p4).Some?
  }

  /** getOffsetPoints: the raw offset points with crossing stretches cut out,
      so the result is a subsequence of the raw points. */
  method GetOffsetPoints(m: MathLib, points: seq<Vec2>, offset: real) returns (lines: seq<Vec2>)
    requires LengthPositive(m)
    ensures IsSubsequence(lines, RawOffsets(m, points, offset))
    ensures |lines| <= MaxInt(0, |points| - 3)
  {
    var raw := RawOffsets(m, points, offset);
    lines := RepairCrossings(raw, Crosses);
  }

  /** The distance test of the query: not farther than maxDist. */
  predicate Near(m: MathLib, p: Vec2, pos: Vec2, maxDist: real) {
    !(Distance(m, p, pos) > maxDist)
  }

  /** The neighbours of entry idx, wrapping at both ends. */
  function Next(ps: seq<Vec2>, idx: nat): Vec2
    requires idx < |ps|
  {
    if idx + 1 == |ps| then ps[0] else ps[idx + 1]
  }

  function Previous(ps: seq<Vec2>, idx: nat): Vec2
    requires idx < |ps|
  {
    if idx == 0 then ps[|ps| - 1] else ps[idx - 1]
  }

  /** The neighbours are the source's (idx + 1) mod n and (idx - 1 + n) mod n. */
  lemma NeighboursWrap(ps: seq<Vec2>, idx: nat)
    requires idx < |ps|
    ensures Next(ps, idx) == ps[(idx + 1) % |ps|]
    ensures Previous(ps, idx) == ps[(idx - 1 + |ps|) % |ps|]
  {
    var n := |ps|;
    if idx + 1 == n {
      ModSelf(n);
    } else {
      ModBelow(idx + 1, n);
    }
    if idx == 0 {
      ModBelow(n - 1, n);
    } else {
      ModMinus(idx - 1 + n, n);
    }
  }

  /** The indices from i on whose point passes `keep`, in increasing order. */
  function NearIndices(ps: seq<Vec2>, keep: Vec2 -> bool, i: nat): (r: seq<nat>)
    requires i <= |ps|
    ensures forall p :: 0 <= p < |r| ==> i <= r[p] < |ps|
    ensures forall p, q :: 0 <= p < q < |r| ==> r[p] < r[q]
    decreases |ps| - i
  {
    if i == |ps| then []
    else if keep(ps[i]) then [i] + NearIndices(ps, keep, i + 1)
    else NearIndices(ps, keep, i + 1)
  }

  /** The kept indices are exactly the indices from i on whose point passes. */
  lemma {:induction false} NearIndicesExact(ps: seq<Vec2>, keep: Vec2 -> bool, i: nat, idx: nat)
    requires i <= |ps|
    ensures idx in NearIndices(ps, keep, i) <==> i <= idx < |ps| && keep(ps[idx])
    decreases |ps| - i
  {
    if i < |ps| {
      NearIndicesExact(ps, keep, i + 1, idx);
    }
  }

  /** One forEach pass: two edges, to the next and to the previous point, for
      every point from index i on that passes `keep`. */
  function EdgesFrom(ps: seq<Vec2>, keep: Vec2 -> bool, i: nat): (r: seq<Edge>)
    requires i <= |ps|
    ensures |r| == 2 * |NearIndices(ps, keep, i)|
    decreases |ps| - i
  {
    if i == |ps| then []
    else if keep(ps[i]) then
      [Edge(ps[i], Next(ps, i)), Edge(ps[i], Previous(ps, i))] + EdgesFrom(ps, keep, i + 1)
    else EdgesFrom(ps, keep, i + 1)
  }

  /** findNearestBorderLines: the edges of the inner border, then those of
      the outer border. */
  function FindNearestBorderLines(m: MathLib, inner: seq<Vec2>, outer: seq<Vec2>, pos: Vec2, maxDist: real): (r: seq<Edge>)
    ensures |r| == 2 * (|NearIndices(inner, p => Near(m, p, pos, maxDist), 0)| + |NearIndices(outer, p => Near(m, p, pos, maxDist), 0)|)
  {
    var keep := p => Near(m, p, pos, maxDist);
    EdgesFrom(inner, keep, 0) + EdgesFrom(outer, keep, 0)
  }

  /** Every point of either border within maxDist contributes both of its
      edges, and every edge returned starts at such a point. */
  lemma NearestBorderLinesExact(m: MathLib, inner: seq<Vec2>, outer: seq<Vec2>, pos: Vec2, maxDist: real)
    ensures forall idx :: 0 <= idx < |inner| && Near(m, inner[idx], pos, maxDist) ==>
              && Edge(inner[idx], Next(inner, idx)) in FindNearestBorderLines(m, inner, outer, pos, maxDist)
              && Edge(inner[idx], Previous(inner, idx)) in FindNearestBorderLines(m, inner, outer, pos, maxDist)
    ensures forall idx :: 0 <= idx < |outer| && Near(m, outer[idx], pos, maxDist) ==>
              && Edge(outer[idx], Next(outer, idx)) in FindNearestBorderLines(m, inner, outer, pos, maxDist)
              && Edge(outer[idx], Previous(outer, idx)) in FindNearestBorderLines(m, inner, outer, pos, maxDist)
    ensures forall e :: e in FindNearestBorderLines(m, inner, outer, pos, maxDist) ==>
              || (exists idx :: 0 <= idx < |inner| && Near(m, inner[idx], pos, maxDist) && e.a == inner[idx])
              || (exists idx :: 0 <= idx < |outer| && Near(m, outer[idx], pos, maxDist) && e.a == outer[idx])
  {
    var keep := p => Near(m, p, pos, maxDist);
    EdgesComplete(inner, keep);
    EdgesComplete(outer, keep);
    var r := FindNearestBorderLines(m, inner, outer, pos, maxDist);
    var ri, ro := EdgesFrom(inner, keep, 0), EdgesFrom(outer, keep, 0);
    assert r == ri + ro;
    forall e | e in r
      ensures || (exists idx :: 0 <= idx < |inner| && Near(m, inner[idx], pos, maxDist) && e.a == inner[idx])
              || (exists idx :: 0 <= idx < |outer| && Near(m, outer[idx], pos, maxDist) && e.a == outer[idx])
    {
      if e in ri {
        EdgeStartsNear(inner, keep, e);
      } else {
        assert e in ro;
        EdgeStartsNear(outer, keep, e);
      }
    }
  }

  /** The order of the result: the p-th near inner point fills entries 2p and
      2p + 1 (next, then previous), and the near outer points follow in the
      same way after all the inner edges. */
  lemma NearestBorderLinesOrder(m: MathLib, inner: seq<Vec2>, outer: seq<Vec2>, pos: Vec2, maxDist: real)
    ensures var keep := p => Near(m, p, pos, maxDist);
            var ni, no := NearIndices(inner, keep, 0), NearIndices(outer, keep, 0);
            var r := FindNearestBorderLines(m, inner, outer, pos, maxDist);
            && (forall p :: 0 <= p < |ni| ==>
                  && r[2 * p] == Edge(inner[ni[p]], Next(inner, ni[p]))
                  && r[2 * p + 1] == Edge(inner[ni[p]], Previous(inner, ni[p])))
            && (forall p :: 0 <= p < |no| ==>
                  && r[2 * |ni| + 2 * p] == Edge(outer[no[p]], Next(outer, no[p]))
                  && r[2 * |ni| + 2 * p + 1] == Edge(outer[no[p]], Previous(outer, no[p])))
  {
    var keep := p => Near(m, p, pos, maxDist);
    var ni, no := NearIndices(inner, keep, 0), NearIndices(outer, keep, 0);
    var ri, ro := EdgesFrom(inner, keep, 0), EdgesFrom(outer, keep, 0);
    var r := FindNearestBorderLines(m, inner, outer, pos, maxDist);
    assert r == ri + ro;
    forall p | 0 <= p < |ni|
      ensures r[2 * p] == Edge(inner[ni[p]], Next(inner, ni[p]))
      ensures r[2 * p + 1] == Edge(inner[ni[p]], Previous(inner, ni[p]))
    {
      EdgesAt(inner, keep, 0, p);
    }
    forall p | 0 <= p < |no|
      ensures r[2 * |ni| + 2 * p] == Edge(outer[no[p]], Next(outer, no[p]))
      ensures r[2 * |ni| + 2 * p + 1] == Edge(outer[no[p]], Previous(outer, no[p]))
    {
      EdgesAt(outer, keep, 0, p);
      assert r[|ri| + 2 * p] == ro[2 * p] && r[|ri| + 2 * p + 1] == ro[2 * p + 1];
    }
  }

  /** Entries 2p and 2p + 1 are the two edges of the p-th near point. */
  lemma {:induction false} EdgesAt(ps: seq<Vec2>, keep: Vec2 -> bool, i: nat, p: nat)
    requires i <= |ps| && p < |NearIndices(ps, keep, i)|
    ensures var near := NearIndices(ps, keep, i);
            var r := EdgesFrom(ps, keep, i);
            && r[2 * p] == Edge(ps[near[p]], Next(ps, near[p]))
            && r[2 * p + 1] == Edge(ps[near[p]], Previous(ps, near[p]))
    decreases |ps| - i
  {
    var near, r := NearIndices(ps, keep, i), EdgesFrom(ps, keep, i);
    var near', r' := NearIndices(ps, keep, i + 1), EdgesFrom(ps, keep, i + 1);
    if !keep(ps[i]) {
      assert near == near' && r == r';
      EdgesAt(ps, keep, i + 1, p);
    } else {
      assert near == [i] + near';
      assert r == [Edge(ps[i], Next(ps, i)), Edge(ps[i], Previous(ps, i))] + r';
      if p > 0 {
        var q := p - 1;
        EdgesAt(ps, keep, i + 1, q);
        assert near[p] == near'[q];
        assert 2 * p == 2 * q + 2;
        assert r[2 * p] == r'[2 * q] && r[2 * p + 1] == r'[2 * q + 1];
      } else {
        assert near[0] == i;
        assert r[0] == Edge(ps[i], Next(ps, i));
        assert r[1] == Edge(ps[i], Previous(ps, i));
      }
    }
  }

  lemma EdgesComplete(ps: seq<Vec2>, keep: Vec2 -> bool)
    ensures forall idx :: 0 <= idx < |ps| && keep(ps[idx]) ==>
              && Edge(ps[idx], Next(ps, idx)) in EdgesFrom(ps, keep, 0)
              && Edge(ps[idx], Previous(ps, idx)) in EdgesFrom(ps, keep, 0)
  {
    var near := NearIndices(ps, keep, 0);
    var r := EdgesFrom(ps, keep, 0);
    forall idx | 0 <= idx < |ps| && keep(ps[idx])
      ensures Edge(ps[idx], Next(ps, idx)) in r && Edge(ps[idx], Previous(ps, idx)) in r
    {
      NearIndicesExact(ps, keep, 0, idx);
      var p :| 0 <= p < |near| && near[p] == idx;
      EdgesAt(ps, keep, 0, p);
      assert r[2 * p] == Edge(ps[idx], Next(ps, idx));
      assert r[2 * p + 1] == Edge(ps[idx], Previous(ps, idx));
    }
  }

  lemma EdgeStartsNear(ps: seq<Vec2>, keep: Vec2 -> bool, e: Edge)
    requires e in EdgesFrom(ps, keep, 0)
    ensures exists idx :: 0 <= idx < |ps| && keep(ps[idx]) && e.a == ps[idx]
  {
    var near := NearIndices(ps, keep, 0);
    var r := EdgesFrom(ps, keep, 0);
    var k :| 0 <= k < |r| && r[k] == e;
    var p := k / 2;
    assert k == 2 * p || k == 2 * p + 1;
    EdgesAt(ps, keep, 0, p);
    assert near[p] in near;
    NearIndicesExact(ps, keep, 0, near[p]);
    assert e.a == ps[near[p]];
  }
}

=== FILE: cars.dfy ===
/** Car creation, reset and control-mode selection, and the scheduling rule of
    the tick timer. */
module Cars {
  import opened Base
  import opened Vectors
  import opened Config
  import opened Entities

  /** Red for an AI car, cyan for a human, green for a bot, black otherwise:
      only a driverless car is black, and only an AI car has a red channel. */
  function ColorOf(control: Control): (c: Color)
    ensures c == Color(0, 0, 0) <==> control == NoDriver
    ensures c.r != 0 <==> control == AI
  {
    match control
    case AI => Color(255, 0, 0)
    case Human => Color(0, 200, 200)
    case Bot => Color(0, 255, 0)
    case NoDriver => Color(0, 0, 0)
  }

  /** The colour tells the control mode. */
  lemma ColorsDistinct(a: Control, b: Control)
    ensures ColorOf(a) == ColorOf(b) <==> a == b
  {
  }

  /** The heading every car starts with, -PI/2. */
  const StartHeading: real := -PI / 2.0

  /** createCar: a car at the first seed point, crawling forward and facing
      up, with three zero readings although the shared default has five rays. */
  function CreateCar(control: Control, track: RaceTrack): (car: Car)
    requires |track.points| > 0
    ensures car.control == control && car.color == ColorOf(control)
    ensures car.pos == track.points[0] && car.vel == 0.001 && car.dir == StartHeading
    ensures car.sensorConfig == DefaultCarSensors && car.sensors == [0.0, 0.0, 0.0]
    ensures |car.sensors| < |car.sensorConfig|
    ensures car.controls == Controls(false, false, 0.5) && car.steer == 0.0
    ensures car.progress == 0.0 && car.lap == 0 && !car.crashed
    ensures car.brain.None? && car.completedTime.None?
  {
    Car(
      pos := track.points[0], vel := 0.001, dir := StartHeading, control := control, steer := 0.0,
      color := ColorOf(control), sensors := [0.0, 0.0, 0.0], controls := Controls(false, false, 0.5),
      brain := None, sensorConfig := DefaultCarSensors, progress := 0.0, lap := 0, crashed := false,
      completedTime := None)
  }

  /** resetCar: back to the start with no speed, progress, laps, crash or
      finishing time; the driver, brain, sensors, controls, steering and
      colour are kept. */
  function ResetCar(car: Car, track: RaceTrack): (r: Car)
    requires |track.points| > 0
    ensures r.pos == track.points[0] && r.vel == 0.0 && r.dir == StartHeading
    ensures r.progress == 0.0 && r.lap == 0 && !r.crashed && r.completedTime.None?
    ensures r.control == car.control && r.color == car.color && r.brain == car.brain
    ensures r.sensors == car.sensors && r.sensorConfig == car.sensorConfig
    ensures r.controls == car.controls && r.steer == car.steer
  {
    car.(pos := track.points[0], vel := 0.0, dir := StartHeading, progress := 0.0, lap := 0, crashed := false,
         completedTime := None)
  }

  /** Resetting twice is resetting once, and resetting a new car only stops it. */
  lemma ResetProperties(car: Car, control: Control, track: RaceTrack)
    requires |track.points| > 0
    ensures ResetCar(ResetCar(car, track), track) == ResetCar(car, track)
    ensures ResetCar(CreateCar(control, track), track) == CreateCar(control, track).(vel := 0.0)
  {
  }

  /** The lowest index from i on of a car driven by the human player. */
  function FirstHuman(cars: seq<Car>, i: nat): (k: Option<nat>)
    requires i <= |cars|
    ensures k.Some? ==> i <= k.value < |cars| && cars[k.value].control == Human
    ensures k.Some? ==> forall j :: i <= j < k.value ==> cars[j].control != Human
    ensures k.None? <==> forall j :: i <= j < |cars| ==> cars[j].control != Human
    decreases |cars| - i
  {
    if i == |cars| then None
    else if cars[i].control == Human then Some(i)
    else FirstHuman(cars, i + 1)
  }

  /** getCarControl: the index of the first human-driven car, if any. */
  function GetCarControl(cars: seq<Car>): (k: Option<nat>)
    ensures k.Some? ==> k.value < |cars| && cars[k.value].control == Human
    ensures k.Some? ==> forall j :: 0 <= j < k.value ==> cars[j].control != Human
    ensures k.None? <==> forall j :: 0 <= j < |cars| ==> cars[j].control != Human
  {
    FirstHuman(cars, 0)
  }

  /** The driver of car i after setCarControl(control). */
  function DriverAfter(car: Car, i: nat, control: Option<nat>): Control {
    if control == Some(i) then Human
    else if car.control == Human then NoDriver
    else car.control
  }

  /** setCarControl: every human-driven car loses its driver, then the chosen
      car, if any, is given to the human player. */
  function SetCarControl(cars: seq<Car>, control: Option<nat>): (r: seq<Car>)
    requires control.Some? ==> control.value < |cars|
    ensures |r| == |cars|
    ensures forall i :: 0 <= i < |cars| ==> r[i] == cars[i].(control := r[i].control)
    ensures forall i :: 0 <= i < |cars| ==> (r[i].control == Human <==> control == Some(i))
    ensures forall i :: 0 <= i < |cars| && control != Some(i) && cars[i].control != Human ==>
              r[i].control == cars[i].control
  {
    seq(|cars|, i requires 0 <= i < |cars| => cars[i].(control := DriverAfter(cars[i], i, control)))
  }

  /** After setCarControl(c), getCarControl() reports c. */
  lemma SetThenGet(cars: seq<Car>, control: Option<nat>)
    requires control.Some? ==> control.value < |cars|
    ensures GetCarControl(SetCarControl(cars, control)) == control
  {
    var r := SetCarControl(cars, control);
    var k := GetCarControl(r);
    if k.Some? {
      assert r[k.value].control == Human;
    }
  }

  /** The number of ticks one timer callback runs: the loop of the callback
      counts i = 0, 1, ... while i < tps / 1000 when tps exceeds 1000, and
      runs a single tick otherwise. */
  method TicksPerCallback(tps: real) returns (count: nat)
    ensures tps <= 1000.0 ==> count == 1
    ensures tps > 1000.0 ==> (count - 1) as real * 1000.0 < tps <= count as real * 1000.0
  {
    if tps > 1000.0 {
      count := 0;
      var i := 0;
      while (i as real) < tps / 1000.0
        invariant 0 <= i && count == i
        invariant (i - 1) as real < tps / 1000.0
        decreases (tps / 1000.0).Floor + 1 - i
      {
        count := count + 1;
        i := i + 1;
      }
    } else {
      count := 1;
    }
  }

  /** The timer period in milliseconds, 1000 / min(tps, 1000). The speed
      slider can set tps to 0, where the division gives Infinity: `None`. */
  function CallbackDelay(tps: real): (ms: Option<real>)
    requires tps >= 0.0
    ensures ms.None? <==> tps == 0.0
    ensures ms.Some? ==> ms.value >= 1.0 && ms.value * Min(tps, 1000.0) == 1000.0
  {
    if tps == 0.0 then None else Some(1000.0 / Min(tps, 1000.0))
  }

  /** Callbacks per second times ticks per callback: exactly tps up to 1000
      ticks per second, and above that tps rounded up to a multiple of 1000.
      At tps 0 there is no finite period, and a callback still runs one tick. */
  lemma EffectiveTickRate(tps: real, count: nat)
    requires tps >= 0.0
    requires tps <= 1000.0 ==> count == 1
    requires tps > 1000.0 ==> (count - 1) as real * 1000.0 < tps <= count as real * 1000.0
    ensures tps == 0.0 ==> CallbackDelay(tps).None? && count == 1
    ensures 0.0 < tps <= 1000.0 ==> 1000.0 / CallbackDelay(tps).value * count as real == tps
    ensures tps > 0.0 ==> tps <= 1000.0 / CallbackDelay(tps).value * count as real < tps + 1000.0
  {
    if tps == 0.0 {
    } else if tps <= 1000.0 {
      DivideTwice(1000.0, tps);
    } else {
      assert CallbackDelay(tps).value == 1.0;
    }
  }

  lemma DivideTwice(a: real, b: real)
    requires a > 0.0 && b > 0.0
    ensures a / (a / b) == b
  {
    var q := a / b;
    assert q * b == a;
    assert a / q == b;
  }
}

=== FILE: config.dfy ===
/** The program's fixed parameters. */
module Config {
  import opened Vectors

  /** Math.PI as the double literal. */
  const PI: real := 3.141592653589793

  /** Number of spline samples per segment of the race track. */
  const RaceTrackSegments: int := 20

  /** The shared default sensor rays of every car, in the car's own frame. */
  const DefaultCarSensors: seq<Vec2> :=
    [Vec2(10.0, 30.0), Vec2(35.0, 20.0), Vec2(50.0, 0.0), Vec2(35.0, -20.0), Vec2(10.0, -30.0)]

  /** Seeds of the race track are generated for all but the last of these. */
  const PointAmount: nat := 20

  /** Offset of the inner and outer border from the centre line. */
  const BorderOffset: real := 10.0

  /** Initial evolution settings: ticks per generation, cars per generation and
      nodes in the single hidden layer. */
  const InitialDuration: int := 200
  const InitialCarAmount: nat := 50
  const InitialHiddenLayerNodes: nat := 6

  /** The network reads one value per sensor, then the speed and the heading. */
  const InputCount: nat := |DefaultCarSensors| + 2
  const OutputCount: nat := 3
}

=== FILE: entities.dfy ===
/** The records the simulation works on: cars, race tracks, generation records
    and the program state the source keeps in module-level variables. */
module Entities {
  import opened Base
  import opened Vectors
  import opened NeuralNet

  /** Who drives a car: 'none', 'ai', 'human' or 'bot'. */
  datatype Control = NoDriver | AI | Human | Bot

  datatype Color = Color(r: int, g: int, b: int)

  /** The pedal and steering inputs; steer 0.5 is straight ahead. */
  datatype Controls = Controls(accelerate: bool, brake: bool, steer: real)

  /** A car. `brain` and `completedTime` are optional in the source. */
  datatype Car = Car(
    pos: Vec2,
    vel: real,
    dir: real,
    control: Control,
    steer: real,
    color: Color,
    sensors: seq<real>,
    controls: Controls,
    brain: Option<Network>,
    sensorConfig: seq<Vec2>,
    progress: real,
    lap: int,
    crashed: bool,
    completedTime: Option<int>)

  /** The seed points, the flat spline samples, the same samples as vectors,
      and the two borders. */
  datatype RaceTrack = RaceTrack(
    points: seq<Vec2>,
    curvePoints: seq<real>,
    curvePointsVecs: seq<Vec2>,
    outerPoints: seq<Vec2>,
    innerPoints: seq<Vec2>)

  datatype GenerationInfo = GenerationInfo(
    bestFitness: real,
    averageFitness: real,
    generation: int,
    tick: int,
    bestTime: int)

  /** evolutionSettings: the defaults are 200, 50 and 6, and only the tick
      changes them, lengthening generationDuration by 10. */
  datatype Settings = Settings(generationDuration: int, carAmount: nat, hiddenLayerNodes: nat)

  /** The module-level state of the program. */
  datatype World = World(
    cars: seq<Car>,
    track: RaceTrack,
    generation: Option<int>,
    generationsInfo: seq<GenerationInfo>,
    settings: Settings,
    totalTicks: int,
    previousProgress: real,
    loadedAI: Option<Network>)
}

=== FILE: evolution.dfy ===
/** The genetic algorithm: fitness, the generation records, and the
    variations (elites kept, offspring crossed over and mutated) that replace
    the AI cars' genomes. */
module Evolution {
  import opened Base
  import opened Vectors
  import opened Config
  import opened NeuralNet
  import opened Entities
  import opened Cars

  /** carFitness: progress plus one length of the flat sample array (two
      numbers per sample) per lap, plus 10000 minus the finishing time for a
      car that finished. */
  function CarFitness(car: Car, curveLength: nat): (f: real)
    ensures car.completedTime.None? ==> f == car.progress + curveLength as real * car.lap as real
    ensures car.completedTime.Some? ==>
              f == car.progress + curveLength as real * car.lap as real + (10000 - car.completedTime.value) as real
  {
    var fitness := car.progress + curveLength as real * car.lap as real;
    if car.completedTime.Some? then fitness + (10000 - car.completedTime.value) as real else fitness
  }

  /** A finisher (three laps in under 10000 ticks) outranks every car that has
      not finished and is on an earlier lap with less than a lap's worth of
      progress; among cars that have not finished, one more lap at the same
      progress is worth exactly one sample-array length. */
  lemma FitnessRanking(finisher: Car, other: Car, curveLength: nat)
    requires finisher.lap == 3 && finisher.progress >= 0.0
    requires finisher.completedTime.Some? && finisher.completedTime.value < 10000
    requires other.completedTime.None? && other.lap <= 2 && other.progress <= curveLength as real
    ensures CarFitness(finisher, curveLength) > CarFitness(other, curveLength)
    ensures CarFitness(other.(lap := other.lap + 1), curveLength) == CarFitness(other, curveLength) + curveLength as real
  {
    var L := curveLength as real;
    assert L * (other.lap as real) <= L * 2.0 by {
      MulMonotone(L, other.lap as real, 2.0);
    }
  }

  /** The positions of the AI-driven cars, in order. */
  function AiIndices(cars: seq<Car>): (ai: seq<nat>)
    ensures forall q :: 0 <= q < |ai| ==> ai[q] < |cars| && cars[ai[q]].control == AI
    ensures forall i :: 0 <= i < |cars| && cars[i].control == AI ==> i in ai
    ensures forall p, q :: 0 <= p < q < |ai| ==> ai[p] < ai[q]
  {
    if |cars| == 0 then []
    else
      var front := AiIndices(cars[..|cars| - 1]);
      assert forall i :: 0 <= i < |cars| - 1 ==> cars[..|cars| - 1][i] == cars[i];
      if cars[|cars| - 1].control == AI then front + [|cars| - 1] else front
  }

  /** Positions sorted by descending key. */
  predicate Descending(s: seq<nat>, key: seq<real>)
    requires InRange(s, |key|)
  {
    forall a, b :: 0 <= a < b < |s| ==> key[s[a]] >= key[s[b]]
  }

  predicate InRange(s: seq<nat>, n: nat) {
    forall q :: 0 <= q < |s| ==> s[q] < n
  }

  /** Inserts x after every entry whose key is at least x's. */
  function Insert(x: nat, s: seq<nat>, key: seq<real>): (r: seq<nat>)
    requires x < |key| && InRange(s, |key|)
    ensures |r| == |s| + 1 && multiset(r) == multiset(s) + multiset{x} && InRange(r, |key|)
  {
    if |s| == 0 then [x]
    else if key[s[0]] >= key[x] then
      assert s == [s[0]] + s[1..];
      [s[0]] + Insert(x, s[1..], key)
    else
      [x] + s
  }

  /** Inserting into a descending sequence keeps it descending. */
  lemma {:induction false} InsertDescending(x: nat, s: seq<nat>, key: seq<real>)
    requires x < |key| && InRange(s, |key|) && Descending(s, key)
    ensures Descending(Insert(x, s, key), key)
  {
    var r := Insert(x, s, key);
    if |s| > 0 && key[s[0]] >= key[x] {
      var tail := s[1..];
      assert Descending(tail, key) by {
        forall a, b | 0 <= a < b < |tail| ensures key[tail[a]] >= key[tail[b]] {
          assert tail[a] == s[a + 1] && tail[b] == s[b + 1];
        }
      }
      InsertDescending(x, tail, key);
      var rest := Insert(x, tail, key);
      assert r == [s[0]] + rest;
      forall a, b | 0 <= a < b < |r| ensures key[r[a]] >= key[r[b]] {
        if a == 0 {
          assert r[b] == rest[b - 1];
          assert rest[b - 1] in multiset(rest);
          assert r[b] in multiset(tail) || r[b] == x;
          if r[b] in multiset(tail) {
            var c :| 0 <= c < |tail| && tail[c] == r[b];
            assert tail[c] == s[c + 1];
          }
        } else {
          assert r[a] == rest[a - 1] && r[b] == rest[b - 1];
        }
      }
    } else if |s| > 0 {
      assert r == [x] + s;
      forall a, b | 0 <= a < b < |r| ensures key[r[a]] >= key[r[b]] {
        if a == 0 {
          assert r[b] == s[b - 1];
        } else {
          assert r[a] == s[a - 1] && r[b] == s[b - 1];
        }
      }
    }
  }

  /** Entries with equal keys appear in increasing order. */
  predicate TiesInOrder(s: seq<nat>, key: seq<real>)
    requires InRange(s, |key|)
  {
    forall a, b :: 0 <= a < b < |s| && key[s[a]] == key[s[b]] ==> s[a] < s[b]
  }

  predicate Increasing(s: seq<nat>) {
    forall p, q :: 0 <= p < q < |s| ==> s[p] < s[q]
  }

  /** Dropping the first entry keeps a sequence descending with its ties in
      order. */
  lemma TailKeepsOrder(s: seq<nat>, key: seq<real>)
    requires |s| > 0 && InRange(s, |key|) && Descending(s, key) && TiesInOrder(s, key)
    ensures Descending(s[1..], key) && TiesInOrder(s[1..], key)
  {
    var tail := s[1..];
    forall a, b | 0 <= a < b < |tail| ensures key[tail[a]] >= key[tail[b]] {
      assert tail[a] == s[a + 1] && tail[b] == s[b + 1];
    }
    forall a, b | 0 <= a < b < |tail| && key[tail[a]] == key[tail[b]] ensures tail[a] < tail[b] {
      assert tail[a] == s[a + 1] && tail[b] == s[b + 1];
    }
  }

  /** An entry of the tail with x inserted, whose key ties with the head's,
      comes after the head. */
  lemma HeadBeforeInserted(x: nat, s: seq<nat>, key: seq<real>, v: nat)
    requires |s| > 0 && x < |key| && InRange(s, |key|) && TiesInOrder(s, key)
    requires forall q :: 0 <= q < |s| ==> s[q] < x
    requires v in multiset(Insert(x, s[1..], key)) && v < |key| && key[v] == key[s[0]]
    ensures s[0] < v
  {
    var tail := s[1..];
    assert v in multiset(tail) || v == x;
    if v in multiset(tail) {
      var c :| 0 <= c < |tail| && tail[c] == v;
      assert tail[c] == s[c + 1];
    }
  }

  /** Inserting an entry larger than every other one into a descending
      sequence whose ties are in order keeps the ties in order: x lands
      after every entry with an equal key. */
  lemma {:induction false} InsertStable(x: nat, s: seq<nat>, key: seq<real>)
    requires x < |key| && InRange(s, |key|) && Descending(s, key) && TiesInOrder(s, key)
    requires forall q :: 0 <= q < |s| ==> s[q] < x
    ensures TiesInOrder(Insert(x, s, key), key)
  {
    var r := Insert(x, s, key);
    if |s| > 0 && key[s[0]] >= key[x] {
      var tail := s[1..];
      TailKeepsOrder(s, key);
      InsertStable(x, tail, key);
      var rest := Insert(x, tail, key);
      assert r == [s[0]] + rest;
      forall a, b | 0 <= a < b < |r| && key[r[a]] == key[r[b]] ensures r[a] < r[b] {
        if a == 0 {
          assert r[b] == rest[b - 1];
          assert rest[b - 1] in multiset(rest);
          HeadBeforeInserted(x, s, key, r[b]);
        } else {
          assert r[a] == rest[a - 1] && r[b] == rest[b - 1];
        }
      }
    } else if |s| > 0 {
      assert r == [x] + s;
      assert forall c :: 1 <= c < |r| ==> key[r[c]] < key[x] by {
        forall c | 1 <= c < |r| ensures key[r[c]] < key[x] {
          assert r[c] == s[c - 1] && key[s[0]] >= key[s[c - 1]];
        }
      }
      forall a, b | 0 <= a < b < |r| && key[r[a]] == key[r[b]] ensures r[a] < r[b] {
        if a > 0 {
          assert r[a] == s[a - 1] && r[b] == s[b - 1];
        }
      }
    }
  }

  /** A stable sort by descending key: JavaScript's Array.prototype.sort with
      the comparator b - a, which has been stable since ES2019. Applied to
      increasing positions, as the filtered car list is, entries with equal
      keys keep their original order. */
  function SortDescending(s: seq<nat>, key: seq<real>): (r: seq<nat>)
    requires InRange(s, |key|)
    ensures |r| == |s| && multiset(r) == multiset(s) && InRange(r, |key|)
    ensures Descending(r, key)
    ensures Increasing(s) ==> TiesInOrder(r, key)
  {
    if |s| == 0 then []
    else
      assert s == s[..|s| - 1] + [s[|s| - 1]];
      var sorted := SortDescending(s[..|s| - 1], key);
      InsertDescending(s[|s| - 1], sorted, key);
      SortStep(s, key, sorted);
      Insert(s[|s| - 1], sorted, key)
  }

  /** The inductive step of the stability: every entry sorted so far comes
      before the last position. */
  lemma SortStep(s: seq<nat>, key: seq<real>, sorted: seq<nat>)
    requires |s| > 0 && InRange(s, |key|) && InRange(sorted, |key|) && Descending(sorted, key)
    requires multiset(sorted) == multiset(s[..|s| - 1])
    requires Increasing(s[..|s| - 1]) ==> TiesInOrder(sorted, key)
    ensures Increasing(s) ==> TiesInOrder(Insert(s[|s| - 1], sorted, key), key)
  {
    if Increasing(s) {
      var x := s[|s| - 1];
      forall q | 0 <= q < |sorted| ensures sorted[q] < x {
        assert sorted[q] in multiset(s[..|s| - 1]);
        var p :| 0 <= p < |s| - 1 && s[..|s| - 1][p] == sorted[q];
      }
      InsertStable(x, sorted, key);
    }
  }

  /** A finishing time the filter keeps: defined and non-zero. */
  predicate Truthy(t: Option<int>) { t.Some? && t.value != 0 }

  /** The smallest truthy finishing time among the cars at positions idx, if
      any: the first entry after sorting those times ascending. */
  function FastestTime(cars: seq<Car>, idx: seq<nat>): (t: Option<int>)
    requires InRange(idx, |cars|)
    ensures t.None? <==> forall q :: 0 <= q < |idx| ==> !Truthy(cars[idx[q]].completedTime)
    ensures t.Some? ==> exists q :: 0 <= q < |idx| && Truthy(cars[idx[q]].completedTime) && cars[idx[q]].completedTime == t
    ensures t.Some? ==> forall q :: 0 <= q < |idx| && Truthy(cars[idx[q]].completedTime) ==> t.value <= cars[idx[q]].completedTime.value
  {
    if |idx| == 0 then None
    else
      var rest := FastestTime(cars, idx[1..]);
      assert forall q :: 1 <= q < |idx| ==> idx[1..][q - 1] == idx[q];
      var here := cars[idx[0]].completedTime;
      if !Truthy(here) then rest
      else if rest.Some? && rest.value < here.value then rest
      else here
  }

  /** The bestTime of a generation record: the fastest truthy time, else 0. */
  function BestTime(cars: seq<Car>, idx: seq<nat>): (t: int)
    requires InRange(idx, |cars|)
    ensures (forall q :: 0 <= q < |idx| ==> !Truthy(cars[idx[q]].completedTime)) ==> t == 0
    ensures (exists q :: 0 <= q < |idx| && Truthy(cars[idx[q]].completedTime)) ==>
              && t != 0
              && (exists q :: 0 <= q < |idx| && Truthy(cars[idx[q]].completedTime) && cars[idx[q]].completedTime.value == t)
              && (forall q :: 0 <= q < |idx| && Truthy(cars[idx[q]].completedTime) ==> t <= cars[idx[q]].completedTime.value)
  {
    match FastestTime(cars, idx)
    case None => 0
    case Some(t) => t
  }

  /** The sum of the keys at positions s, added in order. */
  function SumAt(s: seq<nat>, key: seq<real>): real
    requires InRange(s, |key|)
  {
    if |s| == 0 then 0.0 else SumAt(s[..|s| - 1], key) + key[s[|s| - 1]]
  }

  /** The sum is at most the length times the largest key. */
  lemma {:induction false} SumAtMost(s: seq<nat>, key: seq<real>, top: real)
    requires InRange(s, |key|)
    requires forall q :: 0 <= q < |s| ==> key[s[q]] <= top
    ensures SumAt(s, key) <= |s| as real * top
  {
    if |s| > 0 {
      SumAtMost(s[..|s| - 1], key, top);
    }
  }

  /** Taking one entry out of the sum. */
  lemma {:induction false} SumAtRemove(t: seq<nat>, key: seq<real>, j: nat)
    requires InRange(t, |key|) && j < |t|
    ensures InRange(t[..j] + t[j + 1..], |key|)
    ensures SumAt(t, key) == SumAt(t[..j] + t[j + 1..], key) + key[t[j]]
  {
    var r := t[..j] + t[j + 1..];
    assert forall q :: 0 <= q < |r| ==> r[q] == (if q < j then t[q] else t[q + 1]);
    if j == |t| - 1 {
      assert r == t[..|t| - 1];
    } else {
      var u := t[..|t| - 1];
      SumAtRemove(u, key, j);
      assert r[..|r| - 1] == u[..j] + u[j + 1..];
      assert r[|r| - 1] == t[|t| - 1];
    }
  }

  /** Removing the entry at j removes one copy of it from the multiset. */
  lemma MultisetRemove(t: seq<nat>, j: nat)
    requires j < |t|
    ensures multiset(t[..j] + t[j + 1..]) == multiset(t) - multiset{t[j]}
  {
    assert t == t[..j] + [t[j]] + t[j + 1..];
  }

  /** The sum does not depend on the order of the positions. */
  lemma {:induction false} SumAtPermutation(s: seq<nat>, t: seq<nat>, key: seq<real>)
    requires InRange(s, |key|) && InRange(t, |key|) && multiset(s) == multiset(t)
    ensures SumAt(s, key) == SumAt(t, key)
    decreases |s|
  {
    if |s| == 0 {
      assert |t| == |multiset(t)| == 0;
    } else {
      var last := |s| - 1;
      assert s[last] in multiset(t);
      var j :| 0 <= j < |t| && t[j] == s[last];
      MultisetRemove(s, last);
      MultisetRemove(t, j);
      assert s[..last] + s[last + 1..] == s[..last];
      SumAtRemove(t, key, j);
      SumAtPermutation(s[..last], t[..j] + t[j + 1..], key);
    }
  }

  /** The mean of the keys at positions s. */
  function Average(s: seq<nat>, key: seq<real>): real
    requires InRange(s, |key|) && |s| > 0
  {
    SumAt(s, key) / |s| as real
  }

  lemma AverageAtMost(s: seq<nat>, key: seq<real>, top: real)
    requires InRange(s, |key|) && |s| > 0
    requires forall q :: 0 <= q < |s| ==> key[s[q]] <= top
    ensures Average(s, key) <= top
  {
    SumAtMost(s, key, top);
    DivideAtMost(SumAt(s, key), |s| as real, top);
  }

  /** The record's best fitness is the first after sorting: the largest
      fitness of the cars sorted, and no smaller than their average. */
  lemma BestIsMaximum(s: seq<nat>, key: seq<real>)
    requires InRange(s, |key|) && |s| > 0 && Descending(s, key)
    ensures forall q :: 0 <= q < |s| ==> key[s[0]] >= key[s[q]]
    ensures key[s[0]] >= Average(s, key)
  {
    assert forall q :: 0 < q < |s| ==> key[s[0]] >= key[s[q]];
    AverageAtMost(s, key, key[s[0]]);
  }

  /** What a variation is made of: a brain and a sensor layout. */
  datatype Genome = Genome(brain: Network, sensors: seq<Vec2>)

  /** offspringSensors: sensor i blends the parents' sensor i with its own
      random weight a, a * s1 + (1 - a) * s2 in each coordinate. */
  function OffspringSensors(s1: seq<Vec2>, s2: seq<Vec2>, r: Rng): (s: seq<Vec2>)
    requires |s2| >= |s1|
    ensures |s| == |s1|
    ensures forall i :: 0 <= i < |s1| ==> s[i] == Blend(s1[i], s2[i], r([i]))
  {
    seq(|s1|, i requires 0 <= i < |s1| => Blend(s1[i], s2[i], r([i])))
  }

  /** The point a of the way from q to p: p itself at weight 1, q at 0. */
  function Blend(p: Vec2, q: Vec2, a: real): (b: Vec2)
    ensures Subtract(b, q) == Scale(Subtract(p, q), a)
    ensures a == 1.0 ==> b == p
    ensures a == 0.0 ==> b == q
  {
    var b := Vec2(a * p.x + (1.0 - a) * q.x, a * p.y + (1.0 - a) * q.y);
    assert b.x - q.x == (p.x - q.x) * a && b.y - q.y == (p.y - q.y) * a;
    assert Scale(Subtract(p, q), a) == Vec2((p.x - q.x) * a, (p.y - q.y) * a);
    b
  }

  /** A weight in [0, 1) keeps a blended coordinate between the parents'. */
  lemma BlendBetween(u: real, v: real, a: real)
    requires 0.0 <= a < 1.0
    ensures Min(u, v) <= a * u + (1.0 - a) * v <= Max(u, v)
  {
    var d := if u >= v then u - v else v - u;
    MulNonNegative(a, d);
    MulNonNegative(1.0 - a, d);
    assert a * d + (1.0 - a) * d == d;
    assert a * u + (1.0 - a) * v - v == a * (u - v);
  }

  /** Every coordinate of an offspring sensor lies between the parents'. */
  lemma OffspringSensorsBetween(s1: seq<Vec2>, s2: seq<Vec2>, r: Rng)
    requires |s2| >= |s1| && Unit(r)
    ensures var s := OffspringSensors(s1, s2, r);
            forall i :: 0 <= i < |s| ==>
              && Min(s1[i].x, s2[i].x) <= s[i].x <= Max(s1[i].x, s2[i].x)
              && Min(s1[i].y, s2[i].y) <= s[i].y <= Max(s1[i].y, s2[i].y)
  {
    forall i | 0 <= i < |s1|
      ensures && Min(s1[i].x, s2[i].x) <= Blend(s1[i], s2[i], r([i])).x <= Max(s1[i].x, s2[i].x)
              && Min(s1[i].y, s2[i].y) <= Blend(s1[i], s2[i], r([i])).y <= Max(s1[i].y, s2[i].y)
    {
      BlendBetween(s1[i].x, s2[i].x, r([i]));
      BlendBetween(s1[i].y, s2[i].y, r([i]));
    }
  }

  /** mutateSensors: copies of the sensors, each coordinate moved by
      (random - 0.5) * rate * gaussian, with its own draws. */
  function MutateSensors(s: seq<Vec2>, r: Rng, gauss: Rng, rate: real): (m: seq<Vec2>)
    ensures |m| == |s|
    ensures forall i :: 0 <= i < |s| ==> m[i] == Vec2(
              s[i].x + SensorShift(r([i, 0]), rate, gauss([i, 0])),
              s[i].y + SensorShift(r([i, 1]), rate, gauss([i, 1])))
  {
    seq(|s|, i requires 0 <= i < |s| => Vec2(
      s[i].x + SensorShift(r([i, 0]), rate, gauss([i, 0])),
      s[i].y + SensorShift(r([i, 1]), rate, gauss([i, 1]))))
  }

  function SensorShift(u: real, rate: real, g: real): real {
    (u - 0.5) * rate * g
  }

  /** A shift of at most half the rate times the size of the gaussian draw,
      either way. */
  predicate ShiftWithin(d: real, rate: real, g: real) {
    var size := if g >= 0.0 then g else -g;
    -0.5 * rate * size <= d <= 0.5 * rate * size
  }

  lemma ShiftBound(u: real, rate: real, g: real)
    requires 0.0 <= u < 1.0 && rate >= 0.0
    ensures ShiftWithin(SensorShift(u, rate, g), rate, g)
  {
    var size := if g >= 0.0 then g else -g;
    var b := rate * size;
    MulNonNegative(rate, size);
    var a := if g >= 0.0 then u - 0.5 else 0.5 - u;
    assert SensorShift(u, rate, g) == a * b;
    assert 0.5 * rate * size == 0.5 * b && -0.5 * rate * size == -0.5 * b;
    if a >= 0.0 {
      MulNonNegative(a, b);
      assert (0.5 - a) * b >= 0.0 by { MulNonNegative(0.5 - a, b); }
    } else {
      MulNonNegative(-a, b);
      assert (a + 0.5) * b >= 0.0 by { MulNonNegative(a + 0.5, b); }
    }
  }

  /** A zero rate leaves the sensors as they are, and so does a unit draw of
      exactly one half; every coordinate moves by at most half the rate times
      the size of its gaussian draw. */
  lemma MutateSensorsProperties(s: seq<Vec2>, r: Rng, gauss: Rng, rate: real)
    ensures MutateSensors(s, r, gauss, 0.0) == s
    ensures (forall p :: r(p) == 0.5) ==> MutateSensors(s, r, gauss, rate) == s
    ensures Unit(r) && rate >= 0.0 ==>
              forall i :: 0 <= i < |s| ==>
                && ShiftWithin(MutateSensors(s, r, gauss, rate)[i].x - s[i].x, rate, gauss([i, 0]))
                && ShiftWithin(MutateSensors(s, r, gauss, rate)[i].y - s[i].y, rate, gauss([i, 1]))
  {
    if Unit(r) && rate >= 0.0 {
      var h := MutateSensors(s, r, gauss, rate);
      forall i | 0 <= i < |s|
        ensures ShiftWithin(h[i].x - s[i].x, rate, gauss([i, 0]))
        ensures ShiftWithin(h[i].y - s[i].y, rate, gauss([i, 1]))
      {
        ShiftBound(r([i, 0]), rate, gauss([i, 0]));
        ShiftBound(r([i, 1]), rate, gauss([i, 1]));
      }
    }
    var z := MutateSensors(s, r, gauss, 0.0);
    forall i | 0 <= i < |s| ensures z[i] == s[i] {
      assert SensorShift(r([i, 0]), 0.0, gauss([i, 0])) == 0.0;
      assert SensorShift(r([i, 1]), 0.0, gauss([i, 1])) == 0.0;
    }
    if forall p :: r(p) == 0.5 {
      var h := MutateSensors(s, r, gauss, rate);
      forall i | 0 <= i < |s| ensures h[i] == s[i] {
        assert SensorShift(r([i, 0]), rate, gauss([i, 0])) == 0.0;
        assert SensorShift(r([i, 1]), rate, gauss([i, 1])) == 0.0;
      }
    }
  }

  /** The stream of draws of variation v reserved for use `tag`. */
  function Sub(r: Rng, v: nat, tag: nat): Rng {
    Split(Split(r, v), tag)
  }

  /** Math.floor(u * n / 2) and Math.floor(u * n) for u in [0, 1): an index
      into the better half, and an index into all n. */
  function PickIndex(u: real, n: nat, half: bool): (p: nat)
    requires 0.0 <= u < 1.0 && n > 0
    ensures half ==> 2 * p < n
    ensures !half ==> p < n
  {
    var y := u * n as real;
    MulNonNegative(u, n as real);
    assert y < n as real by {
      MulPositive(n as real, 1.0 - u);
    }
    var x := if half then y / 2.0 else y;
    var f := x.Floor;
    assert f as real <= x;
    f
  }

  /** What the variations are built from: car-shaped brains and sensor
      layouts of one common length. */
  predicate VariationReady(best: seq<Genome>, hidden: nat) {
    && (forall q :: 0 <= q < |best| ==> CarBrain(best[q].brain, hidden))
    && (forall q :: 0 <= q < |best| ==> |best[q].sensors| == |best[0].sensors|)
  }

  /** The parents of variation v: the first from the better half, the
      second from all. */
  function Parent(best: seq<Genome>, v: nat, r: Rng, first: bool): (p: nat)
    requires Unit(r) && |best| > 0
    ensures first ==> 2 * p < |best|
    ensures p < |best|
  {
    PickIndex(r([v, if first then 0 else 1]), |best|, first)
  }

  /** The mutation rate of variation v: Math.random() * 5. */
  function Rate(v: nat, r: Rng): (rate: real)
    requires Unit(r)
    ensures 0.0 <= rate < 5.0
  {
    assert 0.0 <= r([v, 2]) < 1.0;
    r([v, 2]) * 5.0
  }

  /** The brain of variation v: uniform crossover of the parents' brains,
      then mutation. */
  function VariationBrain(best: seq<Genome>, v: nat, r: Rng, gauss: Rng, hidden: nat): (nn: Network)
    requires Unit(r) && |best| > 0 && VariationReady(best, hidden)
    ensures CarBrain(nn, hidden)
  {
    var p1 := Parent(best, v, r, true);
    var p2 := Parent(best, v, r, false);
    CarShapedCovers(best[p1].brain.weights, best[p1].brain.biases, hidden);
    CarShapedCovers(best[p2].brain.weights, best[p2].brain.biases, hidden);
    var child := CreateOffspring(best[p1].brain, best[p2].brain, Sub(r, v, 3), Sub(r, v, 4), hidden);
    MutateKeepsCarShape(child, Sub(gauss, v, 0), Rate(v, r), hidden);
    assert HasSizes(child, CarSizes(hidden)) by {
      assert Layers(child) == Layers(Create(Sub(r, v, 4), hidden));
    }
    Mutate(child, Sub(gauss, v, 0), Rate(v, r))
  }

  /** The sensors of variation v: the parents' layouts blended, then mutated. */
  function VariationSensors(best: seq<Genome>, v: nat, r: Rng, gauss: Rng, hidden: nat): (s: seq<Vec2>)
    requires Unit(r) && |best| > 0 && VariationReady(best, hidden)
    ensures |s| == |best[0].sensors|
  {
    var p1 := Parent(best, v, r, true);
    var p2 := Parent(best, v, r, false);
    MutateSensors(OffspringSensors(best[p1].sensors, best[p2].sensors, Sub(r, v, 5)), Sub(r, v, 6), Sub(gauss, v, 1), Rate(v, r))
  }

  /** Variation v of createVariations: parents from the better half and from
      all, a mutation rate of Math.random() * 5, uniform crossover of the
      brains and blending of the sensors, then mutation of both. */
  function Variation(best: seq<Genome>, v: nat, r: Rng, gauss: Rng, hidden: nat): (g: Genome)
    requires Unit(r) && |best| > 0 && VariationReady(best, hidden)
    ensures CarBrain(g.brain, hidden) && |g.sensors| == |best[0].sensors|
  {
    Genome(VariationBrain(best, v, r, gauss, hidden), VariationSensors(best, v, r, gauss, hidden))
  }

  /** Every variation comes from two parents, the first from the better half,
      crossed over and mutated at a rate in [0, 5). */
  lemma VariationFromParents(best: seq<Genome>, v: nat, r: Rng, gauss: Rng, hidden: nat)
    requires Unit(r) && |best| > 0 && VariationReady(best, hidden)
    ensures var g := Variation(best, v, r, gauss, hidden);
            exists p1: nat, p2: nat, rate: real ::
              && 2 * p1 < |best| && p2 < |best| && 0.0 <= rate < 5.0
              && CoversCar(best[p1].brain.weights, best[p1].brain.biases, hidden)
              && CoversCar(best[p2].brain.weights, best[p2].brain.biases, hidden)
              && g.brain == Mutate(CreateOffspring(best[p1].brain, best[p2].brain, Sub(r, v, 3), Sub(r, v, 4), hidden),
                                   Sub(gauss, v, 0), rate)
  {
    var p1 := Parent(best, v, r, true);
    var p2 := Parent(best, v, r, false);
    CarShapedCovers(best[p1].brain.weights, best[p1].brain.biases, hidden);
    CarShapedCovers(best[p2].brain.weights, best[p2].brain.biases, hidden);
    assert Variation(best, v, r, gauss, hidden).brain
        == Mutate(CreateOffspring(best[p1].brain, best[p2].brain, Sub(r, v, 3), Sub(r, v, 4), hidden),
                  Sub(gauss, v, 0), Rate(v, r));
  }

  /** The first `count` variations. */
  function Variations(best: seq<Genome>, count: nat, r: Rng, gauss: Rng, hidden: nat): (vs: seq<Genome>)
    requires Unit(r) && VariationReady(best, hidden) && (count > 0 ==> |best| > 0)
    ensures |vs| == count
    ensures forall v :: 0 <= v < count ==> vs[v] == Variation(best, v, r, gauss, hidden)
  {
    seq(count, v requires 0 <= v < count => Variation(best, v, r, gauss, hidden))
  }

  /** createVariations: the given genomes themselves, then
      amount - |best| variations (none when that is not positive). */
  function CreateVariations(best: seq<Genome>, amount: int, r: Rng, gauss: Rng, hidden: nat): (vs: seq<Genome>)
    requires Unit(r) && VariationReady(best, hidden) && (amount > |best| ==> |best| > 0)
    ensures |vs| == MaxInt(|best|, amount)
    ensures vs[..|best|] == best
    ensures forall q :: |best| <= q < |vs| ==> vs[q] == Variation(best, q - |best|, r, gauss, hidden)
  {
    var tail := Variations(best, MaxInt(0, amount - |best|), r, gauss, hidden);
    assert forall q :: |best| <= q < |best| + |tail| ==> (best + tail)[q] == tail[q - |best|];
    best + tail
  }

  /** The variations are ready to be varied again. */
  lemma VariationsReady(best: seq<Genome>, amount: int, r: Rng, gauss: Rng, hidden: nat)
    requires Unit(r) && VariationReady(best, hidden) && (amount > |best| ==> |best| > 0)
    ensures VariationReady(CreateVariations(best, amount, r, gauss, hidden), hidden)
  {
    var vs := CreateVariations(best, amount, r, gauss, hidden);
    if |vs| > 0 {
      assert |best| > 0;
      assert vs[0] == best[0] by {
        assert vs[..|best|][0] == vs[0];
      }
      forall q | 0 <= q < |vs|
        ensures CarBrain(vs[q].brain, hidden) && |vs[q].sensors| == |vs[0].sensors|
      {
        if q < |best| {
          assert vs[..|best|][q] == vs[q];
        } else {
          assert vs[q] == Variation(best, q - |best|, r, gauss, hidden);
        }
      }
    }
  }

  /** Every AI car carries a car-shaped brain and the default number of rays:
      what crossover and sensor blending read. */
  predicate AiGenomesReady(cars: seq<Car>, hidden: nat) {
    forall i :: 0 <= i < |cars| && cars[i].control == AI ==>
      && cars[i].brain.Some?
      && CarBrain(cars[i].brain.value, hidden)
      && |cars[i].sensorConfig| == |DefaultCarSensors|
  }

  /** The weaker invariant a running world keeps when there are more AI cars
      than genomes: an AI car with a brain has a car-shaped one and the
      default number of rays, and an AI car without a brain has not crashed
      (it has been reset and fails on its next step). */
  predicate AiBrainsSound(cars: seq<Car>, hidden: nat) {
    forall i :: 0 <= i < |cars| && cars[i].control == AI ==>
      && (cars[i].brain.Some? ==> CarBrain(cars[i].brain.value, hidden) && |cars[i].sensorConfig| == |DefaultCarSensors|)
      && (cars[i].crashed ==> cars[i].brain.Some?)
  }

  /** Two populations ready for crossover make one. */
  lemma AiGenomesReadyConcat(a: seq<Car>, b: seq<Car>, hidden: nat)
    requires AiGenomesReady(a, hidden) && AiGenomesReady(b, hidden)
    ensures AiGenomesReady(a + b, hidden)
  {
    forall i | 0 <= i < |a + b| && (a + b)[i].control == AI
      ensures (a + b)[i].brain.Some? && CarBrain((a + b)[i].brain.value, hidden)
              && |(a + b)[i].sensorConfig| == |DefaultCarSensors|
    {
      if i >= |a| {
        assert (a + b)[i] == b[i - |a|];
      }
    }
  }

  /** The brain of the i-th new car: a copy of the loaded brain if there is
      one, else a fresh random one. */
  function StartBrain(loaded: Option<Network>, r: Rng, i: nat, hidden: nat): (nn: Network)
    requires loaded.Some? ==> CoversCar(loaded.value.weights, loaded.value.biases, hidden)
    ensures CarShaped(nn.weights, nn.biases, hidden) && WellFormed(nn) && HasSizes(nn, CarSizes(hidden))
  {
    if loaded.Some? then Copy(loaded.value, Split(r, i), hidden) else Create(Split(r, i), hidden)
  }

  /** The carAmount AI cars startEvolution adds. */
  function StartCars(track: RaceTrack, loaded: Option<Network>, amount: nat, r: Rng, hidden: nat): (cs: seq<Car>)
    requires |track.points| > 0
    requires loaded.Some? ==> CoversCar(loaded.value.weights, loaded.value.biases, hidden)
    ensures |cs| == amount
    ensures forall i :: 0 <= i < amount ==>
              && cs[i].control == AI && cs[i].brain.Some?
              && cs[i] == CreateCar(AI, track).(brain := cs[i].brain)
              && CarBrain(cs[i].brain.value, hidden)
              && WellFormed(cs[i].brain.value)
              && |cs[i].sensorConfig| == |DefaultCarSensors|
  {
    seq(amount, i requires 0 <= i < amount => CreateCar(AI, track).(brain := Some(StartBrain(loaded, r, i, hidden))))
  }

  /** startEvolution: generation 0, carAmount new AI cars after the existing
      ones, and a zero record at the current tick. A loaded brain without the
      current shape is the TypeError the copy would throw. */
  function StartEvolution(w: World, r: Rng): (res: Result<World>)
    requires |w.track.points| > 0
    ensures res.Err? <==>
              w.loadedAI.Some? && !CoversCar(w.loadedAI.value.weights, w.loadedAI.value.biases, w.settings.hiddenLayerNodes)
    ensures res.Ok? ==>
              && res.value == w.(cars := res.value.cars, generation := Some(0), generationsInfo := res.value.generationsInfo)
              && res.value.generationsInfo == w.generationsInfo + [GenerationInfo(0.0, 0.0, 0, w.totalTicks, 0)]
              && res.value.cars == w.cars + StartCars(w.track, w.loadedAI, w.settings.carAmount, r, w.settings.hiddenLayerNodes)
  {
    var hidden := w.settings.hiddenLayerNodes;
    if w.loadedAI.Some? && !CoversCar(w.loadedAI.value.weights, w.loadedAI.value.biases, hidden) then
      Err("loaded brain does not match the network shape")
    else
      Ok(w.(cars := w.cars + StartCars(w.track, w.loadedAI, w.settings.carAmount, r, hidden),
            generation := Some(0),
            generationsInfo := w.generationsInfo + [GenerationInfo(0.0, 0.0, 0, w.totalTicks, 0)]))
  }

  /** cancelEvolution: no generation and no records; the cars stay. */
  function CancelEvolution(w: World): (w': World)
    ensures w'.generation.None? && w'.generationsInfo == []
    ensures w' == w.(generation := None, generationsInfo := [])
  {
    w.(generation := None, generationsInfo := [])
  }

  /** The genomes of the cars at the given positions. */
  function GenomesAt(cars: seq<Car>, s: seq<nat>, hidden: nat): (g: seq<Genome>)
    requires InRange(s, |cars|) && AiGenomesReady(cars, hidden)
    requires forall q :: 0 <= q < |s| ==> cars[s[q]].control == AI
    ensures |g| == |s| && VariationReady(g, hidden)
    ensures forall q :: 0 <= q < |s| ==> g[q] == Genome(cars[s[q]].brain.value, cars[s[q]].sensorConfig)
  {
    seq(|s|, q requires 0 <= q < |s| => Genome(cars[s[q]].brain.value, cars[s[q]].sensorConfig))
  }

  /** The first position of x in s. */
  function IndexIn(s: seq<nat>, x: nat): (q: nat)
    requires x in s
    ensures q < |s| && s[q] == x && forall p :: 0 <= p < q ==> s[p] != x
  {
    if s[0] == x then 0 else 1 + IndexIn(s[1..], x)
  }

  const Yellow: Color := Color(255, 255, 0)

  /** The genome at rank q, if createVariations made that many; the source
      then reads undefined, modelled as no brain and no sensor rays. */
  function GenomeAt(vs: seq<Genome>, q: nat): (g: Option<Genome>)
    ensures g.Some? <==> q < |vs|
    ensures g.Some? ==> g.value == vs[q]
  {
    if q < |vs| then Some(vs[q]) else None
  }

  /** An AI car given its new genome, reset, and coloured: yellow for the
      fittest, red for the rest. */
  function Renewed(car: Car, g: Option<Genome>, fittest: bool, track: RaceTrack): (r: Car)
    requires |track.points| > 0
    ensures r.pos == track.points[0] && r.vel == 0.0 && r.dir == StartHeading
    ensures r.progress == 0.0 && r.lap == 0 && !r.crashed && r.completedTime.None?
    ensures r.control == car.control && r.controls == car.controls && r.sensors == car.sensors
    ensures g.Some? ==> r.brain == Some(g.value.brain) && r.sensorConfig == g.value.sensors
    ensures g.None? ==> r.brain.None? && r.sensorConfig == []
    ensures r.color == Yellow <==> fittest
  {
    var brain := if g.Some? then Some(g.value.brain) else None;
    var sensors := if g.Some? then g.value.sensors else [];
    ResetCar(car.(brain := brain, sensorConfig := sensors), track).(color := if fittest then Yellow else ColorOf(AI))
  }

  /** The cars after a new generation: the AI car of rank q receives genome
      q; every other car is untouched. */
  function RenewCars(cars: seq<Car>, order: seq<nat>, vs: seq<Genome>, track: RaceTrack): (r: seq<Car>)
    requires |track.points| > 0
    requires forall i :: 0 <= i < |cars| && cars[i].control == AI ==> i in order
    ensures |r| == |cars|
    ensures forall i :: 0 <= i < |cars| && cars[i].control != AI ==> r[i] == cars[i]
    ensures forall i :: 0 <= i < |cars| && cars[i].control == AI ==>
              r[i] == Renewed(cars[i], GenomeAt(vs, IndexIn(order, i)), IndexIn(order, i) == 0, track)
    ensures forall i :: 0 <= i < |cars| ==> r[i].control == cars[i].control && r[i].controls == cars[i].controls
  {
    seq(|cars|, i requires 0 <= i < |cars| =>
      if cars[i].control == AI then Renewed(cars[i], GenomeAt(vs, IndexIn(order, i)), IndexIn(order, i) == 0, track)
      else cars[i])
  }

  /** A reordering of the AI positions holds exactly the AI positions. */
  lemma OrderHoldsAi(cars: seq<Car>, ai: seq<nat>, order: seq<nat>)
    requires ai == AiIndices(cars) && multiset(order) == multiset(ai)
    ensures InRange(order, |cars|)
    ensures forall q :: 0 <= q < |order| ==> cars[order[q]].control == AI
    ensures forall i :: 0 <= i < |cars| && cars[i].control == AI ==> i in order
  {
    forall q | 0 <= q < |order| ensures order[q] < |cars| && cars[order[q]].control == AI {
      assert order[q] in multiset(ai);
    }
    forall i | 0 <= i < |cars| && cars[i].control == AI ensures i in order {
      assert i in multiset(order);
    }
  }

  /** The head of a descending reordering of s has the greatest key among
      s, and at least the average. */
  lemma LeaderOfPermutation(order: seq<nat>, s: seq<nat>, key: seq<real>)
    requires InRange(order, |key|) && InRange(s, |key|) && |order| > 0
    requires multiset(order) == multiset(s) && Descending(order, key)
    ensures forall q :: 0 <= q < |s| ==> key[s[q]] <= key[order[0]]
    ensures exists q :: 0 <= q < |s| && key[s[q]] == key[order[0]]
    ensures Average(order, key) <= key[order[0]]
  {
    BestIsMaximum(order, key);
    forall q | 0 <= q < |s| ensures key[s[q]] <= key[order[0]] {
      assert s[q] in multiset(order);
      var p :| 0 <= p < |order| && order[p] == s[q];
    }
    assert order[0] in multiset(s);
    var p :| 0 <= p < |s| && s[p] == order[0];
  }

  /** The AI positions ranked by descending fitness. */
  function Ranking(cars: seq<Car>, curveLength: nat): (order: seq<nat>)
    ensures multiset(order) == multiset(AiIndices(cars)) && |order| == |AiIndices(cars)|
    ensures InRange(order, |cars|) && Descending(order, Fitnesses(cars, curveLength))
    ensures forall q :: 0 <= q < |order| ==> cars[order[q]].control == AI
    ensures forall i :: 0 <= i < |cars| && cars[i].control == AI ==> i in order
    ensures TiesInOrder(order, Fitnesses(cars, curveLength))
  {
    var ai := AiIndices(cars);
    var order := SortDescending(ai, Fitnesses(cars, curveLength));
    OrderHoldsAi(cars, ai, order);
    order
  }

  /** The record a new generation appends: the fitness of the first of the
      ranking, the average over the ranking, and the fastest time of the
      generation. */
  function Record(cars: seq<Car>, curveLength: nat, generation: int, tick: int): (rec: GenerationInfo)
    requires |AiIndices(cars)| > 0
    ensures rec.bestFitness == Fitnesses(cars, curveLength)[Ranking(cars, curveLength)[0]]
    ensures rec.averageFitness
         == SumAt(AiIndices(cars), Fitnesses(cars, curveLength)) / |AiIndices(cars)| as real
    ensures rec.bestTime == BestTime(cars, AiIndices(cars))
    ensures rec.generation == generation && rec.tick == tick
  {
    var fit := Fitnesses(cars, curveLength);
    var order := Ranking(cars, curveLength);
    SumAtPermutation(order, AiIndices(cars), fit);
    GenerationInfo(
      bestFitness := fit[order[0]],
      averageFitness := Average(order, fit),
      generation := generation,
      tick := tick,
      bestTime := BestTime(cars, AiIndices(cars)))
  }

  /** The recorded best fitness is one that some AI car reaches and no AI car
      exceeds, and the recorded average is no greater. */
  lemma RecordProperties(cars: seq<Car>, curveLength: nat, generation: int, tick: int)
    requires |AiIndices(cars)| > 0
    ensures var rec := Record(cars, curveLength, generation, tick);
            var fit := Fitnesses(cars, curveLength);
            && (forall i :: 0 <= i < |cars| && cars[i].control == AI ==> fit[i] <= rec.bestFitness)
            && (exists i :: 0 <= i < |cars| && cars[i].control == AI && fit[i] == rec.bestFitness)
            && rec.averageFitness <= rec.bestFitness
  {
    var rec := Record(cars, curveLength, generation, tick);
    var fit := Fitnesses(cars, curveLength);
    var order := Ranking(cars, curveLength);
    BestIsMaximum(order, fit);
    forall i | 0 <= i < |cars| && cars[i].control == AI ensures fit[i] <= rec.bestFitness {
      var q :| 0 <= q < |order| && order[q] == i;
    }
    assert cars[order[0]].control == AI;
  }

  function Fitnesses(cars: seq<Car>, curveLength: nat): (fit: seq<real>)
    ensures |fit| == |cars| && forall i :: 0 <= i < |cars| ==> fit[i] == CarFitness(cars[i], curveLength)
  {
    seq(|cars|, i requires 0 <= i < |cars| => CarFitness(cars[i], curveLength))
  }

  /** What newGeneration reads: a track to reset to and AI genomes to vary. */
  predicate NewGenerationReady(w: World) {
    && |w.track.points| > 0
    && AiGenomesReady(w.cars, w.settings.hiddenLayerNodes)
  }

  /** newGeneration: with no generation running nothing happens. Otherwise
      the AI cars are ranked by descending fitness, a record of the best and
      average fitness and the best time is appended, and the AI cars receive,
      by rank, the ten fittest genomes unchanged and then variations of them,
      and are reset. With no AI car at all the source throws reading the
      fitness of the first of none. */
  function NewGeneration(w: World, r: Rng, gauss: Rng): (res: Result<World>)
    requires Unit(r) && NewGenerationReady(w)
    ensures w.generation.None? ==> res == Ok(w)
    ensures res.Err? <==> w.generation.Some? && |AiIndices(w.cars)| == 0
    ensures res.Ok? && w.generation.Some? ==> res.value == Evolve(w, r, gauss)
  {
    if w.generation.None? then Ok(w)
    else if |AiIndices(w.cars)| == 0 then Err("no AI car to rank")
    else Ok(Evolve(w, r, gauss))
  }

  /** The world after a generation has been evaluated and replaced: only the
      cars, the generation number and the records change. */
  function Evolve(w: World, r: Rng, gauss: Rng): (w': World)
    requires Unit(r) && NewGenerationReady(w) && w.generation.Some? && |AiIndices(w.cars)| > 0
    ensures w' == w.(cars := w'.cars, generation := w'.generation, generationsInfo := w'.generationsInfo)
    ensures |w'.cars| == |w.cars|
    ensures forall i :: 0 <= i < |w.cars| ==>
              w'.cars[i].control == w.cars[i].control && w'.cars[i].controls == w.cars[i].controls
    ensures w'.generation == Some(w.generation.value + 1)
    ensures w'.generationsInfo ==
              w.generationsInfo + [Record(w.cars, |w.track.curvePoints|, w.generation.value + 1, w.totalTicks)]
  {
    var order := Ranking(w.cars, |w.track.curvePoints|);
    var vs := NextGenomes(w.cars, order, w.settings, r, gauss);
    var g := w.generation.value + 1;
    w.(cars := RenewCars(w.cars, order, vs, w.track),
       generation := Some(g),
       generationsInfo := w.generationsInfo + [Record(w.cars, |w.track.curvePoints|, g, w.totalTicks)])
  }

  /** The genomes handed out by rank: the (at most ten) fittest, then
      variations of them up to carAmount. */
  function NextGenomes(cars: seq<Car>, order: seq<nat>, settings: Settings, r: Rng, gauss: Rng): (vs: seq<Genome>)
    requires Unit(r) && |order| > 0 && InRange(order, |cars|)
    requires AiGenomesReady(cars, settings.hiddenLayerNodes)
    requires forall q :: 0 <= q < |order| ==> cars[order[q]].control == AI
    ensures |vs| == MaxInt(MinInt(10, |order|), settings.carAmount)
    ensures |order| <= MaxInt(10, settings.carAmount) ==> |order| <= |vs|
    ensures VariationReady(vs, settings.hiddenLayerNodes) && |vs[0].sensors| == |DefaultCarSensors|
    ensures forall q :: 0 <= q < MinInt(10, |order|) ==>
              vs[q] == Genome(cars[order[q]].brain.value, cars[order[q]].sensorConfig)
  {
    var hidden := settings.hiddenLayerNodes;
    var elites := GenomesAt(cars, order[..MinInt(10, |order|)], hidden);
    VariationsReady(elites, settings.carAmount, r, gauss, hidden);
    var vs := CreateVariations(elites, settings.carAmount, r, gauss, hidden);
    assert forall q :: 0 <= q < |elites| ==> vs[q] == vs[..|elites|][q];
    vs
  }

  /** Which positions hold AI cars depends only on the controls. */
  lemma {:induction false} AiIndicesByControl(c1: seq<Car>, c2: seq<Car>)
    requires |c1| == |c2| && forall i :: 0 <= i < |c1| ==> c1[i].control == c2[i].control
    ensures AiIndices(c1) == AiIndices(c2)
  {
    if |c1| > 0 {
      AiIndicesByControl(c1[..|c1| - 1], c2[..|c2| - 1]);
    }
  }

  /** Cancelling and then asking for a new generation changes nothing. */
  lemma CancelStopsGenerations(w: World, r: Rng, gauss: Rng)
    requires Unit(r) && NewGenerationReady(w)
    ensures NewGeneration(CancelEvolution(w), r, gauss) == Ok(CancelEvolution(w))
  {
  }

  /** Starting keeps the existing cars first and adds carAmount AI cars with
      car-shaped brains, so every AI car stays ready for crossover. */
  lemma StartEvolutionProperties(w: World, r: Rng)
    requires |w.track.points| > 0 && AiGenomesReady(w.cars, w.settings.hiddenLayerNodes)
    requires StartEvolution(w, r).Ok?
    ensures var w' := StartEvolution(w, r).value;
            && |w'.cars| == |w.cars| + w.settings.carAmount
            && w'.cars[..|w.cars|] == w.cars
            && (forall i :: |w.cars| <= i < |w'.cars| ==> w'.cars[i].control == AI && w'.cars[i].brain.Some?)
            && AiGenomesReady(w'.cars, w.settings.hiddenLayerNodes)
            && w'.generation == Some(0)
            && |w'.generationsInfo| == |w.generationsInfo| + 1
  {
    var w' := StartEvolution(w, r).value;
    var added := StartCars(w.track, w.loadedAI, w.settings.carAmount, r, w.settings.hiddenLayerNodes);
    assert w'.cars == w.cars + added;
    assert AiGenomesReady(added, w.settings.hiddenLayerNodes);
    AiGenomesReadyConcat(w.cars, added, w.settings.hiddenLayerNodes);
    assert w'.cars[..|w.cars|] == w.cars;
  }

  /** `after` has the cars of `before` with the same controls; the AI cars
      are back at the start, stopped, without progress, and every other car
      is untouched. */
  predicate AiCarsReset(before: seq<Car>, after: seq<Car>, track: RaceTrack)
    requires |track.points| > 0
  {
    && |after| == |before|
    && (forall i :: 0 <= i < |before| ==> after[i].control == before[i].control)
    && (forall i :: 0 <= i < |before| && before[i].control != AI ==> after[i] == before[i])
    && (forall i :: 0 <= i < |before| && before[i].control == AI ==>
          && after[i].pos == track.points[0] && after[i].vel == 0.0
          && after[i].progress == 0.0 && after[i].lap == 0
          && !after[i].crashed && after[i].completedTime.None?
          && after[i].sensors == before[i].sensors && after[i].controls == before[i].controls)
  }

  /** What renewing does to each car: AI cars are reset, receive the genome
      of their rank (none past the last genome) and are yellow exactly at
      rank 0; the rest are kept. When there are genomes for every rank, every
      AI car again has a car-shaped brain and the default number of rays. */
  lemma RenewCarsProperties(cars: seq<Car>, order: seq<nat>, vs: seq<Genome>, track: RaceTrack, hidden: nat)
    requires |track.points| > 0 && InRange(order, |cars|)
    requires forall i :: 0 <= i < |cars| && cars[i].control == AI ==> i in order
    requires |vs| > 0 && VariationReady(vs, hidden) && |vs[0].sensors| == |DefaultCarSensors|
    ensures var c := RenewCars(cars, order, vs, track);
            && AiCarsReset(cars, c, track)
            && (forall i :: 0 <= i < |cars| && cars[i].control == AI && IndexIn(order, i) < |vs| ==>
                  && c[i].brain == Some(vs[IndexIn(order, i)].brain)
                  && c[i].sensorConfig == vs[IndexIn(order, i)].sensors)
            && (forall i :: 0 <= i < |cars| && cars[i].control == AI && IndexIn(order, i) >= |vs| ==>
                  c[i].brain.None? && c[i].sensorConfig == [])
            && (forall i :: 0 <= i < |cars| && cars[i].control == AI ==>
                  (c[i].color == Yellow <==> IndexIn(order, i) == 0))
            && AiIndices(c) == AiIndices(cars)
            && (|order| <= |vs| ==> AiGenomesReady(c, hidden))
  {
    var c := RenewCars(cars, order, vs, track);
    forall i | 0 <= i < |cars| && cars[i].control == AI
      ensures && c[i].pos == track.points[0] && c[i].vel == 0.0
              && c[i].progress == 0.0 && c[i].lap == 0
              && !c[i].crashed && c[i].completedTime.None?
              && (IndexIn(order, i) < |vs| ==>
                    c[i].brain == Some(vs[IndexIn(order, i)].brain) && c[i].sensorConfig == vs[IndexIn(order, i)].sensors)
              && (IndexIn(order, i) >= |vs| ==> c[i].brain.None? && c[i].sensorConfig == [])
              && (c[i].color == Yellow <==> IndexIn(order, i) == 0)
              && c[i].control == AI && c[i].sensors == cars[i].sensors
    {
    }
    AiIndicesByControl(cars, c);
  }

  /** After a new generation every AI car is back at the start with no
      progress and every other car is untouched. When there are no more AI
      cars than genomes (at most ten, or at most carAmount), every AI car
      again carries a car-shaped brain and the default number of rays, so the
      world is ready for the next generation. */
  lemma EvolveCars(w: World, r: Rng, gauss: Rng)
    requires Unit(r) && NewGenerationReady(w) && w.generation.Some? && |AiIndices(w.cars)| > 0
    ensures AiCarsReset(w.cars, Evolve(w, r, gauss).cars, w.track)
    ensures |AiIndices(w.cars)| <= MaxInt(10, w.settings.carAmount) ==> NewGenerationReady(Evolve(w, r, gauss))
    ensures AiBrainsSound(Evolve(w, r, gauss).cars, w.settings.hiddenLayerNodes)
  {
    var w' := Evolve(w, r, gauss);
    var order := Ranking(w.cars, |w.track.curvePoints|);
    var vs := NextGenomes(w.cars, order, w.settings, r, gauss);
    assert w'.cars == RenewCars(w.cars, order, vs, w.track);
    RenewCarsProperties(w.cars, order, vs, w.track, w.settings.hiddenLayerNodes);
    RenewCarsSound(w.cars, order, vs, w.track, w.settings.hiddenLayerNodes);
  }

  /** Renewing leaves every AI car either with a genome of the variations or
      with no brain at all and not crashed. */
  lemma RenewCarsSound(cars: seq<Car>, order: seq<nat>, vs: seq<Genome>, track: RaceTrack, hidden: nat)
    requires |track.points| > 0
    requires forall i :: 0 <= i < |cars| && cars[i].control == AI ==> i in order
    requires |vs| > 0 && VariationReady(vs, hidden) && |vs[0].sensors| == |DefaultCarSensors|
    ensures AiBrainsSound(RenewCars(cars, order, vs, track), hidden)
  {
    var c := RenewCars(cars, order, vs, track);
    forall i | 0 <= i < |c| && c[i].control == AI
      ensures c[i].brain.Some? ==> CarBrain(c[i].brain.value, hidden) && |c[i].sensorConfig| == |DefaultCarSensors|
      ensures c[i].crashed ==> c[i].brain.Some?
    {
      var q := IndexIn(order, i);
      if q < |vs| {
        assert CarBrain(vs[q].brain, hidden) && |vs[q].sensors| == |vs[0].sensors|;
      }
    }
  }

  /** When the first k genomes are those of the first k ranked cars, the
      first ranked car keeps its genome and is the only yellow AI car, and
      if every AI car is among the first k all of them keep theirs. */
  lemma RenewCarsElites(cars: seq<Car>, order: seq<nat>, vs: seq<Genome>, track: RaceTrack, hidden: nat, k: nat)
    requires |track.points| > 0 && InRange(order, |cars|)
    requires forall i :: 0 <= i < |cars| && cars[i].control == AI ==> i in order
    requires |vs| > 0 && VariationReady(vs, hidden) && |vs[0].sensors| == |DefaultCarSensors|
    requires 0 < k <= |order| && k <= |vs| && AiGenomesReady(cars, hidden)
    requires forall q :: 0 <= q < |order| ==> cars[order[q]].control == AI
    requires forall q :: 0 <= q < k ==> vs[q] == Genome(cars[order[q]].brain.value, cars[order[q]].sensorConfig)
    ensures var c := RenewCars(cars, order, vs, track);
            && c[order[0]].color == Yellow
            && c[order[0]].brain == cars[order[0]].brain && c[order[0]].sensorConfig == cars[order[0]].sensorConfig
            && (forall i, j :: 0 <= i < j < |cars| && cars[i].control == AI && cars[j].control == AI ==>
                  c[i].color != Yellow || c[j].color != Yellow)
            && (|order| <= k ==>
                  forall i :: 0 <= i < |cars| && cars[i].control == AI ==>
                    c[i].brain == cars[i].brain && c[i].sensorConfig == cars[i].sensorConfig)
  {
    var c := RenewCars(cars, order, vs, track);
    RenewCarsProperties(cars, order, vs, track, hidden);
    assert IndexIn(order, order[0]) == 0;
    forall i, j | 0 <= i < j < |cars| && cars[i].control == AI && cars[j].control == AI
      ensures c[i].color != Yellow || c[j].color != Yellow
    {
      assert order[IndexIn(order, i)] == i && order[IndexIn(order, j)] == j;
    }
    if |order| <= k {
      forall i | 0 <= i < |cars| && cars[i].control == AI
        ensures c[i].brain == cars[i].brain && c[i].sensorConfig == cars[i].sensorConfig
      {
        assert order[IndexIn(order, i)] == i;
      }
    }
  }

  /** The fittest AI car (the first of the ranking) keeps its brain and its
      sensors and is the only AI car painted yellow; when there are at most
      ten AI cars, all of them are elites and keep their genomes. */
  lemma EvolveElites(w: World, r: Rng, gauss: Rng)
    requires Unit(r) && NewGenerationReady(w) && w.generation.Some? && |AiIndices(w.cars)| > 0
    ensures var w' := Evolve(w, r, gauss);
            var fit := Fitnesses(w.cars, |w.track.curvePoints|);
            && |w'.cars| == |w.cars|
            && (exists i :: && 0 <= i < |w.cars| && w.cars[i].control == AI
                            && fit[i] == w'.generationsInfo[|w.generationsInfo|].bestFitness
                            && w'.cars[i].color == Yellow
                            && w'.cars[i].brain == w.cars[i].brain
                            && w'.cars[i].sensorConfig == w.cars[i].sensorConfig)
            && (forall i, j :: 0 <= i < j < |w.cars| && w.cars[i].control == AI && w.cars[j].control == AI ==>
                  w'.cars[i].color != Yellow || w'.cars[j].color != Yellow)
            && (|AiIndices(w.cars)| <= 10 ==>
                  forall i :: 0 <= i < |w.cars| && w.cars[i].control == AI ==>
                    w'.cars[i].brain == w.cars[i].brain && w'.cars[i].sensorConfig == w.cars[i].sensorConfig)
  {
    var w' := Evolve(w, r, gauss);
    var fit := Fitnesses(w.cars, |w.track.curvePoints|);
    var order := Ranking(w.cars, |w.track.curvePoints|);
    var vs := NextGenomes(w.cars, order, w.settings, r, gauss);
    var c := RenewCars(w.cars, order, vs, w.track);
    assert w'.cars == c;
    assert w'.generationsInfo[|w.generationsInfo|].bestFitness == fit[order[0]];
    var k := MinInt(10, |order|);
    assert k <= |vs| && 0 < k <= |order|;
    RenewCarsElites(w.cars, order, vs, w.track, w.settings.hiddenLayerNodes, k);
    var i0 := order[0];
    assert 0 <= i0 < |w.cars| && w.cars[i0].control == AI;
    assert |AiIndices(w.cars)| <= 10 ==> |order| <= k;
  }
}

=== FILE: intersect.dfy ===
/** The segment intersection test used for sensors, collisions and the repair
    of self-intersecting border lines. Everything is exact rational arithmetic. */
module Intersection {
  import opened Base
  import opened Vectors

  /** The cross product of the two directions, (p2 - p1) x (p4 - p3). */
  function Denominator(p1: Vec2, p2: Vec2, p3: Vec2, p4: Vec2): real {
    (p2.x - p1.x) * (p4.y - p3.y) - (p4.x - p3.x) * (p2.y - p1.y)
  }

  /** lambda * Denominator: the position along p1 -> p2. */
  function LambdaNumerator(p1: Vec2, p2: Vec2, p3: Vec2, p4: Vec2): real {
    (p4.y - p3.y) * (p4.x - p1.x) + (p3.x - p4.x) * (p4.y - p1.y)
  }

  /** gamma * Denominator: the position along p4 -> p3. */
  function GammaNumerator(p1: Vec2, p2: Vec2, p3: Vec2, p4: Vec2): real {
    (p1.y - p2.y) * (p4.x - p1.x) + (p2.x - p1.x) * (p4.y - p1.y)
  }

  function Lambda(p1: Vec2, p2: Vec2, p3: Vec2, p4: Vec2): real
    requires Denominator(p1, p2, p3, p4) != 0.0
  {
    LambdaNumerator(p1, p2, p3, p4) / Denominator(p1, p2, p3, p4)
  }

  function Gamma(p1: Vec2, p2: Vec2, p3: Vec2, p4: Vec2): real
    requires Denominator(p1, p2, p3, p4) != 0.0
  {
    GammaNumerator(p1, p2, p3, p4) / Denominator(p1, p2, p3, p4)
  }

  /** The open interval (-0.01, 1.01) the test accepts for both parameters. */
  predicate InTolerance(t: real) {
    -0.01 < t < 1.01
  }

  /** The point p1 + t (p2 - p1) on the line through p1 and p2. */
  function PointOnLine(p1: Vec2, p2: Vec2, t: real): Vec2 {
    Vec2(p1.x + t * (p2.x - p1.x), p1.y + t * (p2.y - p1.y))
  }

  /** `false` for parallel lines and for crossings outside the tolerance band,
      otherwise the crossing point computed from lambda. */
  function LineIntersects(p1: Vec2, p2: Vec2, p3: Vec2, p4: Vec2): (r: Option<Vec2>)
    ensures Denominator(p1, p2, p3, p4) == 0.0 ==> r.None?
    ensures Denominator(p1, p2, p3, p4) != 0.0 ==>
      (r.Some? <==> InTolerance(Lambda(p1, p2, p3, p4)) && InTolerance(Gamma(p1, p2, p3, p4)))
    ensures r.Some? ==>
      && Denominator(p1, p2, p3, p4) != 0.0
      && r.value == PointOnLine(p1, p2, Lambda(p1, p2, p3, p4))
  {
    var denom := Denominator(p1, p2, p3, p4);
    if denom == 0.0 then None
    else
      var lambda := Lambda(p1, p2, p3, p4);
      var gamma := Gamma(p1, p2, p3, p4);
      if InTolerance(lambda) && InTolerance(gamma) then Some(PointOnLine(p1, p2, lambda))
      else None
  }

  lemma CancelFactor(a: real, d: real)
    requires d != 0.0 && a * d == 0.0
    ensures a == 0.0
  {
  }

  /** Dividing an identity `d a + l b == d c + g e` by `d`. */
  lemma DivideIdentity(d: real, a: real, l: real, b: real, c: real, g: real, e: real)
    requires d != 0.0
    requires d * a + l * b == d * c + g * e
    ensures a + (l / d) * b == c + (g / d) * e
  {
    var lq, gq := l / d, g / d;
    assert l == lq * d;
    assert g == gq * d;
    assert d * a + lq * d * b == d * c + gq * d * e;
    assert (a + lq * b - c - gq * e) * d == 0.0;
    CancelFactor(a + lq * b - c - gq * e, d);
  }

  /** (g - d) / (-d) == 1 - g / d. */
  lemma DivideFlip(g: real, d: real)
    requires d != 0.0
    ensures (g - d) / (-d) == 1.0 - g / d
  {
    var q, s := g / d, (g - d) / (-d);
    assert g == q * d;
    assert g - d == s * (-d);
    assert (1.0 - q - s) * d == 0.0;
    CancelFactor(1.0 - q - s, d);
  }

  /** Cramer's rule in one coordinate: lambda d1 + gamma d2 == D w, where
      d1 = p2 - p1, d2 = p4 - p3 and w = p4 - p1. */
  lemma CrossIdentity(d1x: real, d1y: real, d2x: real, d2y: real, wx: real, wy: real)
    ensures (d2y * wx - d2x * wy) * d1x + (d1x * wy - d1y * wx) * d2x
         == (d1x * d2y - d2x * d1y) * wx
    ensures (d2y * wx - d2x * wy) * d1y + (d1x * wy - d1y * wx) * d2y
         == (d1x * d2y - d2x * d1y) * wy
  {
  }

  /** Under exact arithmetic the returned point also lies on the second line:
      it is p4 + gamma (p3 - p4). */
  lemma IntersectionOnSecondLine(p1: Vec2, p2: Vec2, p3: Vec2, p4: Vec2)
    requires LineIntersects(p1, p2, p3, p4).Some?
    ensures LineIntersects(p1, p2, p3, p4).value == PointOnLine(p4, p3, Gamma(p1, p2, p3, p4))
  {
    var d := Denominator(p1, p2, p3, p4);
    var l, g := LambdaNumerator(p1, p2, p3, p4), GammaNumerator(p1, p2, p3, p4);
    CrossIdentity(p2.x - p1.x, p2.y - p1.y, p4.x - p3.x, p4.y - p3.y, p4.x - p1.x, p4.y - p1.y);
    assert d * p1.x + l * (p2.x - p1.x) == d * p4.x + g * (p3.x - p4.x);
    assert d * p1.y + l * (p2.y - p1.y) == d * p4.y + g * (p3.y - p4.y);
    DivideIdentity(d, p1.x, l, p2.x - p1.x, p4.x, g, p3.x - p4.x);
    DivideIdentity(d, p1.y, l, p2.y - p1.y, p4.y, g, p3.y - p4.y);
  }

  /** Swapping the two segments swaps the roles of lambda and gamma: each
      becomes one minus the other. */
  lemma SwapParameters(p1: Vec2, p2: Vec2, p3: Vec2, p4: Vec2)
    requires Denominator(p1, p2, p3, p4) != 0.0
    ensures Denominator(p3, p4, p1, p2) == -Denominator(p1, p2, p3, p4)
    ensures Lambda(p3, p4, p1, p2) == 1.0 - Gamma(p1, p2, p3, p4)
    ensures Gamma(p3, p4, p1, p2) == 1.0 - Lambda(p1, p2, p3, p4)
  {
    var d := Denominator(p1, p2, p3, p4);
    assert LambdaNumerator(p3, p4, p1, p2) == GammaNumerator(p1, p2, p3, p4) - d;
    assert GammaNumerator(p3, p4, p1, p2) == LambdaNumerator(p1, p2, p3, p4) - d;
    DivideFlip(GammaNumerator(p1, p2, p3, p4), d);
    DivideFlip(LambdaNumerator(p1, p2, p3, p4), d);
  }

  /** The tolerance band is symmetric about 1/2, so whether two segments are
      reported as crossing does not depend on their order. */
  lemma IntersectsSymmetric(p1: Vec2, p2: Vec2, p3: Vec2, p4: Vec2)
    ensures LineIntersects(p1, p2, p3, p4).Some? <==> LineIntersects(p3, p4, p1, p2).Some?
  {
    if Denominator(p1, p2, p3, p4) != 0.0 {
      SwapParameters(p1, p2, p3, p4);
    } else {
      assert Denominator(p3, p4, p1, p2) == 0.0;
    }
  }
}

=== FILE: neuralnet.dfy ===
/** The cars' neural controller: a fully connected network whose weights and
    biases are nested sequences, as in the source's NeuralNetwork record. */
module NeuralNet {
  import opened Base
  import opened Config

  datatype Network = Network(
    weights: seq<seq<seq<real>>>,
    biases: seq<seq<real>>,
    inputLayer: seq<real>,
    hiddenLayers: seq<seq<real>>,
    outputLayer: seq<real>)

  /** The activations, input layer first and output layer last. */
  function Layers(nn: Network): (layers: seq<seq<real>>)
    ensures |layers| == |nn.hiddenLayers| + 2
  {
    [nn.inputLayer] + nn.hiddenLayers + [nn.outputLayer]
  }

  /** weights[i] is a |layers[i]| x |layers[i + 1]| matrix and biases[i] has
      |layers[i]| entries: biases are sized by the source layer. */
  predicate WellFormed(nn: Network) {
    var layers := Layers(nn);
    && |nn.weights| == |layers| - 1
    && |nn.biases| == |layers| - 1
    && (forall i :: 0 <= i < |nn.weights| ==> |nn.weights[i]| == |layers[i]| && |nn.biases[i]| == |layers[i]|)
    && (forall i, j :: 0 <= i < |nn.weights| && 0 <= j < |nn.weights[i]| ==> |nn.weights[i][j]| == |layers[i + 1]|)
  }

  /** The layers have the given sizes. */
  predicate HasSizes(nn: Network, sizes: seq<nat>) {
    var layers := Layers(nn);
    |layers| == |sizes| && forall i :: 0 <= i < |sizes| ==> |layers[i]| == sizes[i]
  }

  /** No layer is larger than the one before it: the condition under which
      feed-forward, which reads biases[i - 1][j] for neuron j of layer i,
      stays within the biases. */
  predicate NonIncreasing(nn: Network) {
    var layers := Layers(nn);
    forall i :: 1 <= i < |layers| ==> |layers[i]| <= |layers[i - 1]|
  }

  /** The sizes of a car's network: one input per default sensor plus speed
      and heading, one hidden layer, three outputs. */
  function CarSizes(hidden: nat): seq<nat> {
    [InputCount, hidden, OutputCount]
  }

  /** The weight and bias dimensions of a car's network, spelled out. */
  predicate CarShaped(w: seq<seq<seq<real>>>, b: seq<seq<real>>, hidden: nat) {
    && |w| == 2 && |b| == 2
    && |w[0]| == InputCount && |b[0]| == InputCount
    && |w[1]| == hidden && |b[1]| == hidden
    && (forall j :: 0 <= j < InputCount ==> |w[0][j]| == hidden)
    && (forall j :: 0 <= j < hidden ==> |w[1][j]| == OutputCount)
  }

  /** `w` and `b` have an entry at every position of a car's network: what
      copying, crossover and loading read. */
  predicate CoversCar(w: seq<seq<seq<real>>>, b: seq<seq<real>>, hidden: nat) {
    && |w| >= 2 && |b| >= 2
    && |w[0]| >= InputCount && |b[0]| >= InputCount
    && |w[1]| >= hidden && |b[1]| >= hidden
    && (forall j :: 0 <= j < InputCount ==> |w[0][j]| >= hidden)
    && (forall j :: 0 <= j < hidden ==> |w[1][j]| >= OutputCount)
  }

  /** The rows brainFromJson dereferences exist: biases[0] always (every input
      neuron reads its bias), and, when the hidden layer is not empty,
      weights[0][j] for every input j and weights[1][j] and biases[1] for
      every hidden j. Without them the source throws a TypeError; with them
      a short innermost row only yields undefined entries. */
  predicate LoadDereferences(w: seq<seq<seq<real>>>, b: seq<seq<real>>, hidden: nat) {
    && |b| >= 1
    && (hidden > 0 ==> |w| >= 2 && |b| >= 2 && |w[0]| >= InputCount && |w[1]| >= hidden)
  }

  /** Data that covers a car's network is dereferenced without a throw. */
  lemma CoversCarDereferences(w: seq<seq<seq<real>>>, b: seq<seq<real>>, hidden: nat)
    requires CoversCar(w, b, hidden)
    ensures LoadDereferences(w, b, hidden)
  {
  }

  /** A car's brain: the car's weight and bias dimensions and the car's
      layer sizes, whatever the activations hold. */
  predicate CarBrain(nn: Network, hidden: nat) {
    CarShaped(nn.weights, nn.biases, hidden) && HasSizes(nn, CarSizes(hidden))
  }

  /** A car's brain is well formed, and it can be fed forward exactly when
      the hidden layer has between 3 and InputCount nodes. */
  lemma CarBrainFeedable(nn: Network, hidden: nat)
    requires CarBrain(nn, hidden)
    ensures WellFormed(nn) && |nn.inputLayer| == InputCount && |nn.outputLayer| == OutputCount
    ensures NonIncreasing(nn) <==> 3 <= hidden <= InputCount
  {
    var layers := Layers(nn);
    assert |layers[0]| == InputCount && |layers[1]| == hidden && |layers[2]| == OutputCount;
    assert layers[0] == nn.inputLayer && layers[2] == nn.outputLayer;
    forall i | 0 <= i < |nn.weights|
      ensures |nn.weights[i]| == |layers[i]| && |nn.biases[i]| == |layers[i]|
    {
      if i == 0 {} else {}
    }
    forall i, j | 0 <= i < |nn.weights| && 0 <= j < |nn.weights[i]|
      ensures |nn.weights[i][j]| == |layers[i + 1]|
    {
      if i == 0 {} else {}
    }
    if 3 <= hidden <= InputCount {
      forall i | 1 <= i < |layers| ensures |layers[i]| <= |layers[i - 1]| {
        if i == 1 {} else {}
      }
    } else {
      assert !(|layers[1]| <= |layers[0]| && |layers[2]| <= |layers[1]|);
    }
  }

  lemma CarShapedCovers(w: seq<seq<seq<real>>>, b: seq<seq<real>>, hidden: nat)
    requires CarShaped(w, b, hidden)
    ensures CoversCar(w, b, hidden)
  {
  }

  function Zeros(n: nat): (z: seq<real>)
    ensures |z| == n && forall i :: 0 <= i < n ==> z[i] == 0.0
  {
    seq(n, _ => 0.0)
  }

  /** A network with car-shaped weights and zero car-sized activations is
      well formed with the car's layer sizes. */
  lemma CarShape(nn: Network, hidden: nat)
    requires nn.inputLayer == Zeros(InputCount) && nn.hiddenLayers == [Zeros(hidden)]
    requires nn.outputLayer == Zeros(OutputCount)
    requires CarShaped(nn.weights, nn.biases, hidden)
    ensures WellFormed(nn) && HasSizes(nn, CarSizes(hidden)) && NonIncreasing(nn) <==> 3 <= hidden <= InputCount
    ensures WellFormed(nn) && HasSizes(nn, CarSizes(hidden))
  {
    var layers := Layers(nn);
    assert layers == [Zeros(InputCount), Zeros(hidden), Zeros(OutputCount)];
    forall i | 0 <= i < |nn.weights|
      ensures |nn.weights[i]| == |layers[i]| && |nn.biases[i]| == |layers[i]|
    {
      if i == 0 {} else {}
    }
    forall i, j | 0 <= i < |nn.weights| && 0 <= j < |nn.weights[i]|
      ensures |nn.weights[i][j]| == |layers[i + 1]|
    {
      if i == 0 {} else {}
    }
    forall i | 0 <= i < 3 ensures |layers[i]| == CarSizes(hidden)[i] {
      if i == 0 {} else if i == 1 {} else {}
    }
    if 3 <= hidden <= InputCount {
      forall i | 1 <= i < |layers| ensures |layers[i]| <= |layers[i - 1]| {
        if i == 1 {} else {}
      }
    } else if hidden < 3 {
      assert |layers[2]| > |layers[1]|;
    } else {
      assert |layers[1]| > |layers[0]|;
    }
  }

  /** Math.random() * 2 - 1. */
  function Centered(x: real): real { x * 2.0 - 1.0 }

  /** A row of n fresh values drawn at paths prefix + [k]. */
  function RandomRow(r: Rng, prefix: seq<nat>, n: nat): (v: seq<real>)
    ensures |v| == n && forall k :: 0 <= k < n ==> v[k] == Centered(r(prefix + [k]))
  {
    seq(n, k requires 0 <= k < n => Centered(r(prefix + [k])))
  }

  /** A rows x cols matrix of fresh values drawn at paths prefix + [j, k]. */
  function RandomMatrix(r: Rng, prefix: seq<nat>, rows: nat, cols: nat): (mat: seq<seq<real>>)
    ensures |mat| == rows && forall j :: 0 <= j < rows ==> mat[j] == RandomRow(r, prefix + [j], cols)
  {
    seq(rows, j requires 0 <= j < rows => RandomRow(r, prefix + [j], cols))
  }

  /** createCarNeuralNetwork: zero activations; weight [i][j][k] is drawn at
      path [0, i, j, k] and bias [i][j] at path [1, i, j]. */
  function Create(r: Rng, hidden: nat): (nn: Network)
    ensures CarShaped(nn.weights, nn.biases, hidden)
    ensures WellFormed(nn) && HasSizes(nn, CarSizes(hidden))
    ensures nn.inputLayer == Zeros(InputCount) && nn.hiddenLayers == [Zeros(hidden)]
    ensures nn.outputLayer == Zeros(OutputCount)
  {
    var w := [RandomMatrix(r, [0, 0], InputCount, hidden), RandomMatrix(r, [0, 1], hidden, OutputCount)];
    var b := [RandomRow(r, [1, 0], InputCount), RandomRow(r, [1, 1], hidden)];
    var nn := Network(w, b, Zeros(InputCount), [Zeros(hidden)], Zeros(OutputCount));
    CarShape(nn, hidden);
    nn
  }

  /** With Math.random() in [0, 1), every initial weight and bias lies in [-1, 1). */
  lemma CreateInRange(r: Rng, hidden: nat)
    requires Unit(r)
    ensures var nn := Create(r, hidden);
            && (forall i, j, k :: 0 <= i < |nn.weights| && 0 <= j < |nn.weights[i]| && 0 <= k < |nn.weights[i][j]| ==>
                  -1.0 <= nn.weights[i][j][k] < 1.0)
            && (forall i, j :: 0 <= i < |nn.biases| && 0 <= j < |nn.biases[i]| ==> -1.0 <= nn.biases[i][j] < 1.0)
  {
    var nn := Create(r, hidden);
    RandomMatrixInRange(r, [0, 0], InputCount, hidden);
    RandomMatrixInRange(r, [0, 1], hidden, OutputCount);
    RandomRowInRange(r, [1, 0], InputCount);
    RandomRowInRange(r, [1, 1], hidden);
    assert nn.weights == [RandomMatrix(r, [0, 0], InputCount, hidden), RandomMatrix(r, [0, 1], hidden, OutputCount)];
    assert nn.biases == [RandomRow(r, [1, 0], InputCount), RandomRow(r, [1, 1], hidden)];
  }

  lemma RandomRowInRange(r: Rng, prefix: seq<nat>, n: nat)
    requires Unit(r)
    ensures forall k :: 0 <= k < n ==> -1.0 <= RandomRow(r, prefix, n)[k] < 1.0
  {
    forall k | 0 <= k < n ensures -1.0 <= RandomRow(r, prefix, n)[k] < 1.0 {
      assert 0.0 <= r(prefix + [k]) < 1.0;
    }
  }

  lemma RandomMatrixInRange(r: Rng, prefix: seq<nat>, rows: nat, cols: nat)
    requires Unit(r)
    ensures forall j, k :: 0 <= j < rows && 0 <= k < cols ==> -1.0 <= RandomMatrix(r, prefix, rows, cols)[j][k] < 1.0
  {
    forall j | 0 <= j < rows ensures forall k :: 0 <= k < cols ==> -1.0 <= RandomMatrix(r, prefix, rows, cols)[j][k] < 1.0 {
      RandomRowInRange(r, prefix + [j], cols);
    }
  }

  /** The first rows x cols block of a matrix. */
  function Block(mat: seq<seq<real>>, rows: nat, cols: nat): (blk: seq<seq<real>>)
    requires |mat| >= rows && forall j :: 0 <= j < rows ==> |mat[j]| >= cols
    ensures |blk| == rows && forall j :: 0 <= j < rows ==> blk[j] == mat[j][..cols]
  {
    seq(rows, j requires 0 <= j < rows => mat[j][..cols])
  }

  /** A fresh network of the current shape with every weight and bias read
      from the same position of `w` and `b`: the loop shared by copying and
      loading. */
  function Overlay(r: Rng, hidden: nat, w: seq<seq<seq<real>>>, b: seq<seq<real>>): (o: Network)
    requires CoversCar(w, b, hidden)
    ensures CarShaped(o.weights, o.biases, hidden) && Layers(o) == Layers(Create(r, hidden))
    ensures forall i, j, k :: 0 <= i < 2 && 0 <= j < |o.weights[i]| && 0 <= k < |o.weights[i][j]| ==>
              o.weights[i][j][k] == w[i][j][k]
    ensures forall i, j :: 0 <= i < 2 && 0 <= j < |o.biases[i]| ==> o.biases[i][j] == b[i][j]
  {
    Create(r, hidden).(
      weights := [Block(w[0], InputCount, hidden), Block(w[1], hidden, OutputCount)],
      biases := [b[0][..InputCount], b[1][..hidden]])
  }

  /** copyNeuralNetwork: a fresh network of the current shape whose weights
      and biases are read from `nn`; activations are not copied. */
  function Copy(nn: Network, r: Rng, hidden: nat): (c: Network)
    requires CoversCar(nn.weights, nn.biases, hidden)
    ensures WellFormed(c) && HasSizes(c, CarSizes(hidden))
    ensures CarShaped(c.weights, c.biases, hidden)
  {
    var c := Overlay(r, hidden, nn.weights, nn.biases);
    CarShape(c, hidden);
    c
  }

  /** A matrix equals its own full block. */
  lemma BlockOfExact(mat: seq<seq<real>>, rows: nat, cols: nat)
    requires |mat| == rows && forall j :: 0 <= j < rows ==> |mat[j]| == cols
    ensures Block(mat, rows, cols) == mat
  {
    forall j | 0 <= j < rows ensures Block(mat, rows, cols)[j] == mat[j] {
      assert mat[j][..cols] == mat[j];
    }
  }

  /** A copy of a network of the current shape has exactly its weights and
      biases, zero activations, and does not depend on the random draws. */
  lemma CopyExact(nn: Network, r: Rng, r': Rng, hidden: nat)
    requires CarShaped(nn.weights, nn.biases, hidden)
    ensures CoversCar(nn.weights, nn.biases, hidden)
    ensures Copy(nn, r, hidden).weights == nn.weights && Copy(nn, r, hidden).biases == nn.biases
    ensures Layers(Copy(nn, r, hidden)) == Layers(Create(r, hidden))
    ensures Copy(nn, r', hidden) == Copy(nn, r, hidden)
  {
    BlockOfExact(nn.weights[0], InputCount, hidden);
    BlockOfExact(nn.weights[1], hidden, OutputCount);
    assert nn.biases[0][..InputCount] == nn.biases[0];
    assert nn.biases[1][..hidden] == nn.biases[1];
    assert nn.weights == [nn.weights[0], nn.weights[1]];
    assert nn.biases == [nn.biases[0], nn.biases[1]];
  }

  /** Each of n entries from a when its coin draw exceeds 0.5, else from b. */
  function PickRow(a: seq<real>, b: seq<real>, coin: Rng, prefix: seq<nat>, n: nat): (v: seq<real>)
    requires |a| >= n && |b| >= n
    ensures |v| == n
    ensures forall k :: 0 <= k < n ==> v[k] == (if coin(prefix + [k]) > 0.5 then a[k] else b[k])
  {
    seq(n, k requires 0 <= k < n => if coin(prefix + [k]) > 0.5 then a[k] else b[k])
  }

  function PickMatrix(a: seq<seq<real>>, b: seq<seq<real>>, coin: Rng, prefix: seq<nat>, rows: nat, cols: nat)
    : (mat: seq<seq<real>>)
    requires |a| >= rows && |b| >= rows
    requires forall j :: 0 <= j < rows ==> |a[j]| >= cols && |b[j]| >= cols
    ensures |mat| == rows
    ensures forall j :: 0 <= j < rows ==> mat[j] == PickRow(a[j], b[j], coin, prefix + [j], cols)
  {
    seq(rows, j requires 0 <= j < rows => PickRow(a[j], b[j], coin, prefix + [j], cols))
  }

  /** createOffspring: a fresh network of the current shape in which every
      weight and bias is taken from nn1 when its own coin draw exceeds 0.5
      and from nn2 otherwise. */
  function CreateOffspring(nn1: Network, nn2: Network, coin: Rng, r: Rng, hidden: nat): (o: Network)
    requires CoversCar(nn1.weights, nn1.biases, hidden)
    requires CoversCar(nn2.weights, nn2.biases, hidden)
    ensures CarShaped(o.weights, o.biases, hidden) && Layers(o) == Layers(Create(r, hidden))
  {
    Create(r, hidden).(
      weights := [
        PickMatrix(nn1.weights[0], nn2.weights[0], coin, [0, 0], InputCount, hidden),
        PickMatrix(nn1.weights[1], nn2.weights[1], coin, [0, 1], hidden, OutputCount)],
      biases := [
        PickRow(nn1.biases[0], nn2.biases[0], coin, [1, 0], InputCount),
        PickRow(nn1.biases[1], nn2.biases[1], coin, [1, 1], hidden)])
  }

  /** Uniform crossover: every weight and bias of the offspring is the one at
      the same position of nn1 or of nn2. */
  lemma OffspringFromParents(nn1: Network, nn2: Network, coin: Rng, r: Rng, hidden: nat)
    requires CoversCar(nn1.weights, nn1.biases, hidden)
    requires CoversCar(nn2.weights, nn2.biases, hidden)
    ensures var o := CreateOffspring(nn1, nn2, coin, r, hidden);
            && (forall i, j, k :: 0 <= i < |o.weights| && 0 <= j < |o.weights[i]| && 0 <= k < |o.weights[i][j]| ==>
                  o.weights[i][j][k] == nn1.weights[i][j][k] || o.weights[i][j][k] == nn2.weights[i][j][k])
            && (forall i, j :: 0 <= i < |o.biases| && 0 <= j < |o.biases[i]| ==>
                  o.biases[i][j] == nn1.biases[i][j] || o.biases[i][j] == nn2.biases[i][j])
  {
    var o := CreateOffspring(nn1, nn2, coin, r, hidden);
    forall i, j, k | 0 <= i < |o.weights| && 0 <= j < |o.weights[i]| && 0 <= k < |o.weights[i][j]|
      ensures o.weights[i][j][k] == nn1.weights[i][j][k] || o.weights[i][j][k] == nn2.weights[i][j][k]
    {
      if i == 0 {} else {}
    }
    forall i, j | 0 <= i < |o.biases| && 0 <= j < |o.biases[i]|
      ensures o.biases[i][j] == nn1.biases[i][j] || o.biases[i][j] == nn2.biases[i][j]
    {
      if i == 0 {} else {}
    }
  }

  /** Crossing a network of the current shape with itself copies it. */
  lemma OffspringOfSelf(nn: Network, coin: Rng, r: Rng, hidden: nat)
    requires CarShaped(nn.weights, nn.biases, hidden)
    ensures CoversCar(nn.weights, nn.biases, hidden)
    ensures CreateOffspring(nn, nn, coin, r, hidden) == Copy(nn, r, hidden)
  {
    CopyExact(nn, r, r, hidden);
    var o := CreateOffspring(nn, nn, coin, r, hidden);
    forall j | 0 <= j < InputCount ensures o.weights[0][j] == nn.weights[0][j] {
    }
    forall j | 0 <= j < hidden ensures o.weights[1][j] == nn.weights[1][j] {
    }
    assert o.weights[0] == nn.weights[0] && o.weights[1] == nn.weights[1];
    assert o.biases[0] == nn.biases[0] && o.biases[1] == nn.biases[1];
  }

  /** Two networks have the same weight and bias dimensions. */
  predicate SameShape(a: Network, b: Network) {
    && |a.weights| == |b.weights| && |a.biases| == |b.biases|
    && (forall i :: 0 <= i < |a.weights| ==> |a.weights[i]| == |b.weights[i]|)
    && (forall i, j :: 0 <= i < |a.weights| && 0 <= j < |a.weights[i]| ==> |a.weights[i][j]| == |b.weights[i][j]|)
    && (forall i :: 0 <= i < |a.biases| ==> |a.biases[i]| == |b.biases[i]|)
  }

  /** One mutated value: `x += draw * rate`. */
  function Nudge(x: real, draw: real, rate: real): real { x + draw * rate }

  /** Each entry nudged by its own Gaussian draw, drawn at prefix + [k]. */
  function MutateRow(row: seq<real>, gauss: Rng, prefix: seq<nat>, rate: real): (v: seq<real>)
    ensures |v| == |row|
    ensures forall k :: 0 <= k < |row| ==> v[k] == Nudge(row[k], gauss(prefix + [k]), rate)
  {
    seq(|row|, k requires 0 <= k < |row| => Nudge(row[k], gauss(prefix + [k]), rate))
  }

  function MutateMatrix(mat: seq<seq<real>>, gauss: Rng, prefix: seq<nat>, rate: real): (m: seq<seq<real>>)
    ensures |m| == |mat|
    ensures forall j :: 0 <= j < |mat| ==> m[j] == MutateRow(mat[j], gauss, prefix + [j], rate)
  {
    seq(|mat|, j requires 0 <= j < |mat| => MutateRow(mat[j], gauss, prefix + [j], rate))
  }

  /** mutate: every weight [i][j][k] moves by the draw at [0, i, j, k] times
      the rate and every bias [i][j] by the draw at [1, i, j]; the gaussian
      source (gaussianRandom(0, 0.1)) is a parameter. */
  function Mutate(nn: Network, gauss: Rng, rate: real): (r: Network)
    ensures SameShape(r, nn) && Layers(r) == Layers(nn)
    ensures |r.weights| == |nn.weights| && |r.biases| == |nn.biases|
    ensures forall i :: 0 <= i < |nn.weights| ==> r.weights[i] == MutateMatrix(nn.weights[i], gauss, [0, i], rate)
    ensures forall i :: 0 <= i < |nn.biases| ==> r.biases[i] == MutateRow(nn.biases[i], gauss, [1, i], rate)
  {
    nn.(
      weights := seq(|nn.weights|, i requires 0 <= i < |nn.weights| => MutateMatrix(nn.weights[i], gauss, [0, i], rate)),
      biases := seq(|nn.biases|, i requires 0 <= i < |nn.biases| => MutateRow(nn.biases[i], gauss, [1, i], rate)))
  }

  /** Each weight moves by exactly its draw times the rate. */
  lemma MutateWeights(nn: Network, gauss: Rng, rate: real)
    ensures var r := Mutate(nn, gauss, rate);
            forall i, j, k :: 0 <= i < |nn.weights| && 0 <= j < |nn.weights[i]| && 0 <= k < |nn.weights[i][j]| ==>
              r.weights[i][j][k] == Nudge(nn.weights[i][j][k], gauss([0, i, j, k]), rate)
  {
    var r := Mutate(nn, gauss, rate);
    forall i, j, k | 0 <= i < |nn.weights| && 0 <= j < |nn.weights[i]| && 0 <= k < |nn.weights[i][j]|
      ensures r.weights[i][j][k] == Nudge(nn.weights[i][j][k], gauss([0, i, j, k]), rate)
    {
      MatrixEntry(nn.weights[i], gauss, i, rate, j, k);
    }
  }

  lemma MatrixEntry(mat: seq<seq<real>>, gauss: Rng, i: nat, rate: real, j: nat, k: nat)
    requires j < |mat| && k < |mat[j]|
    ensures MutateMatrix(mat, gauss, [0, i], rate)[j][k] == Nudge(mat[j][k], gauss([0, i, j, k]), rate)
  {
    assert MutateMatrix(mat, gauss, [0, i], rate)[j] == MutateRow(mat[j], gauss, [0, i] + [j], rate);
    PathOfThree(0, i, j, k);
  }

  /** Each bias moves by exactly its draw times the rate. */
  lemma MutateBiases(nn: Network, gauss: Rng, rate: real)
    ensures var r := Mutate(nn, gauss, rate);
            forall i, j :: 0 <= i < |nn.biases| && 0 <= j < |nn.biases[i]| ==>
              r.biases[i][j] == Nudge(nn.biases[i][j], gauss([1, i, j]), rate)
  {
    var r := Mutate(nn, gauss, rate);
    forall i, j | 0 <= i < |nn.biases| && 0 <= j < |nn.biases[i]|
      ensures r.biases[i][j] == Nudge(nn.biases[i][j], gauss([1, i, j]), rate)
    {
      assert [1, i] + [j] == [1, i, j];
    }
  }

  lemma PathOfThree(a: nat, i: nat, j: nat, k: nat)
    ensures [a, i] + [j] + [k] == [a, i, j, k]
  {
  }

  /** Mutation keeps a network well formed, and a zero rate changes nothing. */
  lemma MutateProperties(nn: Network, gauss: Rng, rate: real)
    ensures WellFormed(nn) ==> WellFormed(Mutate(nn, gauss, rate))
    ensures rate == 0.0 ==> Mutate(nn, gauss, rate) == nn
  {
    var r := Mutate(nn, gauss, rate);
    if rate == 0.0 {
      forall i | 0 <= i < |nn.weights| ensures r.weights[i] == nn.weights[i] {
        forall j | 0 <= j < |nn.weights[i]| ensures r.weights[i][j] == nn.weights[i][j] {
        }
      }
      forall i | 0 <= i < |nn.biases| ensures r.biases[i] == nn.biases[i] {
      }
    }
  }

  /** Mutation keeps the shape of a car's network. */
  lemma MutateKeepsCarShape(nn: Network, gauss: Rng, rate: real, hidden: nat)
    requires CarShaped(nn.weights, nn.biases, hidden)
    ensures CarShaped(Mutate(nn, gauss, rate).weights, Mutate(nn, gauss, rate).biases, hidden)
  {
    var r := Mutate(nn, gauss, rate);
    assert SameShape(r, nn);
    assert |r.weights[0]| == InputCount && |r.weights[1]| == hidden;
  }

  /** The structured content of brainToJson: only weights and biases. */
  datatype BrainData = BrainData(weights: seq<seq<seq<real>>>, biases: seq<seq<real>>)

  function BrainToJson(nn: Network): (d: BrainData)
    ensures d.weights == nn.weights && d.biases == nn.biases
  {
    BrainData(nn.weights, nn.biases)
  }

  /** brainFromJson: a fresh network of the current shape filled from the
      data; data lacking a position the source reads is an error (the source
      throws a TypeError reading through undefined). */
  function BrainFromJson(data: BrainData, r: Rng, hidden: nat): (res: Result<Network>)
    ensures res.Ok? <==> CoversCar(data.weights, data.biases, hidden)
    ensures !LoadDereferences(data.weights, data.biases, hidden) ==> res.Err?
    ensures res.Ok? ==> WellFormed(res.value) && HasSizes(res.value, CarSizes(hidden))
    ensures res.Ok? ==> Layers(res.value) == Layers(Create(r, hidden))
  {
    if CoversCar(data.weights, data.biases, hidden) then
      var nn := Overlay(r, hidden, data.weights, data.biases);
      CarShape(nn, hidden);
      Ok(nn)
    else
      Err("brain data does not match the network shape")
  }

  /** Reading back the data of a network of the current shape gives its copy:
      the same weights and biases, with zero activations. */
  lemma BrainJsonRoundTrip(nn: Network, r: Rng, hidden: nat)
    requires CarShaped(nn.weights, nn.biases, hidden)
    ensures BrainFromJson(BrainToJson(nn), r, hidden).Ok?
    ensures BrainFromJson(BrainToJson(nn), r, hidden).value.weights == nn.weights
    ensures BrainFromJson(BrainToJson(nn), r, hidden).value.biases == nn.biases
    ensures BrainFromJson(BrainToJson(nn), r, hidden).value == Copy(nn, r, hidden)
  {
    CopyExact(nn, r, r, hidden);
  }

  /** The logistic activation 1 / (1 + e^-z): it maps every input into the
      open unit interval. */
  function Sigmoid(m: MathLib, z: real): (s: real)
    requires ExpPositive(m)
    ensures 0.0 < s < 1.0
  {
    var d := 1.0 + Exp(m, -z);
    assert d > 1.0;
    assert 1.0 / d < 1.0;
    1.0 / d
  }

  /** The input to neuron j from the first n neurons of the previous layer. */
  function WeightedSum(prev: seq<real>, w: seq<seq<real>>, j: nat, n: nat): real
    requires n <= |prev| && n <= |w| && forall k :: 0 <= k < n ==> j < |w[k]|
  {
    if n == 0 then 0.0 else WeightedSum(prev, w, j, n - 1) + prev[n - 1] * w[n - 1][j]
  }

  /** The activations of a layer of `size` neurons fed by `prev`. */
  function LayerOutput(m: MathLib, prev: seq<real>, w: seq<seq<real>>, b: seq<real>, size: nat): (out: seq<real>)
    requires ExpPositive(m)
    requires |w| == |prev| && (forall k :: 0 <= k < |w| ==> |w[k]| == size) && size <= |b|
    ensures |out| == size
  {
    seq(size, j requires 0 <= j < size => Sigmoid(m, WeightedSum(prev, w, j, |prev|) + b[j]))
  }

  /** `layers` has the layer sizes of `nn`. */
  predicate Fits(nn: Network, layers: seq<seq<real>>) {
    var sizes := Layers(nn);
    |layers| == |sizes| && forall t :: 0 <= t < |layers| ==> |layers[t]| == |sizes[t]|
  }

  /** Recomputes layers i, i + 1, ... in order, each from the one before. */
  function ForwardFrom(m: MathLib, nn: Network, layers: seq<seq<real>>, i: nat): (res: seq<seq<real>>)
    requires ExpPositive(m) && WellFormed(nn) && NonIncreasing(nn) && Fits(nn, layers)
    requires 1 <= i <= |layers|
    ensures Fits(nn, res) && res[..i] == layers[..i]
    decreases |layers| - i
  {
    if i == |layers| then layers
    else
      var next := LayerOutput(m, layers[i - 1], nn.weights[i - 1], nn.biases[i - 1], |layers[i]|);
      ForwardFrom(m, nn, layers[i := next], i + 1)
  }

  /** The first |input| entries of the input layer replaced by the input. */
  function WriteInput(layer: seq<real>, input: seq<real>): (r: seq<real>)
    requires |input| <= |layer|
    ensures |r| == |layer| && r[..|input|] == input && r[|input|..] == layer[|input|..]
  {
    input + layer[|input|..]
  }

  /** The network after feedForward: the input written, then every later
      layer recomputed in order. */
  function Forward(m: MathLib, nn: Network, input: seq<real>): (r: Network)
    requires ExpPositive(m) && WellFormed(nn) && NonIncreasing(nn) && |input| <= |nn.inputLayer|
    ensures r.weights == nn.weights && r.biases == nn.biases
  {
    var start := Layers(nn)[0 := WriteInput(nn.inputLayer, input)];
    var layers := ForwardFrom(m, nn, start, 1);
    nn.(inputLayer := layers[0], hiddenLayers := layers[1..|layers| - 1], outputLayer := layers[|layers| - 1])
  }

  /** After feed-forward the network keeps its shape, its input layer starts
      with the input, and each computed layer is the logistic function of its
      weighted sums plus biases, so every output lies strictly between 0 and 1. */
  lemma ForwardProperties(m: MathLib, nn: Network, input: seq<real>)
    requires ExpPositive(m) && WellFormed(nn) && NonIncreasing(nn) && |input| <= |nn.inputLayer|
    ensures var r := Forward(m, nn, input);
            && WellFormed(r) && Fits(r, Layers(nn))
            && r.inputLayer[..|input|] == input
            && r.inputLayer[|input|..] == nn.inputLayer[|input|..]
            && (forall v :: v in r.outputLayer ==> 0.0 < v < 1.0)
  {
    var start := Layers(nn)[0 := WriteInput(nn.inputLayer, input)];
    var layers := ForwardFrom(m, nn, start, 1);
    var r := Forward(m, nn, input);
    assert Layers(r) == layers;
    ForwardFromInUnit(m, nn, start, 1);
    assert layers[..1] == start[..1];
    assert layers[0] == start[0];
    assert r.outputLayer == layers[|layers| - 1];
    forall v | v in r.outputLayer ensures 0.0 < v < 1.0 {
      var j :| 0 <= j < |r.outputLayer| && r.outputLayer[j] == v;
      assert layers[|layers| - 1][j] == v;
    }
  }

  /** Every activation of layers i, i + 1, ... lies in (0, 1). */
  predicate InUnitFrom(layers: seq<seq<real>>, i: nat) {
    forall t, j :: i <= t < |layers| && 0 <= j < |layers[t]| ==> 0.0 < layers[t][j] < 1.0
  }

  lemma InUnitExtend(layers: seq<seq<real>>, i: nat)
    requires i < |layers| && InUnitFrom(layers, i + 1)
    requires forall j :: 0 <= j < |layers[i]| ==> 0.0 < layers[i][j] < 1.0
    ensures InUnitFrom(layers, i)
  {
  }

  lemma LayerOutputInUnit(m: MathLib, prev: seq<real>, w: seq<seq<real>>, b: seq<real>, size: nat)
    requires ExpPositive(m)
    requires |w| == |prev| && (forall k :: 0 <= k < |w| ==> |w[k]| == size) && size <= |b|
    ensures forall j :: 0 <= j < size ==> 0.0 < LayerOutput(m, prev, w, b, size)[j] < 1.0
  {
    forall j | 0 <= j < size ensures 0.0 < LayerOutput(m, prev, w, b, size)[j] < 1.0 {
      assert LayerOutput(m, prev, w, b, size)[j] == Sigmoid(m, WeightedSum(prev, w, j, |prev|) + b[j]);
    }
  }

  /** Every recomputed layer's activations lie in (0, 1). */
  lemma {:induction false} ForwardFromInUnit(m: MathLib, nn: Network, layers: seq<seq<real>>, i: nat)
    requires ExpPositive(m) && WellFormed(nn) && NonIncreasing(nn) && Fits(nn, layers)
    requires 1 <= i <= |layers|
    ensures InUnitFrom(ForwardFrom(m, nn, layers, i), i)
    decreases |layers| - i
  {
    if i < |layers| {
      var next := LayerOutput(m, layers[i - 1], nn.weights[i - 1], nn.biases[i - 1], |layers[i]|);
      var layers' := layers[i := next];
      ForwardFromInUnit(m, nn, layers', i + 1);
      var res := ForwardFrom(m, nn, layers', i + 1);
      assert res[i] == next by {
        assert res[..i + 1] == layers'[..i + 1];
      }
      LayerOutputInUnit(m, layers[i - 1], nn.weights[i - 1], nn.biases[i - 1], |layers[i]|);
      InUnitExtend(res, i);
    }
  }

  method NeuronSum(prev: seq<real>, w: seq<seq<real>>, j: nat) returns (sum: real)
    requires |w| == |prev| && forall k :: 0 <= k < |w| ==> j < |w[k]|
    ensures sum == WeightedSum(prev, w, j, |prev|)
  {
    sum := 0.0;
    var k := 0;
    while k < |prev|
      invariant 0 <= k <= |prev|
      invariant sum == WeightedSum(prev, w, j, k)
    {
      sum := sum + prev[k] * w[k][j];
      k := k + 1;
    }
  }

  /** Overwrites every neuron of `cur` with its activation. */
  method ComputeLayer(m: MathLib, prev: seq<real>, w: seq<seq<real>>, b: seq<real>, cur: seq<real>)
    returns (next: seq<real>)
    requires ExpPositive(m)
    requires |w| == |prev| && (forall k :: 0 <= k < |w| ==> |w[k]| == |cur|) && |cur| <= |b|
    ensures next == LayerOutput(m, prev, w, b, |cur|)
  {
    next := cur;
    var j := 0;
    while j < |next|
      invariant 0 <= j <= |next| == |cur|
      invariant forall t :: 0 <= t < j ==> next[t] == LayerOutput(m, prev, w, b, |cur|)[t]
    {
      var sum := NeuronSum(prev, w, j);
      sum := sum + b[j];
      next := next[j := Sigmoid(m, sum)];
      j := j + 1;
    }
  }

  /** feedForward: writes the input, recomputes every layer after the input
      layer in place and returns the output layer. */
  method FeedForward(m: MathLib, nn: Network, input: seq<real>) returns (r: Network, output: seq<real>)
    requires ExpPositive(m) && WellFormed(nn) && NonIncreasing(nn) && |input| <= |nn.inputLayer|
    ensures r == Forward(m, nn, input)
    ensures output == r.outputLayer && |output| == |nn.outputLayer|
  {
    var first := CopyInput(nn.inputLayer, input);
    var layers := ComputeLayers(m, nn, Layers(nn)[0 := first]);
    r := nn.(inputLayer := layers[0], hiddenLayers := layers[1..|layers| - 1], outputLayer := layers[|layers| - 1]);
    output := r.outputLayer;
  }

  /** The first loop of feedForward: input[i] written into the input layer. */
  method CopyInput(layer: seq<real>, input: seq<real>) returns (first: seq<real>)
    requires |input| <= |layer|
    ensures first == WriteInput(layer, input)
  {
    first := layer;
    var i := 0;
    while i < |input|
      invariant 0 <= i <= |input| && |first| == |layer|
      invariant first == input[..i] + layer[i..]
    {
      first := first[i := input[i]];
      i := i + 1;
    }
  }

  /** The second loop of feedForward: layers 1, 2, ... recomputed in place. */
  method ComputeLayers(m: MathLib, nn: Network, start: seq<seq<real>>) returns (layers: seq<seq<real>>)
    requires ExpPositive(m) && WellFormed(nn) && NonIncreasing(nn) && Fits(nn, start) && |start| >= 1
    ensures layers == ForwardFrom(m, nn, start, 1)
  {
    layers := start;
    var i := 1;
    while i < |layers|
      invariant 1 <= i <= |layers|
      invariant Fits(nn, layers)
      invariant ForwardFrom(m, nn, layers, i) == ForwardFrom(m, nn, start, 1)
    {
      var next := ComputeLayer(m, layers[i - 1], nn.weights[i - 1], nn.biases[i - 1], layers[i]);
      layers := layers[i := next];
      i := i + 1;
    }
  }
}

=== FILE: physics.dfy ===
/** The per-tick rules applied to every car that has not crashed: driving
    inputs, the sensor and collision tests against nearby border edges, lap
    progress and motion. */
module Physics {
  import opened Base
  import opened Vectors
  import opened Config
  import opened Intersection
  import opened Boundary
  import opened NeuralNet
  import opened Entities

  /** The tick's time step: the measured milliseconds, but a fixed 50 as soon
      as any car is driven by the network. */
  function TickDelta(cars: seq<Car>, elapsed: real): (delta: real)
    ensures (exists i :: 0 <= i < |cars| && cars[i].control == AI) ==> delta == 50.0
    ensures (forall i :: 0 <= i < |cars| ==> cars[i].control != AI) ==> delta == elapsed
  {
    if exists i :: 0 <= i < |cars| && cars[i].control == AI then 50.0 else elapsed
  }

  /** The steering rate for a steering input: (steer - 0.5) * 0.05 * delta. */
  function SteerRate(steer: real, delta: real): real {
    (steer - 0.5) * 0.05 * delta
  }

  /** carControls: accelerating adds 0.01 delta; braking then takes 0.02 delta
      off a speed above 0.04 and 0.001 delta off a lower one; steering is
      recomputed from the steering input. */
  function CarControls(car: Car, delta: real): (r: Car)
    ensures r == car.(vel := r.vel, steer := r.steer)
    ensures r.steer == SteerRate(car.controls.steer, delta)
    ensures !car.controls.brake ==>
              r.vel == (if car.controls.accelerate then car.vel + 0.01 * delta else car.vel)
    ensures car.controls.brake && !car.controls.accelerate ==>
              r.vel == (if car.vel > 0.04 then car.vel - 0.02 * delta else car.vel - 0.001 * delta)
    ensures car.controls.brake && car.controls.accelerate ==>
              var sped := car.vel + 0.01 * delta;
              r.vel == (if sped > 0.04 then sped - 0.02 * delta else sped - 0.001 * delta)
  {
    var v1 := if car.controls.accelerate then car.vel + 0.01 * delta else car.vel;
    var v2 :=
      if !car.controls.brake then v1
      else if v1 > 0.04 then v1 - 0.02 * delta
      else v1 - 0.001 * delta;
    car.(vel := v2, steer := SteerRate(car.controls.steer, delta))
  }

  lemma ScaledHalfBound(a: real, b: real)
    requires -0.5 <= a <= 0.5 && b >= 0.0
    ensures -0.5 * b <= a * b <= 0.5 * b
  {
    if a >= 0.0 {
      assert a * b <= 0.5 * b by {
        assert (0.5 - a) * b >= 0.0;
      }
    } else {
      assert -0.5 * b <= a * b by {
        assert (a + 0.5) * b >= 0.0;
      }
    }
  }

  /** For a non-negative step, the speed changes by between -0.02 delta and
      +0.01 delta, only when a pedal is pressed, and a steering input in
      [0, 1] turns by at most 0.025 delta either way; 0.5 holds straight. */
  lemma ControlsBounds(car: Car, delta: real)
    requires delta >= 0.0
    ensures var r := CarControls(car, delta);
            && car.vel - 0.02 * delta <= r.vel <= car.vel + 0.01 * delta
            && (!car.controls.accelerate && !car.controls.brake ==> r.vel == car.vel)
            && (car.controls.accelerate && !car.controls.brake ==> r.vel == car.vel + 0.01 * delta)
            && (car.controls.brake && !car.controls.accelerate && car.vel > 0.04 ==> r.vel == car.vel - 0.02 * delta)
            && (car.controls.brake && !car.controls.accelerate && car.vel <= 0.04 ==> r.vel == car.vel - 0.001 * delta)
            && (car.controls.brake && car.controls.accelerate ==> car.vel - 0.01 * delta <= r.vel <= car.vel + 0.009 * delta)
            && (0.0 <= car.controls.steer <= 1.0 ==> -0.025 * delta <= r.steer <= 0.025 * delta)
            && (car.controls.steer == 0.5 ==> r.steer == 0.0)
  {
    var s := car.controls.steer;
    var r := CarControls(car, delta);
    if 0.0 <= s <= 1.0 {
      SteerBound(s, delta);
    }
    if s == 0.5 {
      assert SteerRate(s, delta) == 0.0 * 0.05 * delta;
    }
  }

  lemma SteerBound(s: real, delta: real)
    requires delta >= 0.0 && 0.0 <= s <= 1.0
    ensures -0.025 * delta <= SteerRate(s, delta) <= 0.025 * delta
  {
    ScaledHalfBound(s - 0.5, 0.05 * delta);
    assert SteerRate(s, delta) == (s - 0.5) * (0.05 * delta);
    assert -0.5 * (0.05 * delta) == -0.025 * delta && 0.5 * (0.05 * delta) == 0.025 * delta;
  }

  /** The heading after turning: one turn is added to a negative heading and
      one taken off a heading above 2 PI. */
  function WrapHeading(d: real): (h: real)
    ensures d < 0.0 ==> h == d + 2.0 * PI
    ensures 0.0 <= d <= 2.0 * PI ==> h == d
    ensures d > 2.0 * PI ==> h == d - 2.0 * PI
  {
    var d1 := if d < 0.0 then d + PI * 2.0 else d;
    if d1 > PI * 2.0 then d1 - PI * 2.0 else d1
  }

  /** A heading in [0, 2 PI] stays there after any turn of at most one
      revolution either way. */
  lemma HeadingStaysInRange(dir: real, steer: real)
    requires 0.0 <= dir <= 2.0 * PI && -2.0 * PI <= steer <= 2.0 * PI
    ensures 0.0 <= WrapHeading(dir + steer) <= 2.0 * PI
  {
  }

  /** The motion at the end of a car's tick: move along the heading by the
      speed, apply friction (1 - 0.00015 delta) to the speed, then turn. */
  function Move(m: MathLib, car: Car, delta: real): (r: Car)
    ensures r == car.(pos := r.pos, vel := r.vel, dir := r.dir)
    ensures r.pos == Add(car.pos, Rotate(m, Vec2(car.vel, 0.0), car.dir))
    ensures r.vel == car.vel * (1.0 - 0.00015 * delta)
    ensures r.dir == WrapHeading(car.dir + car.steer)
  {
    car.(
      pos := Add(car.pos, Rotate(m, Vec2(car.vel, 0.0), car.dir)),
      vel := car.vel * (1.0 - 0.00015 * delta),
      dir := WrapHeading(car.dir + car.steer))
  }

  /** Friction never speeds a car up or turns it round while the step stays
      below 1 / 0.00015 milliseconds. */
  lemma FrictionSlows(m: MathLib, car: Car, delta: real)
    requires 0.0 <= delta <= 1.0 / 0.00015
    ensures var v := Move(m, car, delta).vel;
            && (car.vel >= 0.0 ==> 0.0 <= v <= car.vel)
            && (car.vel <= 0.0 ==> car.vel <= v <= 0.0)
  {
    var f := 1.0 - 0.00015 * delta;
    assert 0.00015 * delta <= 0.00015 * (1.0 / 0.00015) == 1.0;
    assert Move(m, car, delta).vel == car.vel * f;
    ScaleByFraction(car.vel, f);
  }

  lemma ScaleByFraction(v: real, f: real)
    requires 0.0 <= f <= 1.0
    ensures v >= 0.0 ==> 0.0 <= v * f <= v
    ensures v <= 0.0 ==> v <= v * f <= 0.0
  {
    var g := 1.0 - f;
    MulNonNegative(if v >= 0.0 then v else -v, f);
    MulNonNegative(if v >= 0.0 then v else -v, g);
    assert v * f + v * g == v;
  }

  /** The network inputs of a car: its readings, then speed / 5, then the
      sine of its heading. */
  function AiInputs(m: MathLib, car: Car): (inputs: seq<real>)
    ensures |inputs| == |car.sensors| + 2
    ensures inputs[..|car.sensors|] == car.sensors
    ensures inputs[|car.sensors|] == car.vel / 5.0 && inputs[|car.sensors| + 1] == Sin(m, car.dir)
  {
    car.sensors + [car.vel / 5.0, Sin(m, car.dir)]
  }

  /** What controlCarByAI needs: a brain, well formed and feedable, with room
      for the inputs and at least three outputs. */
  predicate AiReady(car: Car) {
    && car.brain.Some?
    && WellFormed(car.brain.value) && NonIncreasing(car.brain.value)
    && |car.sensors| + 2 <= |car.brain.value.inputLayer|
    && |car.brain.value.outputLayer| >= 3
  }

  /** A network output in [0, 1] read as the steering input. */
  function ClampUnit(v: real): (c: real)
    ensures 0.0 <= c <= 1.0
    ensures 0.0 <= v <= 1.0 ==> c == v
  {
    Max(Min(v, 1.0), 0.0)
  }

  /** controlCarByAI: feed the inputs forward (which updates the brain's
      activations) and read the pedals off outputs 0 and 1 and the steering
      off output 2. */
  function ControlByAI(m: MathLib, car: Car): (r: Car)
    requires ExpPositive(m) && AiReady(car)
    ensures r == car.(brain := r.brain, controls := r.controls)
    ensures r.brain.Some? && r.brain.value == Forward(m, car.brain.value, AiInputs(m, car))
    ensures var out := r.brain.value.outputLayer;
            && |out| == |car.brain.value.outputLayer|
            && (r.controls.accelerate <==> out[0] > 0.9)
            && (r.controls.brake <==> out[1] > 0.9)
            && 0.0 <= r.controls.steer <= 1.0
  {
    var nn := Forward(m, car.brain.value, AiInputs(m, car));
    ForwardProperties(m, car.brain.value, AiInputs(m, car));
    var out := nn.outputLayer;
    car.(brain := Some(nn), controls := Controls(out[0] > 0.9, out[1] > 0.9, ClampUnit(out[2])))
  }

  /** Since every output lies in (0, 1), the clamp never applies: the steering
      input is output 2 itself, and the brain keeps its weights, biases and
      well-formedness. */
  lemma AiSteersWithOutput(m: MathLib, car: Car)
    requires ExpPositive(m) && AiReady(car)
    ensures var r := ControlByAI(m, car);
            && r.controls.steer == r.brain.value.outputLayer[2]
            && 0.0 < r.controls.steer < 1.0
            && r.brain.value.weights == car.brain.value.weights
            && r.brain.value.biases == car.brain.value.biases
            && WellFormed(r.brain.value)
  {
    var nn := car.brain.value;
    ForwardProperties(m, nn, AiInputs(m, car));
    var out := ControlByAI(m, car).brain.value.outputLayer;
    assert out[2] in out;
  }

  /** A reading below `limit` at index i; reading past the end of the
      readings compares undefined, which is false. */
  predicate ReadingBelow(sensors: seq<real>, i: nat, limit: real) {
    i < |sensors| && sensors[i] < limit
  }

  /** controlCarByBot: accelerate below speed 1, never brake, steer hard left
      when ray 1 is close, else hard right when ray 3 is close, else straight. */
  function ControlByBot(car: Car): (r: Car)
    ensures r == car.(controls := r.controls)
    ensures r.controls.accelerate <==> car.vel < 1.0
    ensures !r.controls.brake
    ensures r.controls.steer == 0.0 <==> ReadingBelow(car.sensors, 1, 0.5)
    ensures r.controls.steer == 1.0 <==> !ReadingBelow(car.sensors, 1, 0.5) && ReadingBelow(car.sensors, 3, 0.5)
    ensures r.controls.steer == 0.5 || r.controls.steer == 0.0 || r.controls.steer == 1.0
  {
    var steer :=
      if ReadingBelow(car.sensors, 1, 0.5) then 0.0
      else if ReadingBelow(car.sensors, 3, 0.5) then 1.0
      else 0.5;
    car.(controls := Controls(car.vel < 1.0, false, steer))
  }

  /** The lowest index of a smallest entry: the scan keeps the first point
      strictly closer than every earlier one. */
  function ArgMin(ds: seq<real>): (k: nat)
    requires |ds| > 0
    ensures k < |ds|
    ensures forall j :: 0 <= j < |ds| ==> ds[k] <= ds[j]
    ensures forall j :: 0 <= j < k ==> ds[j] > ds[k]
  {
    if |ds| == 1 then 0
    else
      var k := ArgMin(ds[..|ds| - 1]);
      assert forall j :: 0 <= j < |ds| - 1 ==> ds[..|ds| - 1][j] == ds[j];
      if ds[|ds| - 1] < ds[k] then |ds| - 1 else k
  }

  /** The distance of every centre-line point to the car. */
  function Distances(m: MathLib, points: seq<Vec2>, pos: Vec2): (ds: seq<real>)
    ensures |ds| == |points| && forall i :: 0 <= i < |points| ==> ds[i] == Distance(m, points[i], pos)
  {
    seq(|points|, i requires 0 <= i < |points| => Distance(m, points[i], pos))
  }

  /** The progress a car's position stands for: the nearest centre-line
      point's index shifted back by one segment's samples (with the sign of
      JavaScript's remainder), plus the remaining fraction of the way to the
      next point rounded to a tenth, so within 0.05 of the exact ratio. None
      when the next point coincides with the nearest one, where the source
      divides by zero. */
  function ProgressCandidate(m: MathLib, points: seq<Vec2>, pos: Vec2): (p: Option<real>)
    requires |points| > 0
    ensures var k := ArgMin(Distances(m, points, pos));
            var next := points[NextIndex(k, |points|)];
            && (p.None? <==> Distance(m, next, points[k]) == 0.0)
            && (p.Some? ==>
                  var ratio := Distance(m, next, pos) / Distance(m, next, points[k]);
                  var base := JsRem(k - RaceTrackSegments + |points|, |points|);
                  && base as real + ratio - 0.05 < p.value <= base as real + ratio + 0.05
                  && (|points| >= RaceTrackSegments ==> 0 <= base < |points|)
                  && (|points| >= RaceTrackSegments && ratio >= 0.0 ==> p.value >= 0.0))
  {
    var idx := ArgMin(Distances(m, points, pos));
    var next := points[NextIndex(idx, |points|)];
    var pointToNext := Distance(m, next, points[idx]);
    var toNext := Distance(m, next, pos);
    if pointToNext == 0.0 then None
    else
      var fraction := Round(toNext / pointToNext * 10.0) as real / 10.0;
      Some(JsRem(idx - RaceTrackSegments + |points|, |points|) as real + fraction)
  }

  /** The lap bookkeeping. A large backward jump (more than all but 10
      points) completes exactly one lap and is accepted; a smaller backward
      move or a forward jump of more than 10 is ignored; anything else is
      accepted. Only laps, progress, the finishing time and the crash flag
      change, and the finishing time is set, with the crash flag, exactly when
      the third lap completes. Completing the third lap with no generation
      record to time it against is the TypeError the source throws. */
  function AdvanceProgress(car: Car, candidate: real, len: nat, lastTick: Option<int>, totalTicks: int)
    : (res: Result<Car>)
    ensures var wraps := candidate < car.progress && car.progress - candidate > len as real - 10.0;
            && (res.Err? <==> wraps && car.lap == 2 && lastTick.None?)
            && (res.Ok? ==>
                  var r := res.value;
                  && r == car.(lap := r.lap, progress := r.progress, completedTime := r.completedTime, crashed := r.crashed)
                  && (r.lap == car.lap + 1 <==> wraps) && (!wraps <==> r.lap == car.lap)
                  && (r.progress == candidate <==> wraps || car.progress <= candidate <= car.progress + 10.0)
                  && (r.progress != candidate ==> r.progress == car.progress)
                  && (r.completedTime != car.completedTime || r.crashed != car.crashed ==>
                        && r.lap == 3 && r.crashed && lastTick.Some?
                        && r.completedTime == Some(totalTicks - lastTick.value))
                  && (wraps && car.lap == 2 ==> r.crashed && r.completedTime.Some?))
  {
    if candidate < car.progress then
      if car.progress - candidate > len as real - 10.0 then
        var lap := car.lap + 1;
        if lap == 3 then
          if lastTick.None? then Err("no generation record to time the finish against")
          else Ok(car.(lap := lap, completedTime := Some(totalTicks - lastTick.value), crashed := true, progress := candidate))
        else Ok(car.(lap := lap, progress := candidate))
      else Ok(car)
    else if candidate - car.progress > 10.0 then Ok(car)
    else Ok(car.(progress := candidate))
  }

  /** carCalculateProgress. An empty centre line is an error: the source then
      reads a point at index NaN. */
  function CalculateProgress(m: MathLib, car: Car, points: seq<Vec2>, lastTick: Option<int>, totalTicks: int)
    : (r: Result<Car>)
    ensures |points| == 0 ==> r.Err?
    ensures |points| > 0 && ProgressCandidate(m, points, car.pos).None? ==> r == Ok(car)
    ensures |points| > 0 && ProgressCandidate(m, points, car.pos).Some? ==>
              r == AdvanceProgress(car, ProgressCandidate(m, points, car.pos).value, |points|, lastTick, totalTicks)
  {
    if |points| == 0 then Err("empty centre line")
    else
      match ProgressCandidate(m, points, car.pos)
      case None => Ok(car)
      case Some(candidate) => AdvanceProgress(car, candidate, |points|, lastTick, totalTicks)
  }

  /** The sensor rays in world coordinates: from the car's position to each
      configured offset rotated by the heading. */
  function Rays(m: MathLib, car: Car): (rays: seq<Edge>)
    ensures |rays| == |car.sensorConfig|
    ensures forall i :: 0 <= i < |rays| ==>
              rays[i] == Edge(car.pos, Add(Rotate(m, car.sensorConfig[i], car.dir), car.pos))
  {
    seq(|car.sensorConfig|, i requires 0 <= i < |car.sensorConfig| =>
      Edge(car.pos, Add(Rotate(m, car.sensorConfig[i], car.dir), car.pos)))
  }

  /** A ray some edge crosses has distinct ends, so its length is positive. */
  lemma CrossedRayHasLength(m: MathLib, line: Edge, ray: Edge)
    requires LengthPositive(m) && LineIntersects(line.a, line.b, ray.a, ray.b).Some?
    ensures Distance(m, ray.a, ray.b) > 0.0
  {
    assert Subtract(ray.a, ray.b) != Vec2(0.0, 0.0);
  }

  lemma DivideThenMultiply(a: real, d: real)
    requires d != 0.0
    ensures (a / d) * d == a
  {
  }

  /** Where an edge crosses a ray: the distance from the car to the crossing
      as a fraction of the ray's length. */
  function HitRatio(m: MathLib, line: Edge, ray: Edge, pos: Vec2): (h: Option<real>)
    requires LengthPositive(m)
    ensures h.None? <==> LineIntersects(line.a, line.b, ray.a, ray.b).None?
    ensures h.Some? ==> && Distance(m, ray.a, ray.b) > 0.0
                        && h.value * Distance(m, ray.a, ray.b)
                           == Distance(m, LineIntersects(line.a, line.b, ray.a, ray.b).value, pos)
  {
    match LineIntersects(line.a, line.b, ray.a, ray.b)
    case None => None
    case Some(p) =>
      CrossedRayHasLength(m, line, ray);
      var along, length := Distance(m, p, pos), Distance(m, ray.a, ray.b);
      DivideThenMultiply(along, length);
      Some(along / length)
  }

  /** The reading of one ray after the first n nearby edges: a crossing
      replaces it unless a reading was already taken and the new ratio is
      larger. */
  function ReadingAfter(m: MathLib, lines: seq<Edge>, ray: Edge, pos: Vec2, n: nat): (rd: Option<real>)
    requires LengthPositive(m) && n <= |lines|
    ensures n == 0 ==> rd.None?
    ensures n > 0 && HitRatio(m, lines[n - 1], ray, pos).Some? ==>
              rd.Some? && rd.value <= HitRatio(m, lines[n - 1], ray, pos).value
  {
    if n == 0 then None
    else Keep(ReadingAfter(m, lines, ray, pos, n - 1), HitRatio(m, lines[n - 1], ray, pos))
  }

  /** One step of the reading: a crossing replaces the reading so far unless
      that exists and is smaller. */
  function Keep(prev: Option<real>, hit: Option<real>): (r: Option<real>)
    ensures r.None? <==> prev.None? && hit.None?
    ensures r == prev || r == hit
    ensures r.Some? && prev.Some? ==> r.value <= prev.value
    ensures r.Some? && hit.Some? ==> r.value <= hit.value
  {
    match hit
    case None => prev
    case Some(d) => if prev.Some? && d > prev.value then prev else Some(d)
  }

  /** A reading held as the source holds it: a value and an updated flag. */
  function Held(updated: bool, value: real): Option<real> {
    if updated then Some(value) else None
  }

  /** The reading is the smallest ratio over the crossing edges, and there is
      one exactly when some edge crosses the ray. */
  lemma {:induction false} ReadingIsMinimum(m: MathLib, lines: seq<Edge>, ray: Edge, pos: Vec2, n: nat)
    requires LengthPositive(m) && n <= |lines|
    ensures var rd := ReadingAfter(m, lines, ray, pos, n);
            && (rd.None? <==> forall j :: 0 <= j < n ==> HitRatio(m, lines[j], ray, pos).None?)
            && (rd.Some? ==> exists j :: 0 <= j < n && HitRatio(m, lines[j], ray, pos) == rd)
            && (rd.Some? ==> forall j :: 0 <= j < n && HitRatio(m, lines[j], ray, pos).Some? ==>
                  rd.value <= HitRatio(m, lines[j], ray, pos).value)
  {
    if n > 0 {
      ReadingIsMinimum(m, lines, ray, pos, n - 1);
      var prev := ReadingAfter(m, lines, ray, pos, n - 1);
      var rd := ReadingAfter(m, lines, ray, pos, n);
      var h := HitRatio(m, lines[n - 1], ray, pos);
      assert rd == Keep(prev, h);
      forall j | 0 <= j < n && HitRatio(m, lines[j], ray, pos).Some?
        ensures rd.Some? && rd.value <= HitRatio(m, lines[j], ray, pos).value
      {
        if j < n - 1 {
          assert prev.Some? && prev.value <= HitRatio(m, lines[j], ray, pos).value;
        }
      }
      if rd.Some? {
        if rd == prev {
          var j :| 0 <= j < n - 1 && HitRatio(m, lines[j], ray, pos) == prev;
          assert 0 <= j < n && HitRatio(m, lines[j], ray, pos) == rd;
        } else {
          assert HitRatio(m, lines[n - 1], ray, pos) == rd;
        }
      }
    }
  }

  /** A ray's reading: the smallest crossing ratio, or 1 when nothing crosses. */
  function Reading(m: MathLib, lines: seq<Edge>, ray: Edge, pos: Vec2): (v: real)
    requires LengthPositive(m)
    ensures (forall j :: 0 <= j < |lines| ==> HitRatio(m, lines[j], ray, pos).None?) ==> v == 1.0
    ensures (exists j :: 0 <= j < |lines| && HitRatio(m, lines[j], ray, pos).Some?) ==>
              && (exists j :: 0 <= j < |lines| && HitRatio(m, lines[j], ray, pos) == Some(v))
              && (forall j :: 0 <= j < |lines| && HitRatio(m, lines[j], ray, pos).Some? ==>
                    v <= HitRatio(m, lines[j], ray, pos).value)
  {
    ReadingIsMinimum(m, lines, ray, pos, |lines|);
    match ReadingAfter(m, lines, ray, pos, |lines|)
    case None => 1.0
    case Some(d) => d
  }

  /** The readings after carSensorDetection: every index below the number of
      rays is written, any later entries are kept. */
  function SensorReadings(m: MathLib, car: Car, lines: seq<Edge>): (s: seq<real>)
    requires LengthPositive(m)
    ensures |s| == MaxInt(|car.sensors|, |car.sensorConfig|)
    ensures forall i :: 0 <= i < |car.sensorConfig| ==> s[i] == Reading(m, lines, Rays(m, car)[i], car.pos)
    ensures forall i :: |car.sensorConfig| <= i < |s| ==> s[i] == car.sensors[i]
  {
    var rays := Rays(m, car);
    seq(MaxInt(|car.sensors|, |car.sensorConfig|), i requires 0 <= i < MaxInt(|car.sensors|, |car.sensorConfig|) =>
      if i < |rays| then Reading(m, lines, rays[i], car.pos) else car.sensors[i])
  }

  /** The readings padded with zeros to n entries; the padding is always
      overwritten before it is read. */
  function Pad(s: seq<real>, n: nat): (p: seq<real>)
    ensures |p| == MaxInt(|s|, n) && p[..|s|] == s
  {
    if |s| >= n then s else s + seq(n - |s|, _ => 0.0)
  }

  /** One pass of the inner loop: the crossings of one edge against every ray. */
  method ApplyHits(hits: seq<Option<real>>, sensors0: seq<real>, updated0: seq<bool>)
    returns (sensors: seq<real>, updated: seq<bool>)
    requires |updated0| == |hits| <= |sensors0|
    ensures |sensors| == |sensors0| && |updated| == |hits|
    ensures forall i :: 0 <= i < |hits| ==> Held(updated[i], sensors[i]) == Keep(Held(updated0[i], sensors0[i]), hits[i])
    ensures forall i :: |hits| <= i < |sensors| ==> sensors[i] == sensors0[i]
  {
    sensors, updated := sensors0, updated0;
    var si := 0;
    while si < |hits|
      invariant 0 <= si <= |hits|
      invariant |sensors| == |sensors0| && |updated| == |hits|
      invariant forall i :: 0 <= i < si ==> Held(updated[i], sensors[i]) == Keep(Held(updated0[i], sensors0[i]), hits[i])
      invariant forall i :: si <= i < |sensors| ==> sensors[i] == sensors0[i]
      invariant forall i :: si <= i < |hits| ==> updated[i] == updated0[i]
    {
      if hits[si].Some? {
        var distance := hits[si].value;
        if !(updated[si] && distance > sensors[si]) {
          sensors := sensors[si := distance];
          updated := updated[si := true];
        }
      }
      si := si + 1;
    }
  }

  /** The outer loop of carSensorDetection: every edge against every ray,
      keeping the nearest crossing of each ray. */
  method SweepEdges(m: MathLib, lines: seq<Edge>, rays: seq<Edge>, pos: Vec2, sensors0: seq<real>)
    returns (sensors: seq<real>, updated: seq<bool>)
    requires LengthPositive(m) && |rays| <= |sensors0|
    ensures |sensors| == |sensors0| && |updated| == |rays|
    ensures forall i :: 0 <= i < |rays| ==> Held(updated[i], sensors[i]) == ReadingAfter(m, lines, rays[i], pos, |lines|)
    ensures forall i :: |rays| <= i < |sensors| ==> sensors[i] == sensors0[i]
  {
    sensors := sensors0;
    updated := seq(|rays|, _ => false);
    var li := 0;
    while li < |lines|
      invariant 0 <= li <= |lines|
      invariant |sensors| == |sensors0| && |updated| == |rays|
      invariant forall i :: 0 <= i < |rays| ==> Held(updated[i], sensors[i]) == ReadingAfter(m, lines, rays[i], pos, li)
      invariant forall i :: |rays| <= i < |sensors| ==> sensors[i] == sensors0[i]
    {
      var hits := seq(|rays|, i requires 0 <= i < |rays| => HitRatio(m, lines[li], rays[i], pos));
      sensors, updated := ApplyHits(hits, sensors, updated);
      li := li + 1;
    }
  }

  /** The final loop of carSensorDetection: 1 for every ray nothing crossed. */
  method FillMissing(m: MathLib, lines: seq<Edge>, rays: seq<Edge>, pos: Vec2, sensors0: seq<real>, updated: seq<bool>)
    returns (sensors: seq<real>)
    requires LengthPositive(m) && |updated| == |rays| <= |sensors0|
    requires forall k :: 0 <= k < |rays| ==> Held(updated[k], sensors0[k]) == ReadingAfter(m, lines, rays[k], pos, |lines|)
    ensures |sensors| == |sensors0|
    ensures forall k :: 0 <= k < |rays| ==> sensors[k] == Reading(m, lines, rays[k], pos)
    ensures forall k :: |rays| <= k < |sensors| ==> sensors[k] == sensors0[k]
  {
    sensors := sensors0;
    var i := 0;
    while i < |rays|
      invariant 0 <= i <= |rays| && |sensors| == |sensors0|
      invariant forall k :: 0 <= k < i ==> sensors[k] == Reading(m, lines, rays[k], pos)
      invariant forall k :: i <= k < |sensors| ==> sensors[k] == sensors0[k]
    {
      if !updated[i] {
        sensors := sensors[i := 1.0];
      }
      i := i + 1;
    }
  }

  /** carSensorDetection over the given nearby edges: every edge against every
      ray, then 1 for each ray nothing crossed. */
  method SensorDetection(m: MathLib, car: Car, lines: seq<Edge>) returns (sensors: seq<real>)
    requires LengthPositive(m)
    ensures sensors == SensorReadings(m, car, lines)
  {
    var rays := Rays(m, car);
    var padded := Pad(car.sensors, |rays|);
    var swept, updated := SweepEdges(m, lines, rays, car.pos, padded);
    sensors := FillMissing(m, lines, rays, car.pos, swept, updated);
    assert forall k :: |rays| <= k < |sensors| ==> sensors[k] == car.sensors[k];
    assert forall k :: 0 <= k < |sensors| ==> sensors[k] == SensorReadings(m, car, lines)[k];
  }

  /** The four corners of a car, the offsets (2, 1), (-2, 1), (2, -1) and
      (-2, -1) rotated by the heading. */
  function Corner(m: MathLib, pos: Vec2, dir: real, dx: real, dy: real): Vec2 {
    Add(pos, Rotate(m, Vec2(dx, dy), dir))
  }

  /** The segments tested for a crash: corner 1 to 2, 2 to 3, 3 to 4 and 4 to 1. */
  function CarLines(m: MathLib, pos: Vec2, dir: real): (ls: seq<Edge>)
    ensures |ls| == 4
  {
    var c1 := Corner(m, pos, dir, 2.0, 1.0);
    var c2 := Corner(m, pos, dir, -2.0, 1.0);
    var c3 := Corner(m, pos, dir, 2.0, -1.0);
    var c4 := Corner(m, pos, dir, -2.0, -1.0);
    [Edge(c1, c2), Edge(c2, c3), Edge(c3, c4), Edge(c4, c1)]
  }

  /** With this corner order the tested segments are the side at y = 1, the
      side at y = -1 (a translate of it) and the two diagonals, both through
      the car's centre: the ends at x = 2 and x = -2 are never tested. */
  lemma CarLinesShape(m: MathLib, pos: Vec2, dir: real)
    ensures var ls := CarLines(m, pos, dir);
            && Subtract(ls[2].b, ls[2].a) == Subtract(ls[0].b, ls[0].a)
            && Midpoint(ls[1].a, ls[1].b) == pos
            && Midpoint(ls[3].a, ls[3].b) == pos
  {
    var r21, r12 := Rotate(m, Vec2(2.0, 1.0), dir), Rotate(m, Vec2(-2.0, 1.0), dir);
    RotateNegate(m, Vec2(2.0, 1.0), dir);
    RotateNegate(m, Vec2(-2.0, 1.0), dir);
    assert Rotate(m, Vec2(-2.0, -1.0), dir) == Negate(r21);
    assert Rotate(m, Vec2(2.0, -1.0), dir) == Negate(r12);
  }

  /** Some nearby edge crosses some segment of the car. */
  predicate Collides(lines: seq<Edge>, carLines: seq<Edge>) {
    exists i, k :: 0 <= i < |lines| && 0 <= k < |carLines| && Crosses(lines[i].a, lines[i].b, carLines[k].a, carLines[k].b)
  }

  /** A crashed car: stopped, not steering. */
  function Crash(car: Car): (r: Car)
    ensures r.crashed && r.vel == 0.0 && r.steer == 0.0
    ensures r == car.(vel := r.vel, steer := r.steer, crashed := r.crashed)
  {
    car.(vel := 0.0, steer := 0.0, crashed := true)
  }

  /** The effect of carCollisionDetection against the given nearby edges. */
  function CollisionOutcome(m: MathLib, car: Car, lines: seq<Edge>): (r: Car)
    ensures Collides(lines, CarLines(m, car.pos, car.dir)) ==> r == Crash(car)
    ensures !Collides(lines, CarLines(m, car.pos, car.dir)) ==> r == car
  {
    if Collides(lines, CarLines(m, car.pos, car.dir)) then Crash(car) else car
  }

  /** carCollisionDetection: every nearby edge against the car's four
      segments, stopping at the first crossing. */
  method CollisionDetection(m: MathLib, car: Car, lines: seq<Edge>) returns (r: Car)
    ensures r == CollisionOutcome(m, car, lines)
  {
    var carLines := CarLines(m, car.pos, car.dir);
    var li := 0;
    while li < |lines|
      invariant 0 <= li <= |lines|
      invariant forall i, k :: 0 <= i < li && 0 <= k < 4 ==>
                  !Crosses(lines[i].a, lines[i].b, carLines[k].a, carLines[k].b)
    {
      var k := 0;
      while k < 4
        invariant 0 <= k <= 4
        invariant forall j :: 0 <= j < k ==> !Crosses(lines[li].a, lines[li].b, carLines[j].a, carLines[j].b)
      {
        if LineIntersects(lines[li].a, lines[li].b, carLines[k].a, carLines[k].b).Some? {
          return Crash(car);
        }
        k := k + 1;
      }
      li := li + 1;
    }
    return car;
  }

  /** What the tick does about the current generation. */
  datatype Decision = Continue | ExtendDuration | NextGeneration

  /** The generation check at the end of a tick: it is due once the generation
      has run longer than its duration, or more than 100 ticks with the cars'
      total speed below 1; a due generation whose progress grew by more than
      0.5 or whose cars still move faster than 4 in total gets 10 more ticks,
      otherwise the next generation starts. */
  function GenerationDecision(ticksSince: int, duration: int, totalMovement: real, progressGain: real)
    : (d: Decision)
    ensures d != Continue <==> ticksSince > duration || (ticksSince > 100 && totalMovement < 1.0)
    ensures d == NextGeneration ==> progressGain <= 0.5 && totalMovement <= 4.0
    ensures d == ExtendDuration ==> progressGain > 0.5 || totalMovement > 4.0
  {
    if ticksSince > duration || (ticksSince > 100 && totalMovement < 1.0) then
      if progressGain > 0.5 || totalMovement > 4.0 then ExtendDuration else NextGeneration
    else Continue
  }

  /** A generation within its duration whose cars still move is never cut
      short, and one that stalls cannot be extended: with total speed below 1
      it ends once it has no progress gain above 0.5 and has run over 100 ticks. */
  lemma DecisionCases(ticksSince: int, duration: int, totalMovement: real, progressGain: real)
    ensures ticksSince <= duration && totalMovement >= 1.0 ==>
              GenerationDecision(ticksSince, duration, totalMovement, progressGain) == Continue
    ensures ticksSince > 100 && totalMovement < 1.0 && progressGain <= 0.5 ==>
              GenerationDecision(ticksSince, duration, totalMovement, progressGain) == NextGeneration
    ensures ticksSince <= 100 && ticksSince <= duration ==>
              GenerationDecision(ticksSince, duration, totalMovement, progressGain) == Continue
  {
  }
}

=== FILE: simulation.dfy ===
/** The simulation tick: every car that has not crashed is driven (by the bot
    rule or by its network), accelerated and steered, given fresh sensor
    readings, tested for a collision, credited with progress and moved; then
    the running generation is checked for its end. */
module Simulation {
  import opened Base
  import opened Vectors
  import opened Config
  import opened Boundary
  import opened NeuralNet
  import opened Entities
  import opened Physics
  import opened Evolution

  /** Sensor rays look for border edges starting within this distance. */
  const SensorRange: real := 50.0

  /** Collisions are tested against border edges starting within this distance. */
  const CollisionRange: real := 8.0

  /** A car the tick may drive: the brain of an AI car that is still running,
      if it has one, has room for its sensor readings, both the current ones
      and those of every configured ray. */
  predicate StepReady(car: Car) {
    car.control == AI && !car.crashed && car.brain.Some? ==>
      && AiReady(car)
      && |car.sensorConfig| + 2 <= |car.brain.value.inputLayer|
  }

  /** The tick of the newest generation record, if there is one. */
  function LastRecordTick(info: seq<GenerationInfo>): (t: Option<int>)
    ensures t.None? <==> |info| == 0
    ensures t.Some? ==> t.value == info[|info| - 1].tick
  {
    if |info| == 0 then None else Some(info[|info| - 1].tick)
  }

  /** The driver's decision: the bot rule, the network, or (for the human
      player and driverless cars) the controls as they are. An AI car
      without a brain is the source's TypeError in feedForward. */
  function Drive(m: MathLib, car: Car): (r: Result<Car>)
    requires ExpPositive(m) && StepReady(car) && !car.crashed
    ensures r.Err? <==> car.control == AI && car.brain.None?
    ensures r.Ok? ==> r.value == car.(controls := r.value.controls, brain := r.value.brain)
    ensures r.Ok? && car.control != AI ==> r.value.brain == car.brain
    ensures r.Ok? && (car.control == Human || car.control == NoDriver) ==> r.value == car
    ensures car.control == Bot ==> r == Ok(ControlByBot(car))
    ensures car.control == AI && car.brain.Some? ==> r == Ok(ControlByAI(m, car))
    ensures r.Ok? && car.control == AI ==>
              && r.value.brain.Some?
              && r.value.brain.value.weights == car.brain.value.weights
              && r.value.brain.value.biases == car.brain.value.biases
  {
    match car.control
    case Bot => Ok(ControlByBot(car))
    case AI => if car.brain.None? then Err("AI car without a brain") else Ok(ControlByAI(m, car))
    case _ => Ok(car)
  }

  /** The update of one running car within a tick, in the source's order:
      driver, pedals and steering with delta / 20, sensors against the edges
      within 50, collision against the edges within 8, progress, then
      movement with friction and turning. A crash found here still lets the
      car finish this tick's progress and movement (at zero speed). */
  function CarStep(m: MathLib, car: Car, track: RaceTrack, delta: real, lastTick: Option<int>, ticks: int)
    : (r: Result<Stepped>)
    requires ExpPositive(m) && LengthPositive(m) && StepReady(car) && !car.crashed
    ensures car.control == AI && car.brain.None? ==> r.Err?
    ensures r.Ok? ==> r.value.car.control == car.control && r.value.car.color == car.color
  {
    match Drive(m, car)
    case Err(e) => Err(e)
    case Ok(driven) =>
      var steered := CarControls(driven, delta / 20.0);
      var sensed := steered.(sensors := SensorReadings(m, steered,
        FindNearestBorderLines(m, track.innerPoints, track.outerPoints, steered.pos, SensorRange)));
      var checked := CollisionOutcome(m, sensed,
        FindNearestBorderLines(m, track.innerPoints, track.outerPoints, sensed.pos, CollisionRange));
      match CalculateProgress(m, checked, track.curvePointsVecs, lastTick, ticks)
      case Err(e) => Err(e)
      case Ok(progressed) => Ok(Stepped(Move(m, progressed, delta), progressed.vel))
  }

  /** A stepped car and the speed it contributes to the tick's movement
      total: its speed after the progress update, before friction. */
  datatype Stepped = Stepped(car: Car, speed: real)

  /** A step keeps what the tick does not touch: the driver kind, the colour,
      the sensor layout, the brain's weights and biases; and it keeps the car
      ready for the next step. */
  lemma CarStepKeeps(m: MathLib, car: Car, track: RaceTrack, delta: real, lastTick: Option<int>, ticks: int)
    requires ExpPositive(m) && LengthPositive(m) && StepReady(car) && !car.crashed
    requires CarStep(m, car, track, delta, lastTick, ticks).Ok?
    ensures car.control == AI ==> car.brain.Some?
    ensures var r := CarStep(m, car, track, delta, lastTick, ticks).value.car;
            && r.control == car.control && r.color == car.color && r.sensorConfig == car.sensorConfig
            && r.brain.Some? == car.brain.Some?
            && (r.brain.Some? ==>
                  && r.brain.value.weights == car.brain.value.weights && r.brain.value.biases == car.brain.value.biases
                  && Fits(r.brain.value, Layers(car.brain.value)))
            && |r.sensors| == MaxInt(|car.sensors|, |car.sensorConfig|)
            && StepReady(r)
  {
    assert Drive(m, car).Ok?;
    var driven := Drive(m, car).value;
    if car.control == AI {
      var nn := car.brain.value;
      ForwardProperties(m, nn, AiInputs(m, car));
      assert driven.brain.value == Forward(m, nn, AiInputs(m, car));
      assert Layers(driven.brain.value) == Layers(Forward(m, nn, AiInputs(m, car)));
      SameSizesKeepReady(nn, driven.brain.value);
    } else if car.brain.Some? {
      assert driven.brain == car.brain;
      assert Fits(car.brain.value, Layers(car.brain.value));
    }
    assert driven.control == car.control && driven.color == car.color && driven.sensorConfig == car.sensorConfig;
    assert driven.sensors == car.sensors;
    var steered := CarControls(driven, delta / 20.0);
    var sensed := steered.(sensors := SensorReadings(m, steered,
      FindNearestBorderLines(m, track.innerPoints, track.outerPoints, steered.pos, SensorRange)));
    assert Kept(driven, sensed) && |sensed.sensors| == MaxInt(|car.sensors|, |car.sensorConfig|);
    var checked := CollisionOutcome(m, sensed,
      FindNearestBorderLines(m, track.innerPoints, track.outerPoints, sensed.pos, CollisionRange));
    assert Kept(driven, checked) && checked.sensors == sensed.sensors;
    var progressed := CalculateProgress(m, checked, track.curvePointsVecs, lastTick, ticks).value;
    assert Kept(driven, progressed) && progressed.sensors == sensed.sensors;
    assert CarStep(m, car, track, delta, lastTick, ticks).value.car == Move(m, progressed, delta);
  }

  /** The parts of a car the stages after the driver leave alone. */
  predicate Kept(car: Car, r: Car) {
    r.control == car.control && r.color == car.color && r.sensorConfig == car.sensorConfig && r.brain == car.brain
  }

  /** Layer sizes carry over between networks that fit each other's layers. */
  lemma FitsKeepsSizes(nn: Network, r: Network, sizes: seq<nat>)
    requires HasSizes(nn, sizes) && Fits(r, Layers(nn))
    ensures HasSizes(r, sizes)
  {
  }

  /** Networks whose layers have the same sizes are equally feedable. */
  lemma SameSizesKeepReady(nn: Network, r: Network)
    requires WellFormed(nn) && NonIncreasing(nn) && Fits(r, Layers(nn))
    ensures NonIncreasing(r)
    ensures |r.inputLayer| == |nn.inputLayer| && |r.outputLayer| == |nn.outputLayer|
  {
    assert Layers(r)[0] == r.inputLayer && Layers(nn)[0] == nn.inputLayer;
    assert Layers(r)[|Layers(r)| - 1] == r.outputLayer && Layers(nn)[|Layers(nn)| - 1] == nn.outputLayer;
  }

  /** The result of driving the first n cars: the cars, the summed speed of
      the cars that ran and the summed progress of all cars taken before
      their update. */
  datatype Totals = Totals(cars: seq<Car>, movement: real, progress: real)

  function Abs(x: real): (a: real)
    ensures a >= 0.0 && (a == x || a == -x)
  {
    if x < 0.0 then -x else x
  }

  /** The summed progress of the first n cars. */
  function ProgressSum(cars: seq<Car>, n: nat): real
    requires n <= |cars|
  {
    if n == 0 then 0.0 else ProgressSum(cars, n - 1) + cars[n - 1].progress
  }

  /** Every car's own step: the cars do not see each other, so the loop of
      tick is the combination of these. A crashed car stays as it is and
      contributes no movement. */
  function StepResults(m: MathLib, cars: seq<Car>, track: RaceTrack, delta: real, lastTick: Option<int>, ticks: int)
    : (rs: seq<Result<Stepped>>)
    requires ExpPositive(m) && LengthPositive(m)
    requires forall i :: 0 <= i < |cars| ==> StepReady(cars[i])
    ensures |rs| == |cars|
    ensures forall i :: 0 <= i < |cars| && cars[i].crashed ==> rs[i] == Ok(Stepped(cars[i], 0.0))
    ensures forall i :: 0 <= i < |cars| && !cars[i].crashed ==> rs[i] == CarStep(m, cars[i], track, delta, lastTick, ticks)
  {
    seq(|cars|, i requires 0 <= i < |cars| =>
      if cars[i].crashed then Ok(Stepped(cars[i], 0.0)) else CarStep(m, cars[i], track, delta, lastTick, ticks))
  }

  /** The car loop of tick over the first n cars, given each car's step:
      the first failing step fails the loop; otherwise the stepped cars, the
      summed speeds and the summed progress of the cars before the update. */
  function Gather(cars: seq<Car>, rs: seq<Result<Stepped>>, n: nat): (r: Result<Totals>)
    requires n <= |cars| == |rs|
  {
    if n == 0 then Ok(Totals([], 0.0, 0.0))
    else
      match Gather(cars, rs, n - 1)
      case Err(e) => Err(e)
      case Ok(t) =>
        match rs[n - 1]
        case Err(e) => Err(e)
        case Ok(st) => Ok(Totals(t.cars + [st.car], t.movement + Abs(st.speed), t.progress + cars[n - 1].progress))
  }

  /** The loop fails exactly when some step fails; otherwise it holds every
      stepped car in order, the progress of all cars before the update and a
      non-negative movement. */
  lemma {:induction false} GatherProperties(cars: seq<Car>, rs: seq<Result<Stepped>>, n: nat)
    requires n <= |cars| == |rs|
    ensures var r := Gather(cars, rs, n);
            && (r.Err? <==> exists i :: 0 <= i < n && rs[i].Err?)
            && (r.Ok? ==>
                  && |r.value.cars| == n
                  && r.value.progress == ProgressSum(cars, n)
                  && r.value.movement >= 0.0
                  && forall i :: 0 <= i < n ==> r.value.cars[i] == rs[i].value.car)
  {
    if n > 0 {
      GatherProperties(cars, rs, n - 1);
      var prev := Gather(cars, rs, n - 1);
      if prev.Ok? && rs[n - 1].Ok? {
        var r := Gather(cars, rs, n);
        forall i | 0 <= i < n ensures r.value.cars[i] == rs[i].value.car {
          if i < n - 1 {
            assert r.value.cars[i] == prev.value.cars[i];
          }
        }
      }
    }
  }

  /** Stepping keeps every car's driver kind, its sensor layout and its
      brain's weights and biases, so AI cars keep their genomes, and keeps
      every car drivable. */
  lemma StepsKeepReady(m: MathLib, cars: seq<Car>, track: RaceTrack, delta: real, lastTick: Option<int>, ticks: int,
                       hidden: nat)
    requires ExpPositive(m) && LengthPositive(m)
    requires forall i :: 0 <= i < |cars| ==> StepReady(cars[i])
    requires AiBrainsSound(cars, hidden)
    requires Gather(cars, StepResults(m, cars, track, delta, lastTick, ticks), |cars|).Ok?
    ensures var out := Gather(cars, StepResults(m, cars, track, delta, lastTick, ticks), |cars|).value.cars;
            && |out| == |cars|
            && (forall i :: 0 <= i < |cars| ==> out[i].control == cars[i].control && StepReady(out[i]))
            && (forall i :: 0 <= i < |cars| && cars[i].crashed ==> out[i] == cars[i])
            && (forall i :: 0 <= i < |cars| ==> |out[i].sensors| <= MaxInt(|cars[i].sensors|, |cars[i].sensorConfig|))
            && (forall i :: 0 <= i < |cars| ==> out[i].sensorConfig == cars[i].sensorConfig)
            && AiGenomesReady(out, hidden)
  {
    var rs := StepResults(m, cars, track, delta, lastTick, ticks);
    GatherProperties(cars, rs, |cars|);
    var out := Gather(cars, rs, |cars|).value.cars;
    assert forall i :: 0 <= i < |cars| ==> rs[i].Ok?;
    forall i | 0 <= i < |cars|
      ensures && out[i].control == cars[i].control && StepReady(out[i])
              && out[i].sensorConfig == cars[i].sensorConfig
              && |out[i].sensors| <= MaxInt(|cars[i].sensors|, |cars[i].sensorConfig|)
              && (cars[i].control == AI ==> out[i].brain.Some? && CarBrain(out[i].brain.value, hidden))
    {
      if !cars[i].crashed {
        CarStepKeeps(m, cars[i], track, delta, lastTick, ticks);
        if cars[i].control == AI {
          FitsKeepsSizes(cars[i].brain.value, out[i].brain.value, CarSizes(hidden));
        }
      }
    }
  }

  /** What a tick needs: a generated track to reset cars to, car-shaped
      brains (where an AI car has one) with a hidden layer of 3 to InputCount
      nodes (so that feed-forward stays within the biases), a brain on every
      crashed AI car, and no more sensor readings than the default number of
      rays. */
  predicate TickReady(w: World) {
    && |w.track.points| > 0
    && AiBrainsSound(w.cars, w.settings.hiddenLayerNodes)
    && 3 <= w.settings.hiddenLayerNodes <= InputCount
    && forall i :: 0 <= i < |w.cars| && w.cars[i].control == AI ==> |w.cars[i].sensors| <= |DefaultCarSensors|
  }

  /** In a ready world every car can be stepped. */
  lemma ReadyCarsStep(w: World)
    requires TickReady(w)
    ensures forall i :: 0 <= i < |w.cars| ==> StepReady(w.cars[i])
  {
    forall i | 0 <= i < |w.cars| && w.cars[i].control == AI && w.cars[i].brain.Some? ensures StepReady(w.cars[i]) {
      CarBrainFeedable(w.cars[i].brain.value, w.settings.hiddenLayerNodes);
    }
  }

  /** The car loop of a tick with the elapsed milliseconds, the tick counter
      already advanced: the stepped cars, which are as many as before and
      keep their genomes, the summed movement and the summed progress of the
      cars before their update. */
  function StepCars(m: MathLib, w: World, elapsed: real): (res: Result<Totals>)
    requires ExpPositive(m) && LengthPositive(m) && TickReady(w)
    ensures res.Ok? ==>
              && |res.value.cars| == |w.cars|
              && res.value.progress == ProgressSum(w.cars, |w.cars|)
              && res.value.movement >= 0.0
              && (forall i :: 0 <= i < |w.cars| ==> res.value.cars[i].control == w.cars[i].control)
              && AiGenomesReady(res.value.cars, w.settings.hiddenLayerNodes)
              && (forall i :: 0 <= i < |w.cars| && w.cars[i].control == AI ==>
                    |res.value.cars[i].sensors| <= |DefaultCarSensors|)
  {
    ReadyCarsStep(w);
    var ticks := w.totalTicks + 1;
    var delta := TickDelta(w.cars, elapsed);
    var rs := StepResults(m, w.cars, w.track, delta, LastRecordTick(w.generationsInfo), ticks);
    GatherProperties(w.cars, rs, |w.cars|);
    var res := Gather(w.cars, rs, |w.cars|);
    if res.Ok? then
      StepsKeepReady(m, w.cars, w.track, delta, LastRecordTick(w.generationsInfo), ticks, w.settings.hiddenLayerNodes);
      res
    else res
  }

  /** tick with the elapsed milliseconds since the last one. A paused tick
      changes nothing the model keeps. Otherwise the tick counter goes up,
      every car is driven, and if a generation is running and due it is
      either given 10 more ticks or replaced by the next generation; finally
      the summed progress is kept for the next tick's comparison. A failing
      car step, a running generation without a record, and a new generation
      without AI cars are the source's TypeErrors. */
  function Tick(m: MathLib, w: World, elapsed: real, paused: bool, r: Rng, gauss: Rng): (res: Result<World>)
    requires ExpPositive(m) && LengthPositive(m) && Unit(r) && TickReady(w)
    ensures !paused && res.Ok? ==>
              && StepCars(m, w, elapsed).Ok?
              && var t := StepCars(m, w, elapsed).value;
                 var stepped := w.(cars := t.cars, totalTicks := w.totalTicks + 1);
                 && NewGenerationReady(stepped)
                 && EndOfTick(stepped, t, w.previousProgress, r, gauss).Ok?
                 && res.value == EndOfTick(stepped, t, w.previousProgress, r, gauss).value.(previousProgress := t.progress)
  {
    if paused then Ok(w)
    else
      match StepCars(m, w, elapsed)
      case Err(e) => Err(e)
      case Ok(t) =>
        var stepped := w.(cars := t.cars, totalTicks := w.totalTicks + 1);
        match EndOfTick(stepped, t, w.previousProgress, r, gauss)
        case Err(e) => Err(e)
        case Ok(w') => Ok(w'.(previousProgress := t.progress))
  }

  /** The generation check after the car loop. */
  function EndOfTick(w: World, t: Totals, previousProgress: real, r: Rng, gauss: Rng): (res: Result<World>)
    requires Unit(r) && NewGenerationReady(w)
    ensures w.generation.None? ==> res == Ok(w)
    ensures w.generation.Some? && |w.generationsInfo| == 0 ==> res.Err?
    ensures res.Ok? ==> CheckKeeps(w, res.value)
  {
    if w.generation.None? then Ok(w)
    else if |w.generationsInfo| == 0 then Err("no generation record")
    else
      match GenerationDecision(SinceRecord(w), w.settings.generationDuration, t.movement, t.progress - previousProgress)
      case Continue => Ok(w)
      case ExtendDuration =>
        Ok(w.(settings := w.settings.(generationDuration := w.settings.generationDuration + 10)))
      case NextGeneration => NewGeneration(w, r, gauss)
  }

  /** A successful tick leaves the world ready for the next one: the car
      loop only succeeds when every AI car has a brain, and a new generation
      leaves any AI car beyond the genomes without a brain but not crashed. */
  lemma TickKeepsReady(m: MathLib, w: World, elapsed: real, r: Rng, gauss: Rng)
    requires ExpPositive(m) && LengthPositive(m) && Unit(r) && TickReady(w)
    requires Tick(m, w, elapsed, false, r, gauss).Ok?
    ensures TickReady(Tick(m, w, elapsed, false, r, gauss).value)
  {
    TickFacts(m, w, elapsed, r, gauss);
    var t := StepCars(m, w, elapsed).value;
    var stepped := w.(cars := t.cars, totalTicks := w.totalTicks + 1);
    EndOfTickKeepsReady(stepped, t, w.previousProgress, r, gauss);
  }

  /** The generation check keeps a world whose AI cars all have brains ready
      for the next tick, whether it extends, replaces or leaves the generation. */
  lemma EndOfTickKeepsReady(w: World, t: Totals, previousProgress: real, r: Rng, gauss: Rng)
    requires Unit(r) && NewGenerationReady(w)
    requires 3 <= w.settings.hiddenLayerNodes <= InputCount
    requires forall i :: 0 <= i < |w.cars| && w.cars[i].control == AI ==> |w.cars[i].sensors| <= |DefaultCarSensors|
    requires EndOfTick(w, t, previousProgress, r, gauss).Ok?
    ensures forall progress: real :: TickReady(EndOfTick(w, t, previousProgress, r, gauss).value.(previousProgress := progress))
  {
    var end := EndOfTick(w, t, previousProgress, r, gauss).value;
    if w.generation.Some? && |w.generationsInfo| > 0
       && GenerationDecision(SinceRecord(w), w.settings.generationDuration, t.movement,
                             t.progress - previousProgress) == NextGeneration {
      assert end == Evolve(w, r, gauss);
      EvolveKeepsReady(w, r, gauss);
    } else {
      assert end.cars == w.cars && end.settings.hiddenLayerNodes == w.settings.hiddenLayerNodes && end.track == w.track;
    }
  }

  /** A running AI car without a brain (one beyond the genomes of the last
      new generation) makes every unpaused tick fail, as feedForward throws. */
  lemma BrainlessCarFailsTick(m: MathLib, w: World, elapsed: real, r: Rng, gauss: Rng, k: nat)
    requires ExpPositive(m) && LengthPositive(m) && Unit(r) && TickReady(w)
    requires k < |w.cars| && w.cars[k].control == AI && !w.cars[k].crashed && w.cars[k].brain.None?
    ensures Tick(m, w, elapsed, false, r, gauss).Err?
  {
    BrainlessCarFailsLoop(m, w, elapsed, k);
  }

  /** The car loop fails on a running AI car without a brain. */
  lemma BrainlessCarFailsLoop(m: MathLib, w: World, elapsed: real, k: nat)
    requires ExpPositive(m) && LengthPositive(m) && TickReady(w)
    requires k < |w.cars| && w.cars[k].control == AI && !w.cars[k].crashed && w.cars[k].brain.None?
    ensures StepCars(m, w, elapsed).Err?
  {
    ReadyCarsStep(w);
    var delta := TickDelta(w.cars, elapsed);
    var lastTick := LastRecordTick(w.generationsInfo);
    StepFailsLoop(w.cars, StepResults(m, w.cars, w.track, delta, lastTick, w.totalTicks + 1), k);
  }

  /** One failing step fails the car loop. */
  lemma StepFailsLoop(cars: seq<Car>, rs: seq<Result<Stepped>>, k: nat)
    requires k < |cars| == |rs| && rs[k].Err?
    ensures Gather(cars, rs, |cars|).Err?
  {
    GatherProperties(cars, rs, |cars|);
  }

  /** A new generation keeps the world ready for the next tick. */
  lemma EvolveKeepsReady(w: World, r: Rng, gauss: Rng)
    requires Unit(r) && NewGenerationReady(w) && w.generation.Some? && |AiIndices(w.cars)| > 0
    requires 3 <= w.settings.hiddenLayerNodes <= InputCount
    requires forall i :: 0 <= i < |w.cars| && w.cars[i].control == AI ==> |w.cars[i].sensors| <= |DefaultCarSensors|
    ensures TickReady(Evolve(w, r, gauss))
  {
    EvolveCars(w, r, gauss);
  }

  /** A paused tick changes nothing. */
  lemma PausedTick(m: MathLib, w: World, elapsed: real, r: Rng, gauss: Rng)
    requires ExpPositive(m) && LengthPositive(m) && Unit(r) && TickReady(w)
    ensures Tick(m, w, elapsed, true, r, gauss) == Ok(w)
  {
  }

  /** What the generation check never touches: among them every car's
      driver kind and pedal and steering state. */
  predicate CheckKeeps(w: World, w': World) {
    && w'.totalTicks == w.totalTicks && w'.previousProgress == w.previousProgress
    && |w'.cars| == |w.cars|
    && (forall i :: 0 <= i < |w.cars| ==>
          w'.cars[i].control == w.cars[i].control && w'.cars[i].controls == w.cars[i].controls)
    && w'.track == w.track && w'.loadedAI == w.loadedAI
    && w'.settings.carAmount == w.settings.carAmount
    && w'.settings.hiddenLayerNodes == w.settings.hiddenLayerNodes
  }

  /** The running generation was given 10 more ticks. */
  predicate Extended(w: World, w': World) {
    && w'.generation == w.generation && w'.generationsInfo == w.generationsInfo
    && w'.settings == w.settings.(generationDuration := w.settings.generationDuration + 10)
  }

  /** The running generation was replaced by the next one, with one more record. */
  predicate Advanced(w: World, w': World)
    requires w.generation.Some?
  {
    && w'.generation == Some(w.generation.value + 1)
    && |w'.generationsInfo| == |w.generationsInfo| + 1
    && w'.settings == w.settings
  }

  /** Ticks since the last generation record. */
  function SinceRecord(w: World): int
    requires |w.generationsInfo| > 0
  {
    w.totalTicks - w.generationsInfo[|w.generationsInfo| - 1].tick
  }

  /** A due generation that is replaced: one more generation, one more record. */
  lemma EndOfTickAdvances(w: World, t: Totals, previousProgress: real, r: Rng, gauss: Rng)
    requires Unit(r) && NewGenerationReady(w)
    requires w.generation.Some? && |w.generationsInfo| > 0
    requires GenerationDecision(SinceRecord(w), w.settings.generationDuration, t.movement, t.progress - previousProgress) == NextGeneration
    requires EndOfTick(w, t, previousProgress, r, gauss).Ok?
    ensures CheckKeeps(w, EndOfTick(w, t, previousProgress, r, gauss).value)
    ensures Advanced(w, EndOfTick(w, t, previousProgress, r, gauss).value)
  {
    assert EndOfTick(w, t, previousProgress, r, gauss) == NewGeneration(w, r, gauss);
    var w' := Evolve(w, r, gauss);
    assert NewGeneration(w, r, gauss).value == w';
  }

  /** The generation check keeps the track, the loaded brain, the tick
      counter, the number of cars and the population settings; it touches
      the generation only when one is running and due: a generation that has
      run for no more than 100 ticks and no longer than its duration is left
      alone, and a due one either gets 10 more ticks or is replaced by the
      next generation with one more record. */
  lemma EndOfTickProperties(w: World, t: Totals, previousProgress: real, r: Rng, gauss: Rng)
    requires Unit(r) && NewGenerationReady(w)
    requires EndOfTick(w, t, previousProgress, r, gauss).Ok?
    ensures var w' := EndOfTick(w, t, previousProgress, r, gauss).value;
            && CheckKeeps(w, w')
            && (w.generation.None? ==> w' == w)
            && (w.generation.Some? ==>
                  && |w.generationsInfo| > 0
                  && (SinceRecord(w) <= 100 && SinceRecord(w) <= w.settings.generationDuration ==> w' == w)
                  && (w' == w || w' == w.(settings := w.settings.(generationDuration := w.settings.generationDuration + 10))
                      || Advanced(w, w')))
  {
    if w.generation.Some? {
      var since := SinceRecord(w);
      DecisionCases(since, w.settings.generationDuration, t.movement, t.progress - previousProgress);
      var decision := GenerationDecision(since, w.settings.generationDuration, t.movement, t.progress - previousProgress);
      if decision == NextGeneration {
        EndOfTickAdvances(w, t, previousProgress, r, gauss);
      } else if decision == ExtendDuration {
        assert EndOfTick(w, t, previousProgress, r, gauss).value
            == w.(settings := w.settings.(generationDuration := w.settings.generationDuration + 10));
      } else {
        assert EndOfTick(w, t, previousProgress, r, gauss).value == w;
      }
    }
  }

  /** The generation, its records and the settings are as they were. */
  predicate GenerationKept(w: World, w': World) {
    w'.generation == w.generation && w'.generationsInfo == w.generationsInfo && w'.settings == w.settings
  }

  /** The generation outcome of the check on the stepped world, read back on
      the world before the tick. */
  lemma GenerationOutcome(w: World, stepped: World, e: World, progress: real)
    requires w.generation.Some?
    requires GenerationKept(w, stepped)
    requires || e == stepped
             || e == stepped.(settings := stepped.settings.(generationDuration := stepped.settings.generationDuration + 10))
             || Advanced(stepped, e)
    ensures var w' := e.(previousProgress := progress);
            GenerationKept(w, w') || Extended(w, w') || Advanced(w, w')
  {
  }

  /** The postcondition of a running tick, instantiated for its callers. */
  lemma TickFacts(m: MathLib, w: World, elapsed: real, r: Rng, gauss: Rng)
    requires ExpPositive(m) && LengthPositive(m) && Unit(r) && TickReady(w)
    requires Tick(m, w, elapsed, false, r, gauss).Ok?
    ensures StepCars(m, w, elapsed).Ok?
    ensures var t := StepCars(m, w, elapsed).value;
            var stepped := w.(cars := t.cars, totalTicks := w.totalTicks + 1);
            && NewGenerationReady(stepped)
            && EndOfTick(stepped, t, w.previousProgress, r, gauss).Ok?
            && Tick(m, w, elapsed, false, r, gauss).value
               == EndOfTick(stepped, t, w.previousProgress, r, gauss).value.(previousProgress := t.progress)
  {
    TickSteps(m, w, elapsed, r, gauss);
  }

  /** The car loop of a successful running tick succeeded. */
  lemma TickSteps(m: MathLib, w: World, elapsed: real, r: Rng, gauss: Rng)
    requires ExpPositive(m) && LengthPositive(m) && Unit(r) && TickReady(w)
    requires Tick(m, w, elapsed, false, r, gauss).Ok?
    ensures StepCars(m, w, elapsed).Ok?
  {
  }

  /** A tick counts itself, keeps the track, the loaded brain and the number
      of cars, and remembers the summed progress of the cars before their
      update. */
  lemma TickCounts(m: MathLib, w: World, elapsed: real, r: Rng, gauss: Rng)
    requires ExpPositive(m) && LengthPositive(m) && Unit(r) && TickReady(w)
    requires Tick(m, w, elapsed, false, r, gauss).Ok?
    ensures var w' := Tick(m, w, elapsed, false, r, gauss).value;
            && w'.totalTicks == w.totalTicks + 1
            && w'.previousProgress == ProgressSum(w.cars, |w.cars|)
            && |w'.cars| == |w.cars|
            && w'.track == w.track && w'.loadedAI == w.loadedAI
            && w'.settings.carAmount == w.settings.carAmount
            && w'.settings.hiddenLayerNodes == w.settings.hiddenLayerNodes
  {
    TickFacts(m, w, elapsed, r, gauss);
    var t := StepCars(m, w, elapsed).value;
    var stepped := w.(cars := t.cars, totalTicks := w.totalTicks + 1);
    EndOfTickProperties(stepped, t, w.previousProgress, r, gauss);
  }

  /** What a tick does to the generation is what the generation check does,
      with the tick already counted: nothing without a running generation or
      before it is due, and otherwise 10 more ticks or the next generation. */
  lemma TickGeneration(m: MathLib, w: World, elapsed: real, r: Rng, gauss: Rng)
    requires ExpPositive(m) && LengthPositive(m) && Unit(r) && TickReady(w)
    requires Tick(m, w, elapsed, false, r, gauss).Ok?
    ensures var w' := Tick(m, w, elapsed, false, r, gauss).value;
            var counted := w.(totalTicks := w.totalTicks + 1);
            && (w.generation.None? ==> w'.generation.None? && GenerationKept(w, w'))
            && (w.generation.Some? ==>
                  && |w.generationsInfo| > 0
                  && (SinceRecord(counted) <= 100 && SinceRecord(counted) <= w.settings.generationDuration ==>
                        GenerationKept(w, w'))
                  && (GenerationKept(w, w') || Extended(w, w') || Advanced(w, w')))
  {
    TickFacts(m, w, elapsed, r, gauss);
    var t := StepCars(m, w, elapsed).value;
    var stepped := w.(cars := t.cars, totalTicks := w.totalTicks + 1);
    var end := EndOfTick(stepped, t, w.previousProgress, r, gauss);
    EndOfTickProperties(stepped, t, w.previousProgress, r, gauss);
    if w.generation.Some? {
      assert SinceRecord(stepped) == SinceRecord(w.(totalTicks := w.totalTicks + 1));
      GenerationOutcome(w, stepped, end.value, t.progress);
    }
  }
}

=== FILE: spline.dfy ===
/** Cardinal-spline sampling of the track's centre line. The source works on a
    flat array x0, y0, x1, y1, ...; the model reads it as points. */
module Spline {
  import opened Base
  import opened Vectors

  /** The flat array read as points. */
  function Points(flat: seq<real>): (ps: seq<Vec2>)
    requires |flat| % 2 == 0
    ensures |ps| == |flat| / 2
    ensures forall q :: 0 <= q < |ps| ==> ps[q] == Vec2(flat[2 * q], flat[2 * q + 1])
  {
    seq(|flat| / 2, q requires 0 <= q < |flat| / 2 => Vec2(flat[2 * q], flat[2 * q + 1]))
  }

  /** Points written back as a flat array, as `toArray` followed by `flat()`. */
  function Flatten(ps: seq<Vec2>): (flat: seq<real>)
    ensures |flat| == 2 * |ps|
    ensures forall q :: 0 <= q < |ps| ==> flat[2 * q] == ps[q].x && flat[2 * q + 1] == ps[q].y
  {
    if ps == [] then [] else [ps[0].x, ps[0].y] + Flatten(ps[1..])
  }

  /** Reading a flattened list gives the list back. */
  lemma PointsOfFlatten(ps: seq<Vec2>)
    ensures Points(Flatten(ps)) == ps
  {
  }

  /** Flattening is a homomorphism of concatenation. */
  lemma {:induction false} FlattenAppend(a: seq<Vec2>, b: seq<Vec2>)
    ensures Flatten(a + b) == Flatten(a) + Flatten(b)
  {
    if a != [] {
      assert (a + b)[1..] == a[1..] + b;
      FlattenAppend(a[1..], b);
    } else {
      assert a + b == b;
    }
  }

  /** The points before and after the given ones that the algorithm needs: a
      closed curve repeats the last point twice in front and the first point
      behind, an open one repeats its own end points. */
  function Extend(ps: seq<Vec2>, closed: bool): (e: seq<Vec2>)
    requires |ps| >= 1
    ensures closed ==> e == [ps[|ps| - 1], ps[|ps| - 1]] + ps + [ps[0]]
    ensures !closed ==> e == [ps[0]] + ps + [ps[|ps| - 1]]
  {
    var last := ps[|ps| - 1];
    if closed then [last, last] + ps + [ps[0]] else [ps[0]] + ps + [last]
  }

  /** The copy of the flat input with coordinates put in front and appended. */
  function ExtendFlat(pts: seq<real>, closed: bool): (ep: seq<real>)
    requires |pts| >= 2 && |pts| % 2 == 0
    ensures |ep| % 2 == 0
    ensures Points(ep) == Extend(Points(pts), closed)
  {
    var n := |pts|;
    if closed then [pts[n - 2], pts[n - 1], pts[n - 2], pts[n - 1]] + pts + [pts[0], pts[1]]
    else [pts[0], pts[1]] + pts + [pts[n - 2], pts[n - 1]]
  }

  /** An undefined tension becomes 0.5; a defined one, even 0, is kept. */
  function DefaultTension(tension: Option<real>): (t: real)
    ensures tension.None? ==> t == 0.5
    ensures tension.Some? ==> t == tension.value
  {
    if tension.None? then 0.5 else tension.value
  }

  /** A falsy segment count, 0, becomes 16. */
  function DefaultSegments(numOfSegments: int): (m: int)
    ensures m != 0
    ensures numOfSegments != 0 ==> m == numOfSegments
  {
    if numOfSegments == 0 then 16 else numOfSegments
  }

  /** Math.pow(st, 3) and Math.pow(st, 2). */
  function Cube(st: real): real { st * st * st }
  function Square(st: real): real { st * st }

  /** The four cardinal (Hermite) weights at one step. */
  datatype Basis = Basis(c1: real, c2: real, c3: real, c4: real)

  /** The weights at step st. */
  function BasisAt(st: real): Basis {
    Basis(2.0 * Cube(st) - 3.0 * Square(st) + 1.0,
          -(2.0 * Cube(st)) + 3.0 * Square(st),
          Cube(st) - 2.0 * Square(st) + st,
          Cube(st) - Square(st))
  }

  /** One coordinate of a sample between p0 and p1, with the tension-scaled
      chords p1 - prev and next - p0 as tangents: the start and end weights
      give the segment's ends, and without tension the tangents drop out. */
  function Hermite(b: Basis, prev: real, p0: real, p1: real, next: real, tension: real): (h: real)
    ensures b == Basis(1.0, 0.0, 0.0, 0.0) ==> h == p0
    ensures b == Basis(0.0, 1.0, 0.0, 0.0) ==> h == p1
    ensures tension == 0.0 ==> h == b.c1 * p0 + b.c2 * p1
  {
    b.c1 * p0 + b.c2 * p1 + b.c3 * ((p1 - prev) * tension) + b.c4 * ((next - p0) * tension)
  }

  /** The sample at step st of the segment from e[q] to e[q + 1]. */
  function Sample(e: seq<Vec2>, q: nat, tension: real, st: real): Vec2
    requires 1 <= q && q + 2 < |e|
  {
    var b := BasisAt(st);
    Vec2(Hermite(b, e[q - 1].x, e[q].x, e[q + 1].x, e[q + 2].x, tension),
         Hermite(b, e[q - 1].y, e[q].y, e[q + 1].y, e[q + 2].y, tension))
  }

  /** The samples t = 0, 1, ..., m of one segment; none when m is negative. */
  function Segment(e: seq<Vec2>, q: nat, tension: real, m: int): (s: seq<Vec2>)
    requires 1 <= q && q + 2 < |e| && m != 0
    ensures |s| == MaxInt(0, m + 1)
  {
    seq(MaxInt(0, m + 1), t requires 0 <= t < MaxInt(0, m + 1) =>
      Sample(e, q, tension, t as real / m as real))
  }

  /** The samples of segments 1 .. q - 1, in order. */
  function SegmentsBefore(e: seq<Vec2>, q: nat, tension: real, m: int): (s: seq<Vec2>)
    requires 1 <= q && q + 1 < |e| && m != 0
    ensures |s| == (q - 1) * MaxInt(0, m + 1)
    decreases q
  {
    if q == 1 then []
    else SegmentsBefore(e, q - 1, tension, m) + Segment(e, q - 1, tension, m)
  }

  /** Every segment of an extended point list. */
  function Curve(e: seq<Vec2>, tension: real, m: int): seq<Vec2>
    requires |e| >= 3 && m != 0
  {
    SegmentsBefore(e, |e| - 2, tension, m)
  }

  /** The sampled curve as points, after the defaults are applied. */
  function CurvePoints(pts: seq<real>, tension: Option<real>, isClosed: bool, numOfSegments: int): seq<Vec2>
    requires |pts| % 2 == 0
  {
    if |pts| == 0 then []
    else Curve(Extend(Points(pts), isClosed), DefaultTension(tension), DefaultSegments(numOfSegments))
  }

  /** The inner loop: appends the samples t = 0 .. m of segment i / 2. */
  method AppendSegment(ep: seq<real>, i: nat, tension: real, m: int, acc: seq<real>)
    returns (res: seq<real>)
    requires |ep| % 2 == 0 && 2 <= i && i + 5 < |ep| && i % 2 == 0 && m != 0
    ensures res == acc + Flatten(Segment(Points(ep), i / 2, tension, m))
  {
    ghost var seg := Segment(Points(ep), i / 2, tension, m);
    res := acc;
    var t := 0;
    while t <= m
      invariant 0 <= t && (m >= 0 ==> t <= m + 1) && (m < 0 ==> t == 0)
      invariant res == acc + Flatten(seg[..t])
    {
      var st := t as real / m as real;
      var b := BasisAt(st);
      var x := Hermite(b, ep[i - 2], ep[i], ep[i + 2], ep[i + 4], tension);
      var y := Hermite(b, ep[i - 1], ep[i + 1], ep[i + 3], ep[i + 5], tension);
      assert Vec2(x, y) == Sample(Points(ep), i / 2, tension, st);
      assert seg[..t + 1] == seg[..t] + [Vec2(x, y)];
      FlattenAppend(seg[..t], [Vec2(x, y)]);
      res := res + [x, y];
      t := t + 1;
    }
    assert seg[..t] == seg;
  }

  /** At step 0 the weights select the start point, at step 1 the end point. */
  lemma BasisEnds()
    ensures BasisAt(0.0) == Basis(1.0, 0.0, 0.0, 0.0)
    ensures BasisAt(1.0) == Basis(0.0, 1.0, 0.0, 0.0)
  {
    assert Square(0.0) == 0.0;
    assert Cube(0.0) == 0.0;
    assert Square(1.0) == 1.0;
    assert Cube(1.0) == 1.0;
  }

  lemma SampleAtBasis(e: seq<Vec2>, q: nat, tension: real, st: real, b: Basis)
    requires 1 <= q && q + 2 < |e| && BasisAt(st) == b
    ensures Sample(e, q, tension, st)
         == Vec2(Hermite(b, e[q - 1].x, e[q].x, e[q + 1].x, e[q + 2].x, tension),
                 Hermite(b, e[q - 1].y, e[q].y, e[q + 1].y, e[q + 2].y, tension))
  {
  }

  lemma SampleEnds(e: seq<Vec2>, q: nat, tension: real)
    requires 1 <= q && q + 2 < |e|
    ensures Sample(e, q, tension, 0.0) == e[q]
    ensures Sample(e, q, tension, 1.0) == e[q + 1]
  {
    BasisEnds();
    SampleAtBasis(e, q, tension, 0.0, Basis(1.0, 0.0, 0.0, 0.0));
    SampleAtBasis(e, q, tension, 1.0, Basis(0.0, 1.0, 0.0, 0.0));
  }

  lemma SegmentAt(e: seq<Vec2>, q: nat, tension: real, m: int, t: nat)
    requires 1 <= q && q + 2 < |e| && m != 0 && t < MaxInt(0, m + 1)
    ensures Segment(e, q, tension, m)[t] == Sample(e, q, tension, t as real / m as real)
  {
  }

  lemma DivideSelf(x: real)
    requires x != 0.0
    ensures 0.0 / x == 0.0 && x / x == 1.0
  {
  }

  /** Step 0 of a segment is its start point and step m its end point. */
  lemma SegmentEndpoints(e: seq<Vec2>, q: nat, tension: real, m: int)
    requires 1 <= q && q + 2 < |e| && m >= 1
    ensures Segment(e, q, tension, m)[0] == e[q]
    ensures Segment(e, q, tension, m)[m] == e[q + 1]
  {
    SegmentFirst(e, q, tension, m);
    SegmentLast(e, q, tension, m);
    SampleEnds(e, q, tension);
  }

  lemma SegmentFirst(e: seq<Vec2>, q: nat, tension: real, m: int)
    requires 1 <= q && q + 2 < |e| && m >= 1
    ensures Segment(e, q, tension, m)[0] == Sample(e, q, tension, 0.0)
  {
    SegmentAt(e, q, tension, m, 0);
    DivideSelf(m as real);
  }

  lemma SegmentLast(e: seq<Vec2>, q: nat, tension: real, m: int)
    requires 1 <= q && q + 2 < |e| && m >= 1
    ensures Segment(e, q, tension, m)[m] == Sample(e, q, tension, 1.0)
  {
    var t: nat := m;
    assert t < MaxInt(0, m + 1);
    SegmentAt(e, q, tension, m, t);
    DivideSelf(m as real);
  }

  /** Sample j of segment k sits at position (k - 1)(m + 1) + j. */
  lemma {:induction false} SegmentsBeforeIndex(e: seq<Vec2>, q: nat, tension: real, m: int, k: nat, j: nat)
    requires 1 <= k < q && q + 1 < |e| && m >= 1 && j <= m
    ensures (k - 1) * (m + 1) + j < |SegmentsBefore(e, q, tension, m)|
    ensures SegmentsBefore(e, q, tension, m)[(k - 1) * (m + 1) + j] == Segment(e, k, tension, m)[j]
  {
    var prefix := SegmentsBefore(e, q - 1, tension, m);
    assert SegmentsBefore(e, q, tension, m) == prefix + Segment(e, q - 1, tension, m);
    if k < q - 1 {
      SegmentsBeforeIndex(e, q - 1, tension, m, k, j);
    } else {
      assert |prefix| == (k - 1) * (m + 1);
    }
  }

  /** The last sample of a segment and the first of the next are the same
      point, so the curve emits every interior control point twice. */
  lemma {:induction false} ConsecutiveSegmentsShareAPoint(e: seq<Vec2>, q: nat, tension: real, m: int, k: nat)
    requires 1 <= k && k + 1 < q && q + 1 < |e| && m >= 1
    ensures (k - 1) * (m + 1) + m + 1 < |SegmentsBefore(e, q, tension, m)|
    ensures SegmentsBefore(e, q, tension, m)[(k - 1) * (m + 1) + m]
         == SegmentsBefore(e, q, tension, m)[k * (m + 1)]
  {
    SegmentsBeforeIndex(e, q, tension, m, k, m);
    SegmentsBeforeIndex(e, q, tension, m, k + 1, 0);
    SegmentEndpoints(e, k, tension, m);
    SegmentEndpoints(e, k + 1, tension, m);
    assert (k + 1 - 1) * (m + 1) == (k - 1) * (m + 1) + m + 1;
  }

  /** The curve visits every point of the extended list from index 1 to
      |e| - 2: segment k starts at e[k] and ends at e[k + 1]. */
  lemma CurveEndpoints(e: seq<Vec2>, tension: real, m: int, k: nat)
    requires 1 <= k && k + 2 < |e| && m >= 1
    ensures (k - 1) * (m + 1) + m < |Curve(e, tension, m)|
    ensures Curve(e, tension, m)[(k - 1) * (m + 1)] == e[k]
    ensures Curve(e, tension, m)[(k - 1) * (m + 1) + m] == e[k + 1]
  {
    SegmentsBeforeIndex(e, |e| - 2, tension, m, k, 0);
    SegmentsBeforeIndex(e, |e| - 2, tension, m, k, m);
    SegmentEndpoints(e, k, tension, m);
  }

  /** A closed curve through n points: its k-th segment (counting from 0)
      runs from point k - 1 (point n - 1 when k is 0) to point k, so it passes through every
      control point. */
  lemma ClosedCurveInterpolates(pts: seq<real>, tension: Option<real>, numOfSegments: int, k: nat)
    requires |pts| % 2 == 0 && 2 <= |pts| && numOfSegments >= 0
    requires k < |pts| / 2
    ensures var c := CurvePoints(pts, tension, true, numOfSegments);
            var m := DefaultSegments(numOfSegments);
            var ps := Points(pts);
            && k * (m + 1) + m < |c|
            && c[k * (m + 1)] == (if k == 0 then ps[|ps| - 1] else ps[k - 1])
            && c[k * (m + 1) + m] == ps[k]
  {
    var ps := Points(pts);
    var e := Extend(ps, true);
    var m := DefaultSegments(numOfSegments);
    var tn := DefaultTension(tension);
    assert CurvePoints(pts, tension, true, numOfSegments) == Curve(e, tn, m);
    CurveEndpoints(e, tn, m, k + 1);
    if k == 0 {
      assert e[1] == ps[|ps| - 1];
    } else {
      assert e[k + 1] == ps[k - 1];
    }
    assert e[k + 2] == ps[k];
  }

  /** The outer loop over the segments of an extended flat array. */
  method AppendSegments(ep: seq<real>, tension: real, m: int) returns (res: seq<real>)
    requires |ep| % 2 == 0 && |ep| >= 6 && m != 0
    ensures res == Flatten(Curve(Points(ep), tension, m))
  {
    ghost var e := Points(ep);
    res := [];
    var i := 2;
    while i < |ep| - 4
      invariant 2 <= i <= |ep| - 4 && i % 2 == 0
      invariant res == Flatten(SegmentsBefore(e, i / 2, tension, m))
    {
      ghost var before := SegmentsBefore(e, i / 2, tension, m);
      res := AppendSegment(ep, i, tension, m, res);
      FlattenAppend(before, Segment(e, i / 2, tension, m));
      assert (i + 2) / 2 - 1 == i / 2;
      i := i + 2;
    }
    assert i / 2 == |e| - 2;
  }

  /** The source's two nested loops after the defaults are applied and the
      input is copied and extended; the input itself is a value and so is left
      as it was. */
  method GetCurvePoints(pts: seq<real>, tension: Option<real>, isClosed: bool, numOfSegments: int)
    returns (res: seq<real>)
    requires |pts| % 2 == 0
    ensures res == Flatten(CurvePoints(pts, tension, isClosed, numOfSegments))
    ensures isClosed ==> |res| == |pts| * MaxInt(0, DefaultSegments(numOfSegments) + 1)
    ensures !isClosed && |pts| > 0 ==> |res| == (|pts| - 2) * MaxInt(0, DefaultSegments(numOfSegments) + 1)
  {
    if |pts| == 0 {
      return [];
    }
    var ep := ExtendFlat(pts, isClosed);
    res := AppendSegments(ep, DefaultTension(tension), DefaultSegments(numOfSegments));
    CurvePointsLength(pts, tension, isClosed, numOfSegments);
  }

  /** A curve through n points has n segments when closed and n - 1 when open,
      each of numOfSegments + 1 samples of two numbers. */
  lemma CurvePointsLength(pts: seq<real>, tension: Option<real>, isClosed: bool, numOfSegments: int)
    requires |pts| % 2 == 0 && |pts| > 0
    ensures |Flatten(CurvePoints(pts, tension, isClosed, numOfSegments))|
         == (if isClosed then |pts| else |pts| - 2) * MaxInt(0, DefaultSegments(numOfSegments) + 1)
  {
    var ps := Points(pts);
    var e := Extend(ps, isClosed);
    var k := MaxInt(0, DefaultSegments(numOfSegments) + 1);
    var n: nat := |e| - 3;
    assert |Curve(e, DefaultTension(tension), DefaultSegments(numOfSegments))| == n * k;
    assert 2 * (n * k) == (2 * n) * k;
    assert 2 * n == (if isClosed then |pts| else |pts| - 2);
  }
}

=== FILE: trackgen.dfy ===
/** generateRaceTrack: 19 random seed points around an ellipse, pushed apart
    until no two are closer than 100, a closed cardinal spline through them,
    a scan of the samples that rejects sharp corners and drops repeated
    samples, and the two borders at distance 10 on either side. A rejected
    attempt starts over with fresh randomness. */
module TrackGen {
  import opened Base
  import opened Vectors
  import opened Config
  import opened Spline
  import opened Boundary
  import opened Entities

  /** Math.sqrt(0) is 0: the property of the square root the repeat test
      relies on. */
  ghost predicate SqrtOfZero(m: MathLib) {
    Sqrt(m, 0.0) == 0.0
  }

  /** Math.sqrt of a non-negative number squares back to it. */
  ghost predicate SqrtSquares(m: MathLib) {
    forall x: real {:trigger Sqrt(m, x)} :: x >= 0.0 ==> Sqrt(m, x) * Sqrt(m, x) == x
  }

  /** Under both properties of the square root, a distance is zero exactly
      between equal points. */
  lemma DistanceZero(m: MathLib, a: Vec2, b: Vec2)
    requires LengthPositive(m) && SqrtOfZero(m)
    ensures Distance(m, a, b) == 0.0 <==> a == b
  {
    if a == b {
      assert Subtract(a, b) == Vec2(0.0, 0.0);
      assert SquaredLength(Vec2(0.0, 0.0)) == 0.0;
    } else {
      assert Subtract(a, b) != Vec2(0.0, 0.0);
    }
  }

  // ---------------------------------------------------------------------
  // Seeds

  /** Seed i: a radius of -200 plus up to 50 either way on the x axis,
      rotated by i twentieths of a turn, stretched twice along x, and moved by
      up to 40 in each coordinate. */
  function Seed(m: MathLib, r: Rng, i: nat): (p: Vec2)
    ensures Unit(r) ==>
              exists radius: real, jitter: Vec2 ::
                && -250.0 <= radius < -150.0
                && 0.0 <= jitter.x < 40.0 && 0.0 <= jitter.y < 40.0
                && p == Add(Multiply(Rotate(m, Vec2(radius, 0.0), i as real * (PI * 2.0) / 20.0), Vec2(2.0, 1.0)), jitter)
  {
    var radius := -200.0 + (r([i, 0]) - 0.5) * 100.0;
    var jitter := Vec2(r([i, 1]) * 40.0, r([i, 2]) * 40.0);
    var turned := Rotate(m, Vec2(radius, 0.0), i as real * (PI * 2.0) / PointAmount as real);
    assert Unit(r) ==> 0.0 <= r([i, 0]) < 1.0 && 0.0 <= r([i, 1]) < 1.0 && 0.0 <= r([i, 2]) < 1.0;
    Add(Multiply(turned, Vec2(2.0, 1.0)), jitter)
  }

  /** The seeding loop, which stops one short of PointAmount. */
  function Seeds(m: MathLib, r: Rng): (s: seq<Vec2>)
    ensures |s| == PointAmount - 1
    ensures forall i :: 0 <= i < |s| ==> s[i] == Seed(m, r, i)
  {
    seq(PointAmount - 1, i requires 0 <= i < PointAmount - 1 => Seed(m, r, i))
  }

  // ---------------------------------------------------------------------
  // Relaxation

  /** The component-wise sum of the points. */
  function Sum(ps: seq<Vec2>): Vec2 {
    if |ps| == 0 then Vec2(0.0, 0.0) else Add(Sum(ps[..|ps| - 1]), ps[|ps| - 1])
  }

  /** Replacing one point changes the sum by the difference. */
  lemma {:induction false} SumUpdate(ps: seq<Vec2>, i: nat, v: Vec2)
    requires i < |ps|
    ensures Sum(ps[i := v]) == Add(Subtract(Sum(ps), ps[i]), v)
  {
    var qs := ps[i := v];
    var n := |ps|;
    if i == n - 1 {
      assert qs[..n - 1] == ps[..n - 1];
    } else {
      assert qs[..n - 1] == ps[..n - 1][i := v];
      SumUpdate(ps[..n - 1], i, v);
    }
  }

  /** The push between two points closer than 100: along the direction from
      the first to the second, half the shortfall, plus a jitter of up to 5
      either way in each coordinate. None when the two points coincide, where
      the source normalises a zero vector into NaN. */
  function Push(m: MathLib, p1: Vec2, p2: Vec2, dist: real, r: Rng, path: seq<nat>): (push: Option<Vec2>)
    ensures push.None? <==> Length(m, Subtract(p2, p1)) == 0.0
    ensures push.Some? ==>
              var jitter := Subtract(push.value, Scale(Normalize(m, Subtract(p2, p1)), (100.0 - dist) / 2.0));
              Unit(r) ==> -5.0 <= jitter.x < 5.0 && -5.0 <= jitter.y < 5.0
  {
    var d := Subtract(p2, p1);
    if Length(m, d) == 0.0 then None
    else
      var half := (100.0 - dist) / 2.0;
      Some(Add(Scale(Normalize(m, d), half), Vec2((r(path + [0]) - 0.5) * 10.0, (r(path + [1]) - 0.5) * 10.0)))
  }

  /** One pair of the relaxation pass: the first point moves back by the
      push and the second forward by it, so their sum, and with it the sum
      of all points, stays where it was. */
  lemma PushKeepsSum(ps: seq<Vec2>, i: nat, j: nat, push: Vec2)
    requires i < |ps| && j < |ps| && i != j
    ensures Sum(ps[i := Subtract(ps[i], push)][j := Add(ps[j], push)]) == Sum(ps)
  {
    var qs := ps[i := Subtract(ps[i], push)];
    SumUpdate(ps, i, Subtract(ps[i], push));
    SumUpdate(qs, j, Add(ps[j], push));
  }

  /** No two distinct points are closer than 100. */
  predicate Spread(m: MathLib, ps: seq<Vec2>) {
    forall i, j :: 0 <= i < |ps| && 0 <= j < |ps| && i != j ==> !(Distance(m, ps[i], ps[j]) < 100.0)
  }

  /** One relaxation pass: for every ordered pair i != j, in order, the
      pair is pushed apart if it is closer than 100, reading the points as
      the earlier pushes of the pass left them. `ok` is false when a push met
      two coinciding points. A pass that moves nothing leaves the points as
      they were, all of them at least 100 apart. */
  method RelaxPass(m: MathLib, start: seq<Vec2>, r: Rng) returns (ps: seq<Vec2>, moved: bool, ok: bool)
    ensures |ps| == |start| && Sum(ps) == Sum(start)
    ensures ok && !moved ==> ps == start && Spread(m, start)
  {
    ps := start;
    moved := false;
    ok := true;
    var i := 0;
    while i < |ps|
      invariant 0 <= i <= |ps| && |ps| == |start| && Sum(ps) == Sum(start)
      invariant ok && !moved ==> ps == start
      invariant ok && !moved ==>
        forall a, b :: 0 <= a < i && 0 <= b < |ps| && a != b ==> !(Distance(m, ps[a], ps[b]) < 100.0)
    {
      var j := 0;
      while j < |ps|
        invariant 0 <= j <= |ps| && |ps| == |start| && Sum(ps) == Sum(start)
        invariant ok && !moved ==> ps == start
        invariant ok && !moved ==>
          forall a, b :: 0 <= a < i && 0 <= b < |ps| && a != b ==> !(Distance(m, ps[a], ps[b]) < 100.0)
        invariant ok && !moved ==>
          forall b :: 0 <= b < j && b != i ==> !(Distance(m, ps[i], ps[b]) < 100.0)
      {
        if i != j {
          var dist := Distance(m, ps[i], ps[j]);
          if dist < 100.0 {
            var push := Push(m, ps[i], ps[j], dist, r, [i, j]);
            if push.None? {
              ok := false;
              return;
            }
            PushKeepsSum(ps, i, j, push.value);
            ps := ps[i := Subtract(ps[i], push.value)][j := Add(ps[j], push.value)];
            moved := true;
          }
        }
        j := j + 1;
      }
      i := i + 1;
    }
  }

  /** How the relaxation ended. */
  datatype Relaxation = Settled(points: seq<Vec2>) | Exhausted | Degenerate

  /** The most passes the relaxation runs. */
  const MaxPasses: nat := 20

  /** The relaxation loop: passes run while the last one moved something and
      fewer than 20 have run; reaching 20 passes rejects the attempt even when
      the 20th pass moved nothing. A settled layout has as many points as the
      seeds, the same sum, and no two points closer than 100. */
  method Relax(m: MathLib, seeds: seq<Vec2>, r: Rng) returns (out: Relaxation, passes: nat)
    ensures 1 <= passes <= MaxPasses
    ensures out.Exhausted? ==> passes == MaxPasses
    ensures passes == MaxPasses ==> !out.Settled?
    ensures out.Settled? ==>
              && |out.points| == |seeds| && Sum(out.points) == Sum(seeds)
              && Spread(m, out.points)
  {
    var ps := seeds;
    var moved := true;
    passes := 0;
    while moved && passes < MaxPasses
      invariant 0 <= passes <= MaxPasses && |ps| == |seeds| && Sum(ps) == Sum(seeds)
      invariant passes == 0 ==> moved
      invariant !moved ==> Spread(m, ps)
    {
      passes := passes + 1;
      var ok;
      ps, moved, ok := RelaxPass(m, ps, Split(r, passes));
      if !ok {
        return Degenerate, passes;
      }
    }
    if passes == MaxPasses {
      return Exhausted, passes;
    }
    out := Settled(ps);
  }

  // ---------------------------------------------------------------------
  // The corner and repeat scan

  /** find3PointAngle at p2 between p1 and p3, by the law of cosines. None is
      NaN: a zero side makes the quotient 0/0 or infinite, where acos gives
      NaN. */
  function Find3PointAngle(m: MathLib, p2: Vec2, p1: Vec2, p3: Vec2): (a: Option<real>)
    ensures a.None? <==> Distance(m, p2, p1) * Distance(m, p2, p3) == 0.0
    ensures SqrtSquares(m) && a.Some? ==>
              a.value == Acos(m, Dot(Subtract(p1, p2), Subtract(p3, p2)) / (Distance(m, p2, p1) * Distance(m, p2, p3)))
  {
    var ab := Distance(m, p2, p1);
    var bc := Distance(m, p2, p3);
    var ac := Distance(m, p3, p1);
    var denominator := 2.0 * bc * ab;
    assert denominator == 2.0 * (ab * bc);
    if denominator == 0.0 then None
    else
      var cosine := (bc * bc + ab * ab - ac * ac) / denominator;
      LawOfCosines(m, p2, p1, p3);
      assert SqrtSquares(m) ==> cosine == Dot(Subtract(p1, p2), Subtract(p3, p2)) / (ab * bc);
      assert SqrtSquares(m) ==> cosine == Dot(Subtract(p1, p2), Subtract(p3, p2)) / (Distance(m, p2, p1) * Distance(m, p2, p3));
      Some(Acos(m, cosine))
  }

  /** By the law of cosines the quotient find3PointAngle passes to acos is the
      cosine of the angle between the arms p1 - p2 and p3 - p2. */
  lemma LawOfCosines(m: MathLib, p2: Vec2, p1: Vec2, p3: Vec2)
    requires Distance(m, p2, p1) * Distance(m, p2, p3) != 0.0
    ensures var ab, bc, ac := Distance(m, p2, p1), Distance(m, p2, p3), Distance(m, p3, p1);
            SqrtSquares(m) ==>
              (bc * bc + ab * ab - ac * ac) / (2.0 * bc * ab)
              == Dot(Subtract(p1, p2), Subtract(p3, p2)) / (ab * bc)
  {
    var ab, bc, ac := Distance(m, p2, p1), Distance(m, p2, p3), Distance(m, p3, p1);
    if SqrtSquares(m) {
      var u, v := Subtract(p1, p2), Subtract(p3, p2);
      SquaredNonNegative(Subtract(p2, p1));
      SquaredNonNegative(Subtract(p2, p3));
      SquaredNonNegative(Subtract(p3, p1));
      assert ab * ab == SquaredLength(Subtract(p2, p1)) == SquaredLength(u);
      assert bc * bc == SquaredLength(Subtract(p2, p3)) == SquaredLength(v);
      assert Subtract(p3, p1) == Subtract(v, u);
      assert ac * ac == SquaredLength(Subtract(v, u));
      DifferenceOfSquares(u, v);
      assert bc * bc + ab * ab - ac * ac == 2.0 * Dot(u, v);
      assert 2.0 * bc * ab == 2.0 * (ab * bc);
    }
  }

  lemma SquaredNonNegative(v: Vec2)
    ensures SquaredLength(v) >= 0.0
  {
  }

  /** |u|² + |v|² - |v - u|² = 2 u.v */
  lemma DifferenceOfSquares(u: Vec2, v: Vec2)
    ensures SquaredLength(u) + SquaredLength(v) - SquaredLength(Subtract(v, u)) == 2.0 * Dot(u, v)
  {
    var d := Subtract(v, u);
    assert d.x * d.x == v.x * v.x - 2.0 * (u.x * v.x) + u.x * u.x;
    assert d.y * d.y == v.y * v.y - 2.0 * (u.y * v.y) + u.y * u.y;
  }

  /** The angle is NaN exactly when the corner point coincides with one of
      its neighbours. */
  lemma AngleUndefined(m: MathLib, p2: Vec2, p1: Vec2, p3: Vec2)
    requires LengthPositive(m) && SqrtOfZero(m)
    ensures Find3PointAngle(m, p2, p1, p3).None? <==> p2 == p1 || p2 == p3
  {
    var ab := Distance(m, p2, p1);
    var bc := Distance(m, p2, p3);
    DistanceZero(m, p2, p1);
    DistanceZero(m, p2, p3);
    DistanceNonNegative(m, p2, p1);
    DistanceNonNegative(m, p2, p3);
    ProductZero(bc, ab);
  }

  lemma DistanceNonNegative(m: MathLib, a: Vec2, b: Vec2)
    requires LengthPositive(m) && SqrtOfZero(m)
    ensures Distance(m, a, b) >= 0.0
  {
    DistanceZero(m, a, b);
    if a != b {
      assert Subtract(a, b) != Vec2(0.0, 0.0);
    }
  }

  lemma ProductZero(a: real, b: real)
    requires a >= 0.0 && b >= 0.0
    ensures 2.0 * a * b == 0.0 <==> a == 0.0 || b == 0.0
  {
    if a > 0.0 && b > 0.0 {
      MulPositive(2.0 * a, b);
    }
  }

  /** The corner p1, p2, p3 is sharper than PI / 1.1; a NaN angle is not. */
  predicate Sharp(m: MathLib, p1: Vec2, p2: Vec2, p3: Vec2) {
    match Find3PointAngle(m, p2, p1, p3)
    case None => false
    case Some(angle) => angle < PI / 1.1
  }

  /** The samples with every sample equal to the one before it dropped: the
      reference the scan is measured against. */
  function Compress(s: seq<Vec2>): (c: seq<Vec2>)
    ensures |c| <= |s| && (|s| > 0 ==> 0 < |c| && c[0] == s[0] && c[|c| - 1] == s[|s| - 1])
  {
    if |s| <= 1 then s
    else
      var front := Compress(s[..|s| - 1]);
      if s[|s| - 1] == s[|s| - 2] then front else front + [s[|s| - 1]]
  }

  /** No sample equals the one before it. */
  predicate NoRepeats(s: seq<Vec2>) {
    forall k :: 1 <= k < |s| ==> s[k - 1] != s[k]
  }

  /** The compressed samples have no repeats. */
  lemma {:induction false} CompressNoRepeats(s: seq<Vec2>)
    ensures NoRepeats(Compress(s))
  {
    if |s| > 1 {
      var init := s[..|s| - 1];
      CompressNoRepeats(init);
      var front := Compress(init);
      if s[|s| - 1] != s[|s| - 2] {
        var c := front + [s[|s| - 1]];
        forall k | 1 <= k < |c| ensures c[k - 1] != c[k] {
          if k < |front| {
            assert c[k - 1] == front[k - 1] && c[k] == front[k];
          } else {
            assert c[k - 1] == front[|front| - 1] == s[|s| - 2];
          }
        }
      }
    }
  }

  /** The compressed samples are a subsequence of the samples. */
  lemma {:induction false} CompressSubsequence(s: seq<Vec2>)
    ensures IsSubsequence(Compress(s), s)
  {
    if |s| <= 1 {
      SubsequenceReflexive(s);
    } else {
      var init := s[..|s| - 1];
      CompressSubsequence(init);
      var front := Compress(init);
      var idx :| Embedding(idx, front, init);
      if s[|s| - 1] == s[|s| - 2] {
        assert Embedding(idx, front, s);
      } else {
        var last: nat := |s| - 1;
        assert Embedding(idx + [last], front + [s[|s| - 1]], s);
      }
    }
  }

  /** Compressing samples without repeats changes nothing. */
  lemma {:induction false} CompressKeepsDistinct(s: seq<Vec2>)
    requires NoRepeats(s)
    ensures Compress(s) == s
  {
    if |s| > 1 {
      var init := s[..|s| - 1];
      assert NoRepeats(init) by {
        forall k | 1 <= k < |init| ensures init[k - 1] != init[k] {
          assert init[k - 1] == s[k - 1] && init[k] == s[k];
        }
      }
      CompressKeepsDistinct(init);
      assert s[|s| - 2] != s[|s| - 1];
      assert init + [s[|s| - 1]] == s;
    }
  }

  /** Compressing twice is compressing once. */
  lemma CompressIdempotent(s: seq<Vec2>)
    ensures Compress(Compress(s)) == Compress(s)
  {
    CompressNoRepeats(s);
    CompressKeepsDistinct(Compress(s));
  }

  /** The compressed prefix grows by the next sample exactly when it differs
      from the one before. */
  lemma CompressStep(s: seq<Vec2>, k: nat)
    requires 1 <= k < |s|
    ensures s[k - 1] == s[k] ==> Compress(s[..k + 1]) == Compress(s[..k])
    ensures s[k - 1] != s[k] ==> Compress(s[..k + 1]) == Compress(s[..k]) + [s[k]]
  {
    assert s[..k + 1][..k] == s[..k];
  }

  /** Sample k, from index 1 on, forms a sharp corner with its neighbours,
      the sample after the last being the first. */
  predicate SharpAt(m: MathLib, s: seq<Vec2>, k: int) {
    1 <= k < |s| && Sharp(m, s[k - 1], s[k], s[NextIndex(k, |s|)])
  }

  predicate HasSharpCorner(m: MathLib, s: seq<Vec2>) {
    exists k :: 0 <= k < |s| && SharpAt(m, s, k)
  }

  datatype Scan = TooSharp | Scanned(samples: seq<Vec2>)

  /** The scan's state at original sample k: the samples before k with
      repeats dropped, followed by the samples from k on, with the scan
      position q at the first of the latter. */
  ghost predicate ScanAt(s: seq<Vec2>, k: nat, pts: seq<Vec2>, q: nat) {
    1 <= k <= |s| && q == |Compress(s[..k])| && pts == Compress(s[..k]) + s[k..]
  }

  lemma ScanStart(s: seq<Vec2>)
    requires |s| > 0
    ensures ScanAt(s, 1, s, 1)
  {
    assert Compress(s[..1]) == s[..1] && s == s[..1] + s[1..];
  }

  /** While the scan is at sample k, its three points are the original
      sample k, the original sample before it, and the original sample after
      it (wrapping to the first). */
  lemma ScanNeighbours(m: MathLib, s: seq<Vec2>, k: nat, pts: seq<Vec2>, q: nat)
    requires ScanAt(s, k, pts, q) && k < |s|
    ensures 1 <= q < |pts|
    ensures pts[q - 1] == s[k - 1] && pts[q] == s[k] && pts[NextIndex(q, |pts|)] == s[NextIndex(k, |s|)]
    ensures SharpAt(m, pts, q) == SharpAt(m, s, k)
  {
    var prefix := s[..k];
    var c := Compress(prefix);
    assert c[0] == prefix[0] == s[0] && c[|c| - 1] == prefix[k - 1] == s[k - 1];
    assert pts[q - 1] == c[q - 1];
    assert pts[q..] == s[k..];
    if k + 1 < |s| {
      assert pts[q + 1] == s[k + 1];
    } else {
      assert pts[0] == c[0];
    }
  }

  /** Dropping a repeated sample k, or stepping past a new one, moves the
      scan to sample k + 1. */
  lemma ScanAdvance(s: seq<Vec2>, k: nat, pts: seq<Vec2>, q: nat)
    requires ScanAt(s, k, pts, q) && k < |s|
    ensures q < |pts|
    ensures s[k - 1] == s[k] ==> ScanAt(s, k + 1, pts[..q] + pts[q + 1..], q)
    ensures s[k - 1] != s[k] ==> ScanAt(s, k + 1, pts, q + 1)
  {
    CompressStep(s, k);
    var c := Compress(s[..k]);
    if s[k - 1] == s[k] {
      assert pts[..q] == c && pts[q + 1..] == s[k + 1..];
    } else {
      assert s[k..] == [s[k]] + s[k + 1..];
    }
  }

  /** A scan that ran past its last point has seen every original sample. */
  lemma ScanDone(m: MathLib, s: seq<Vec2>, k: nat, pts: seq<Vec2>, q: nat)
    requires ScanAt(s, k, pts, q) && q >= |pts|
    ensures pts == Compress(s)
  {
    if k < |s| {
      ScanNeighbours(m, s, k, pts, q);
    }
    assert s[..k] == s;
  }

  lemma FoundSharpCorner(m: MathLib, s: seq<Vec2>, k: nat)
    requires SharpAt(m, s, k)
    ensures HasSharpCorner(m, s)
  {
  }

  /** No sample before k forms a sharp corner. */
  ghost predicate SmoothBefore(m: MathLib, s: seq<Vec2>, k: nat) {
    forall k' :: 0 <= k' < k ==> !SharpAt(m, s, k')
  }

  lemma SmoothStep(m: MathLib, s: seq<Vec2>, k: nat)
    requires SmoothBefore(m, s, k) && !SharpAt(m, s, k)
    ensures SmoothBefore(m, s, k + 1)
  {
  }

  lemma NoSharpCorner(m: MathLib, s: seq<Vec2>)
    requires SmoothBefore(m, s, |s|)
    ensures !HasSharpCorner(m, s)
  {
  }

  /** The loop over the spline samples, on points rather than on the flat
      array (the splice of two numbers at an even index removes one point).
      Sample 0 is skipped: the source reads index -2 there and gets NaN, which
      is neither sharp nor a repeat. Each later sample is first tested for a
      sharp corner with its current neighbours, which restarts the track,
      and then dropped if it is at distance 0 from the sample before it, the
      next sample taking its place. The scan restarts exactly when the
      original samples have a sharp corner, and otherwise returns them with
      repeats dropped. */
  method ScanSamples(m: MathLib, s: seq<Vec2>) returns (res: Scan)
    requires LengthPositive(m) && SqrtOfZero(m)
    ensures res.TooSharp? <==> HasSharpCorner(m, s)
    ensures res.Scanned? ==> res.samples == Compress(s)
  {
    if |s| == 0 {
      NoSharpCorner(m, s);
      return Scanned(s);
    }
    // Sample 0 is never tested: the scan starts at sample 1.
    ScanStart(s);
    var pts := s;
    var q := 1;
    ghost var k := 1;
    while q < |pts|
      invariant ScanAt(s, k, pts, q)
      invariant SmoothBefore(m, s, k)
      decreases |pts| - q
    {
      ScanNeighbours(m, s, k, pts, q);
      if SharpAt(m, pts, q) {
        FoundSharpCorner(m, s, k);
        return TooSharp;
      }
      SmoothStep(m, s, k);
      ScanAdvance(s, k, pts, q);
      DistanceZero(m, pts[q - 1], pts[q]);
      if Distance(m, pts[q - 1], pts[q]) == 0.0 {
        pts := pts[..q] + pts[q + 1..];
      } else {
        q := q + 1;
      }
      k := k + 1;
    }
    ScanDone(m, s, k, pts, q);
    NoSharpCorner(m, s);
    return Scanned(pts);
  }

  // ---------------------------------------------------------------------
  // The track

  /** The spline samples of a closed curve through the points with tension
      1 and RaceTrackSegments samples per segment. */
  function Samples(points: seq<Vec2>): seq<Vec2> {
    CurvePoints(Flatten(points), Some(1.0), true, RaceTrackSegments)
  }

  /** What every generated track satisfies: 19 relaxed points no two of
      which are closer than 100, a spline through them without a sharp
      corner, its samples with repeats dropped as the centre line (flat and
      as vectors), and borders that keep offsets at distance 10 on either
      side of the centre line. */
  ghost predicate Generated(m: MathLib, track: RaceTrack)
    requires LengthPositive(m)
  {
    && |track.points| == PointAmount - 1
    && Spread(m, track.points)
    && !HasSharpCorner(m, Samples(track.points))
    && track.curvePointsVecs == Compress(Samples(track.points))
    && track.curvePoints == Flatten(track.curvePointsVecs)
    && IsSubsequence(track.innerPoints, RawOffsets(m, track.curvePointsVecs, 10.0))
    && IsSubsequence(track.outerPoints, RawOffsets(m, track.curvePointsVecs, -10.0))
  }

  /** One attempt of generateRaceTrack: seeds from the attempt's randomness,
      relaxation, then the track through the relaxed points. None when the
      relaxation runs out of passes or meets coinciding points, or when the
      scan finds a sharp corner; a built track keeps the seeds' sum. */
  method BuildTrack(m: MathLib, r: Rng) returns (track: Option<RaceTrack>)
    requires LengthPositive(m) && SqrtOfZero(m)
    ensures track.Some? ==> Generated(m, track.value)
    ensures track.Some? ==> Sum(track.value.points) == Sum(Seeds(m, Split(r, 0)))
  {
    var seeds := Seeds(m, Split(r, 0));
    var relaxed, passes := Relax(m, seeds, Split(r, 1));
    if !relaxed.Settled? {
      return None;
    }
    track := TrackThrough(m, relaxed.points);
  }

  /** The spline through relaxed points, the scan of its samples and the
      borders; None when the scan finds a sharp corner, which it does
      exactly when the samples have one. */
  method TrackThrough(m: MathLib, points: seq<Vec2>) returns (track: Option<RaceTrack>)
    requires LengthPositive(m) && SqrtOfZero(m)
    requires |points| == PointAmount - 1 && Spread(m, points)
    ensures track.None? <==> HasSharpCorner(m, Samples(points))
    ensures track.Some? ==> Generated(m, track.value) && track.value.points == points
  {
    var flat := GetCurvePoints(Flatten(points), Some(1.0), true, RaceTrackSegments);
    var samples := Points(flat);
    assert samples == Samples(points) by {
      PointsOfFlatten(Samples(points));
    }
    var scan := ScanSamples(m, samples);
    if scan.TooSharp? {
      return None;
    }
    var vecs := scan.samples;
    var inner := GetOffsetPoints(m, vecs, 10.0);
    var outer := GetOffsetPoints(m, vecs, -10.0);
    BuiltIsGenerated(m, points, vecs, outer, inner);
    track := Some(RaceTrack(points, Flatten(vecs), vecs, outer, inner));
  }

  lemma BuiltIsGenerated(m: MathLib, points: seq<Vec2>, vecs: seq<Vec2>, outer: seq<Vec2>, inner: seq<Vec2>)
    requires LengthPositive(m)
    requires |points| == PointAmount - 1 && Spread(m, points)
    requires !HasSharpCorner(m, Samples(points))
    requires vecs == Compress(Samples(points))
    requires IsSubsequence(inner, RawOffsets(m, vecs, 10.0))
    requires IsSubsequence(outer, RawOffsets(m, vecs, -10.0))
    ensures Generated(m, RaceTrack(points, Flatten(vecs), vecs, outer, inner))
  {
  }

  /** generateRaceTrack, retried at most `attempts` times, each attempt
      reading its own randomness. */
  method GenerateRaceTrack(m: MathLib, r: Rng, attempts: nat) returns (track: Option<RaceTrack>)
    requires LengthPositive(m) && SqrtOfZero(m)
    ensures track.Some? ==> Generated(m, track.value)
    ensures attempts == 0 ==> track.None?
  {
    track := None;
    var a := 0;
    while a < attempts && track.None?
      invariant 0 <= a <= attempts
      invariant track.Some? ==> Generated(m, track.value)
      invariant a == 0 ==> track.None?
    {
      track := BuildTrack(m, Split(r, a));
      a := a + 1;
    }
  }

  /** The properties of a generated track that follow: the centre line has
      no repeated samples and at most 399 of them (19 segments of 21), the
      flat array reads back as the vectors, and each border has at most
      three offsets fewer than the centre line. */
  lemma GeneratedProperties(m: MathLib, track: RaceTrack)
    requires LengthPositive(m) && Generated(m, track)
    ensures NoRepeats(track.curvePointsVecs)
    ensures |track.curvePointsVecs| <= (PointAmount - 1) * (RaceTrackSegments + 1)
    ensures |track.curvePoints| == 2 * |track.curvePointsVecs|
    ensures forall q :: 0 <= q < |track.curvePointsVecs| ==>
              track.curvePointsVecs[q] == Vec2(track.curvePoints[2 * q], track.curvePoints[2 * q + 1])
    ensures |track.innerPoints| <= MaxInt(0, |track.curvePointsVecs| - 3)
    ensures |track.outerPoints| <= MaxInt(0, |track.curvePointsVecs| - 3)
  {
    var samples := Samples(track.points);
    CompressNoRepeats(samples);
    SamplesCount(track.points);
    SubsequenceNoLonger(track.innerPoints, RawOffsets(m, track.curvePointsVecs, 10.0));
    SubsequenceNoLonger(track.outerPoints, RawOffsets(m, track.curvePointsVecs, -10.0));
  }

  /** 19 points give 19 segments of RaceTrackSegments + 1 samples. */
  lemma SamplesCount(points: seq<Vec2>)
    requires |points| == PointAmount - 1
    ensures |Samples(points)| == (PointAmount - 1) * (RaceTrackSegments + 1)
  {
    PointsOfFlatten(points);
    assert |Extend(points, true)| == |points| + 3;
  }
}

=== FILE: vector.dfy ===
/** Two-dimensional vectors. The functional `Vec2` is what the rest of the model
    computes with; the `Vector2` class reproduces the source's in-place
    operations, which update and return the receiver. */
module Vectors {
  import opened Base

  datatype Vec2 = Vec2(x: real, y: real)

  /** The constructor: a single argument fills both coordinates. */
  function Make(x: real, y: Option<real>): (v: Vec2)
    ensures y.None? ==> v.x == x && v.y == x
    ensures y.Some? ==> v.x == x && v.y == y.value
  {
    match y
    case None => Vec2(x, x)
    case Some(b) => Vec2(x, b)
  }

  /** `add`, without the mutation: taking b off again gives a back. */
  function Add(a: Vec2, b: Vec2): (r: Vec2)
    ensures r.x - b.x == a.x && r.y - b.y == a.y
  {
    Vec2(a.x + b.x, a.y + b.y)
  }

  /** `subtract`, without the mutation: the difference is what b needs to
      be moved by to reach a. */
  function Subtract(a: Vec2, b: Vec2): (r: Vec2)
    ensures b.x + r.x == a.x && b.y + r.y == a.y
  {
    Vec2(a.x - b.x, a.y - b.y)
  }

  /** Component-wise product, as `multiply`: the unit vector leaves a vector
      alone, and a factor with no zero coordinate can be divided out again. */
  function Multiply(a: Vec2, b: Vec2): (r: Vec2)
    ensures b == Make(1.0, None) ==> r == a
    ensures b.x != 0.0 && b.y != 0.0 ==> Vec2(r.x / b.x, r.y / b.y) == a
  {
    Vec2(a.x * b.x, a.y * b.y)
  }

  /** Multiplication by `Make(k, None)`, the source's way of scaling. */
  function Scale(a: Vec2, k: real): Vec2 { Multiply(a, Make(k, None)) }

  /** Rotation by `angle`: both new coordinates are computed from the old
      ones, so when sin² + cos² = 1 the squared length is kept. */
  function Rotate(m: MathLib, v: Vec2, angle: real): (r: Vec2)
    ensures Pythagorean(m) ==> SquaredLength(r) == SquaredLength(v)
  {
    RotationIdentity(v.x, v.y, Cos(m, angle), Sin(m, angle));
    Vec2(v.x * Cos(m, angle) - v.y * Sin(m, angle), v.x * Sin(m, angle) + v.y * Cos(m, angle))
  }

  /** Rotating (x, y) by a unit (c, s) keeps x² + y². */
  lemma RotationIdentity(x: real, y: real, c: real, s: real)
    ensures s * s + c * c == 1.0 ==>
              (x * c - y * s) * (x * c - y * s) + (x * s + y * c) * (x * s + y * c) == x * x + y * y
  {
    var xx, yy, xy := x * x, y * y, x * y;
    assert (x * c - y * s) * (x * c - y * s) == xx * (c * c) - 2.0 * xy * (c * s) + yy * (s * s);
    assert (x * s + y * c) * (x * s + y * c) == xx * (s * s) + 2.0 * xy * (c * s) + yy * (c * c);
    assert xx * (c * c) + xx * (s * s) == xx * (s * s + c * c);
    assert yy * (s * s) + yy * (c * c) == yy * (s * s + c * c);
  }

  function Dot(a: Vec2, b: Vec2): real { a.x * b.x + a.y * b.y }

  /** The squared length, which is `Dot(v, v)`. */
  function SquaredLength(v: Vec2): real { v.x * v.x + v.y * v.y }

  /** `length`: Math.sqrt(x*x + y*y), the square root of the vector's dot
      product with itself; the zero vector has the root of zero. */
  function Length(m: MathLib, v: Vec2): (l: real)
    ensures l == Sqrt(m, Dot(v, v))
    ensures v == Vec2(0.0, 0.0) ==> l == Sqrt(m, 0.0)
  {
    Sqrt(m, SquaredLength(v))
  }

  /** `distance`: the square root of the summed squared coordinate
      differences; a point is at the root of zero from itself. */
  function Distance(m: MathLib, a: Vec2, b: Vec2): (d: real)
    ensures a == b ==> d == Sqrt(m, 0.0)
  {
    Length(m, Subtract(a, b))
  }

  /** The distance is the same measured from either end. */
  lemma DistanceSymmetric(m: MathLib, a: Vec2, b: Vec2)
    ensures Distance(m, a, b) == Distance(m, b, a)
  {
    assert SquaredLength(Subtract(a, b)) == SquaredLength(Subtract(b, a));
  }

  /** Division of both coordinates by the length; the source yields NaN for a
      zero-length vector, so the model requires a non-zero length. */
  function Normalize(m: MathLib, v: Vec2): (u: Vec2)
    requires Length(m, v) != 0.0
    ensures Scale(u, Length(m, v)) == v
  {
    var l := Length(m, v);
    Vec2(v.x / l, v.y / l)
  }

  function ToArray(v: Vec2): (a: seq<real>)
    ensures |a| == 2 && Vec2(a[0], a[1]) == v
  {
    [v.x, v.y]
  }

  function Negate(v: Vec2): Vec2 { Vec2(-v.x, -v.y) }

  /** Rotation is linear, so opposite vectors stay opposite. */
  lemma RotateNegate(m: MathLib, v: Vec2, angle: real)
    ensures Rotate(m, Negate(v), angle) == Negate(Rotate(m, v, angle))
  {
  }

  /** sin² + cos² = 1 for every angle: the property of the trigonometric
      functions under which a rotation is rigid. */
  ghost predicate Pythagorean(m: MathLib) {
    forall a: real {:trigger Sin(m, a)} :: Sin(m, a) * Sin(m, a) + Cos(m, a) * Cos(m, a) == 1.0
  }

  /** Rotation distributes over subtraction. */
  lemma RotateSubtract(m: MathLib, a: Vec2, b: Vec2, angle: real)
    ensures Subtract(Rotate(m, a, angle), Rotate(m, b, angle)) == Rotate(m, Subtract(a, b), angle)
  {
    var s, c := Sin(m, angle), Cos(m, angle);
    assert (a.x - b.x) * c == a.x * c - b.x * c && (a.y - b.y) * s == a.y * s - b.y * s;
    assert (a.x - b.x) * s == a.x * s - b.x * s && (a.y - b.y) * c == a.y * c - b.y * c;
  }

  /** A rotation keeps lengths (a car's outline is rotated rigidly). */
  lemma RotateKeepsLength(m: MathLib, v: Vec2, angle: real)
    requires Pythagorean(m)
    ensures Length(m, Rotate(m, v, angle)) == Length(m, v)
  {
  }

  /** Rotating two points by the same angle keeps their distance. */
  lemma RotateKeepsDistance(m: MathLib, a: Vec2, b: Vec2, angle: real)
    requires Pythagorean(m)
    ensures Distance(m, Rotate(m, a, angle), Rotate(m, b, angle)) == Distance(m, a, b)
  {
    RotateSubtract(m, a, b, angle);
  }

  /** Math.sqrt(x*x + y*y) is positive for a non-zero vector: the property of
      the square root the model relies on when the source divides by a length. */
  ghost predicate LengthPositive(m: MathLib) {
    forall v: Vec2 :: v != Vec2(0.0, 0.0) ==> Length(m, v) > 0.0
  }

  /** The source's mutable vector: `add`, `subtract` and `multiply` update the
      receiver and return it, so aliasing (`v.add(v)`) is observable. */
  class Vector2 {
    var x: real
    var y: real

    constructor (x0: real, y0: Option<real>)
      ensures Vec2(x, y) == Make(x0, y0)
    {
      x := x0;
      y := if y0.Some? then y0.value else x0;
    }

    function Value(): Vec2
      reads this
    {
      Vec2(x, y)
    }

    method AddInPlace(v: Vector2) returns (r: Vector2)
      modifies this
      ensures r == this
      ensures Value() == Add(old(Value()), old(v.Value()))
    {
      x := x + v.x;
      y := y + v.y;
      r := this;
    }

    method SubtractInPlace(v: Vector2) returns (r: Vector2)
      modifies this
      ensures r == this
      ensures Value() == Subtract(old(Value()), old(v.Value()))
    {
      x := x - v.x;
      y := y - v.y;
      r := this;
    }

    method MultiplyInPlace(v: Vector2) returns (r: Vector2)
      modifies this
      ensures r == this
      ensures Value() == Multiply(old(Value()), old(v.Value()))
    {
      x := x * v.x;
      y := y * v.y;
      r := this;
    }

    /** The new y is computed from the old x, kept in a temporary. */
    method RotateInPlace(m: MathLib, angle: real) returns (r: Vector2)
      modifies this
      ensures r == this
      ensures Value() == Rotate(m, old(Value()), angle)
    {
      var newX := x * Cos(m, angle) - y * Sin(m, angle);
      var newY := x * Sin(m, angle) + y * Cos(m, angle);
      x := newX;
      y := newY;
      r := this;
    }

    method Clone() returns (c: Vector2)
      ensures fresh(c)
      ensures c.Value() == Value()
    {
      c := new Vector2(x, Some(y));
    }
  }

  /** Adding a distinct vector and then subtracting it restores the receiver
      and leaves the argument untouched. */
  method AddThenSubtract(a: Vector2, b: Vector2)
    requires a != b
    modifies a
    ensures a.Value() == old(a.Value()) && b.Value() == old(b.Value())
  {
    var _ := a.AddInPlace(b);
    var _ := a.SubtractInPlace(b);
  }

  /** A clone is independent: changing it leaves the original intact. */
  method CloneIsIndependent(a: Vector2, d: Vector2)
    modifies a
    ensures a.Value() == old(a.Value())
  {
    var c := a.Clone();
    var _ := c.AddInPlace(d);
  }
}
